=== FILE: README.md ===
# NK-FEMeshUtils in Dafny

This project models the core of NK-FEMeshUtils, a Python 2 library for finite-element shell meshes in two fixed-column CAE deck formats. The core has four parts.

- **Readers.** `readDynaMesh` handles LS-DYNA keyword decks and `readRadiossMesh` handles Radioss starter decks. Each is one forward pass over the deck's lines. Per-section flags and a shared data-line counter drive the pass, and fields come from fixed Python slices.
- **Round-trip writers.** `writeDynaMesh` and `writeRadiossMesh` copy the baseline deck the mesh was read from. They regenerate node lines from the node table. The LS-DYNA writer moves elements of TRB (tailor-rolled blank, variable-thickness) parts into an `*ELEMENT_SHELL_THICKNESS` regime. The Radioss writer rewrites the thickness column of shell lines.
- **Mesh store.** This is class `Mesh` of FE_Mesh.py: keyed tables with insert semantics, flat-path area and volume, and the materialisation of `Part` objects (`InitPartObj`, `InitAllObj`). The packaged copy in NK_FEMeshUtils/Mesh.py is also modelled. It shares the tables but imports almost nothing, so its methods end in NameError.
- **Node record.** This is FEMeshEntities/Node.py.

How Python is modelled:

- Readers and writers are folds over `seq<string>`, with a state datatype.
- A Python exception is the `Failure` of a `Result`.
- `int()`, `float()` and `%Nd`/`%N.Mf` formatting are opaque functions. They are the parameters `Conv` and `Fmt`.
- `strip()`, clamped slices and the substring test `in` are modelled exactly, in module `PyStr`.
- Python 2 dictionary iteration order is an explicit parameter. Every result that does not depend on it in the model is stated against an order-free reference definition. Sums are over exact reals, so this order-freedom holds of the model; the program's floating-point sums can round differently in different orders.
- A variable that the Python code reads before any line could have assigned it is an `Option`. Reading `None` is NameError.
- The thickness side tables are keyed by `PyKey`, which is either an integer or text. The readers store text keys and the writers look up integer keys. Lemmas show that these lookups never match.

Modules:

| file | module | models |
|---|---|---|
| wrappers.dfy | Wrappers | `Option` and `Result` |
| python.dfy | Python | exceptions, conversions, heterogeneous dictionary keys |
| pystr.dfy | PyStr | `strip`, slices, `in`, `split`/`join` |
| vectors.dfy | Vectors | 3-vectors and the cross product |
| sums.dfy | Sums | sums over sequences and sets of IDs |
| node.dfy | NodeEntity | FEMeshEntities/Node.py |
| objects.dfy | Objects | `Material`, `Property`, `Tria`, `Quad`, `Part` of FE_Mesh.py |
| mesh_store.dfy | MeshStore | the tables and `add*`/`get*` of class `Mesh` |
| flat_geometry.dfy | FlatGeometry | `getAreaByElemID`, `getVolumeByElemID`, `getVolumeByPartID`, `getAreaByPartID` |
| materialize.dfy | Materialize | `InitPartObj`, `InitAllObj` |
| packaged_mesh.dfy | PackagedMesh | what differs in NK_FEMeshUtils/Mesh.py |
| dyna_reader.dfy | DynaReader | `readDynaMesh` |
| radioss_reader.dfy | RadiossReader | `readRadiossMesh` |
| dyna_writer.dfy | DynaWriter | `writeDynaMesh` |
| radioss_writer.dfy | RadiossWriter | `writeRadiossMesh` |

Two places where the code is followed rather than a looser reading of the formats:

- A comment line is any line that contains `$` (LS-DYNA) or `#` (Radioss) anywhere, because the code tests `"$" in line`. The marker does not have to start the line.
- A Radioss section closes on any line containing `/`, and a line containing `*` closes every LS-DYNA section. This happens whether or not the line starts with the marker.

## Model

| member | source | states |
|---|---|---|
| PyStr.StripSpec | FEMeshUtils/MeshReaders.py:38 | `strip()` gives text with no whitespace at either end, made only of characters of the input, and empty exactly when the input is all whitespace |
| PyStr.LStripSpec | FEMeshUtils/MeshReaders.py:38 | the leading-whitespace cut leaves a suffix of the input that starts with a non-space, and everything cut off is whitespace |
| PyStr.RStripSpec | FEMeshUtils/MeshReaders.py:38 | the trailing-whitespace cut leaves a prefix of the input that ends with a non-space, and everything cut off is whitespace |
| PyStr.SplitFields | FEMeshUtils/MeshReaders.py:187 | no field produced by `split("/")` contains the separator |
| PyStr.Slice | FEMeshUtils/MeshReaders.py:42 | `line[a:b]` with Python's clamping: it is the characters from position a up to b that exist, and it is empty past the end |
| PyStr.Mark | FEMeshUtils/MeshReaders.py:41 | `"$" in line` for a one-character marker holds exactly when the character occurs in the line |
| PyStr.SlashToken | FEMeshUtils/MeshReaders.py:187 | `line.strip().split("/")[k]`: the k-th field between slashes of the stripped line, or no value (IndexError) when there are too few fields |
| PyStr.SlashTokenOfKeyword | FEMeshUtils/MeshReaders.py:224 | for a stripped line `/A/B/<id>/...` the token at the ID's index is `<id>` |
| PyStr.SplitJoin | FEMeshUtils/MeshReaders.py:198 | splitting on `/` and joining back gives the original text, so no character is lost |
| Python.Int | FE_Mesh.py:221 | `int(text)` succeeds exactly when the conversion yields a number; otherwise ValueError |
| Python.Float | FE_Mesh.py:234 | `float(text)` succeeds exactly when the conversion yields a number; otherwise ValueError |
| Python.Lookup | FE_Mesh.py:240 | `d[k]` returns the stored value when the key is present; otherwise KeyError |
| NodeEntity.New | FEMeshEntities/Node.py:6-11 | a new node has the given ID, coordinates equal to the first three entries of the triple, and thickness 0.0; a shorter triple raises IndexError |
| NodeEntity.SetCoord | FEMeshEntities/Node.py:13-16 | `getCoord()` afterwards returns the new triple; ID and thickness are unchanged |
| NodeEntity.SetThickness | FEMeshEntities/Node.py:18-19 | `getThickness()` afterwards returns t; ID and coordinates are unchanged |
| Objects.CalcThickness | FE_Mesh.py:62-66 | the element thickness times its node count equals the sum of its node thicknesses; nodes, ID and shape are unchanged |
| Objects.CalcThicknessOfUniformNodes | FE_Mesh.py:100-105 | if every node has thickness t, the averaged thickness is t |
| Objects.CalcThicknessBetween | FE_Mesh.py:100-105 | the averaged thickness lies between the least and the greatest node thickness |
| Objects.Volume | FE_Mesh.py:77-79 | `getVolume()` yields a value exactly when the thickness is not 0.0, and the value is area times thickness |
| Objects.NewPart | FE_Mesh.py:123-131 | a new part has the given ID, title, material and property, is not TRB, and has no elements or nodes |
| Objects.AddNodes | FE_Mesh.py:136-137 | the node map gains exactly the listed IDs; for a repeated ID the last node wins; other entries are kept |
| Objects.AddElem | FE_Mesh.py:133-137 | the element is stored under its ID; its node IDs join the node map, each under the last of the element's nodes with that ID, and every other node entry is kept; ID, title, material, property and flag are kept |
| Objects.SetTRB | FE_Mesh.py:175-176 | only the TRB flag changes, and it becomes the given value |
| Objects.SumAreaIsSetSum | FE_Mesh.py:151-155 | the part area sums the element areas once per element key; over exact reals the value does not depend on the iteration order |
| Objects.SumVolumeIsSetSum | FE_Mesh.py:157-161 | a defined TRB volume sums the element volumes once per element key; over exact reals the value does not depend on the iteration order |
| Objects.SumVolumeDefined | FE_Mesh.py:157-161 | the TRB volume sum is defined exactly when no element has thickness 0.0; otherwise `None + float` raises TypeError |
| Objects.UniformPartMass | FE_Mesh.py:163-167 | a non-TRB part of N elements of area A has volume N·A·T and mass equal to density times volume |
| Vectors.TriangleCrossProductsAgree | FE_Mesh.py:389-400 | for a triangle the flat-path cross product (c−a)×(c−b) equals `Tria.getArea`'s (b−a)×(c−a), over exact reals |
| MeshStore.AddNode | FE_Mesh.py:220-221 | the node is stored under `int(NodeID)` with the three parsed coordinates and overwrites any earlier entry; other nodes are kept; a failed conversion is ValueError |
| MeshStore.AddElem | FE_Mesh.py:223-231 | three node fields store a 4-entry row and four store a 5-entry row; any other count stores nothing; the element ID is always appended to its part's list |
| MeshStore.AddNodalThickness | FE_Mesh.py:233-234 | the key is stored exactly as given, not converted, with the parsed thickness |
| MeshStore.AddElementalThickness | FE_Mesh.py:236-237 | the key is stored exactly as given, not converted, with the parsed thickness |
| MeshStore.GetNodalThickness | FE_Mesh.py:239-240 | a plain lookup with the key as given: KeyError for an absent key |
| MeshStore.GetElementalThickness | FE_Mesh.py:242-243 | a plain lookup with the key as given: KeyError for an absent key |
| MeshStore.IntLookupMissesTextKeys | FE_Mesh.py:233-243 | when every side-table key is text, a lookup with an integer key raises KeyError |
| MeshStore.AddPart | FE_Mesh.py:245-246 | stores `[title, int(PropID), int(MatID)]` under `int(PartID)`; the title is kept as given |
| MeshStore.AddMat | FE_Mesh.py:248-249 | only the ID is converted; density and modulus stay text |
| MeshStore.AddProp | FE_Mesh.py:251-252 | stores `float(Thickness)` under `int(PropID)` |
| MeshStore.AddElemTwiceListsTwice | FE_Mesh.py:228-231 | adding the same element twice lists its ID twice for its part: the per-part list is not de-duplicated |
| MeshStore.AddElemKeepsWellFormed | FE_Mesh.py:223-227 | the element table keeps every element at three or four nodes |
| FlatGeometry.NodesByElemID | FE_Mesh.py:426-427 | the stored row without its part ID, or KeyError |
| FlatGeometry.AreaByElemID | FE_Mesh.py:389-400 | defined exactly when the element exists with 3 or 4 stored nodes; a quad's area is half the norm of (c−a)×(d−b); with more than 4 nodes `d` is unbound and NameError is raised |
| FlatGeometry.TriangleAreaMatchesTria | FE_Mesh.py:389-400 | the flat triangle area equals half the norm of (b−a)×(c−a), the `Tria.getArea` formula |
| FlatGeometry.VolumeByElemID | FE_Mesh.py:402-411 | area times the elemental thickness under the integer key if present, otherwise times the thickness of the part's property; KeyError when the part or property is missing |
| FlatGeometry.VolumeIgnoresTextKeys | FE_Mesh.py:404-410 | with text side-table keys, as the readers store them, the property thickness is always the one used |
| FlatGeometry.VolumeSum | FE_Mesh.py:378-380 | defined exactly when every listed element's volume is, and then the sum of the volumes in list order |
| FlatGeometry.VolumeByPartID | FE_Mesh.py:373-380 | KeyError for a part with no list, otherwise the volume sum over `PartElemlist[PartID]` |
| FlatGeometry.VolumeSumAppend | FE_Mesh.py:378-380 | the sum over two lists, one after the other, is the sum of the two sums |
| FlatGeometry.RepeatedElementCountsTwice | FE_Mesh.py:378-380 | an element listed twice for a part contributes its volume twice |
| FlatGeometry.AreaByPartID | FE_Mesh.py:382-387 | defined exactly when every element of the part has its geometry; the value is the sum of their areas, which over exact reals is the same for every iteration order |
| Materialize.MkNode | FE_Mesh.py:298 | a node object built from a stored node has its coordinates and thickness 0.0; an absent node is KeyError |
| Materialize.BuildElem | FE_Mesh.py:297-309 | a 5-entry row becomes a Quad and a 4-entry row a Tria, over fresh node copies in row order; a missing node is KeyError |
| Materialize.CollectElems | FE_Mesh.py:294-309 | the element loop fails exactly when a selected element has a missing node; it changes only the part's elements and nodes |
| Materialize.CollectElemsElems | FE_Mesh.py:294-309 | the loop adds exactly the elements of the part among the listed keys, each built from its row |
| Materialize.CollectElemsNodes | FE_Mesh.py:294-309 | the loop registers exactly the nodes those elements refer to, each a fresh copy |
| Materialize.InitPartObj | FE_Mesh.py:254-312 | empty `Nodelist`, then empty `Elemlist`, raise in that order; the resolve branch always raises KeyError; otherwise the part has the generic defaults and exactly the part's elements and their nodes, and is cached under PartID |
| Materialize.FlatAreaMatchesElemArea | FE_Mesh.py:389-400 | the flat area of a stored element equals the object area of the element built from it |
| Materialize.FlatAreaMatchesObjectArea | FE_Mesh.py:382-387 | for a materialised part, `getAreaByPartID` equals `getPartArea` over exact reals, whatever the iteration order |
| Materialize.DefaultPartVolumeAndMass | FE_Mesh.py:264-271 | a materialised part has volume equal to its area and mass 7.9e-9 times its area |
| Materialize.MaterialisedTrbVolumeFails | FE_Mesh.py:157-161 | elements built by `InitPartObj` have thickness 0.0, so a non-empty materialised part switched to TRB raises TypeError in `getPartVolume` |
| Materialize.InitOne | FE_Mesh.py:316-348 | a non-resolving part stores the previous `part` under its own ID, or raises NameError when there is none; a resolving part raises only ValueError or KeyError, and otherwise becomes the new `part`, carries its own ID and is stored under it |
| Materialize.InitOneResolved | FE_Mesh.py:321-348 | a resolving part succeeds exactly when its density and modulus convert and every node of its elements exists, and it is then the part built from its own material, property and elements |
| Materialize.InitPartsKeys | FE_Mesh.py:316-348 | after n iterations the cache holds exactly its earlier keys and the first n listed part IDs |
| Materialize.InitAllObj | FE_Mesh.py:314-348 | on success every part ID gets a cache entry and all other entries are kept |
| Materialize.LoopCache | FE_Mesh.py:316-348 | the cache the loop leaves behind keeps every earlier key and, when no part raises, is the loop's result |
| Materialize.LoopCacheStops | FE_Mesh.py:316-348 | a failing loop stops at one part: every part before it succeeds, that part raises the loop's error, and the cache is the one the parts before it left |
| Materialize.InitAllObjCache | FE_Mesh.py:314-348 | the cache after `InitAllObj`, whether or not it raised; on success it is the returned cache |
| Materialize.InitAllObjFailureCache | FE_Mesh.py:316-348 | when the j-th part raises, the cache holds exactly its earlier keys and the first j part IDs, keys the loop did not reach keep their entries, and the j-th part's error is the one raised |
| Materialize.InitPartsPrefix | FE_Mesh.py:316-348 | the loop stops at its first failing part: every prefix of a successful loop succeeds |
| Materialize.InitAllObjSucceeds | FE_Mesh.py:316-348 | succeeds exactly when the first part in iteration order resolves and every resolving part can be built |
| Materialize.UnresolvedPartCopiesPrevious | FE_Mesh.py:348 | a part whose property or material is missing gets the entry of the part before it: the stale `part` |
| Materialize.InitAllObjEntries | FE_Mesh.py:316-348 | a resolving part's entry is the part built from its tables; a non-resolving part's entry has another part's ID |
| PackagedMesh.New | NK_FEMeshUtils/Mesh.py:5-22 | construction raises NameError because `logging` is not imported |
| PackagedMesh.InitPartObj | NK_FEMeshUtils/Mesh.py:58-116 | never yields a part; it raises Missing Nodes, then Missing Elements, then KeyError in the resolve branch, and otherwise NameError at `Property` |
| PackagedMesh.InitPartObjAgrees | NK_FEMeshUtils/Mesh.py:58-96 | wherever the top-level `InitPartObj` raises before materialising, the packaged one raises the same error; where the top-level one succeeds, the packaged one raises NameError |
| PackagedMesh.InitOne | NK_FEMeshUtils/Mesh.py:120-152 | a resolving part raises NameError at `Property`; a non-resolving one stores `part` or raises NameError when it is unbound |
| PackagedMesh.InitAllObj | NK_FEMeshUtils/Mesh.py:118-152 | succeeds, leaving the cache unchanged, exactly when there are no parts; otherwise NameError |
| PackagedMesh.InitAllObjAgrees | NK_FEMeshUtils/Mesh.py:118-152 | without parts both classes return the cache unchanged |
| PackagedMesh.AreaByElemID | NK_FEMeshUtils/Mesh.py:193-196 | always raises: KeyError for an unknown element, and NameError for every stored one, because `np` is loaded before any node is looked up |
| PackagedMesh.AreaAlwaysFails | NK_FEMeshUtils/Mesh.py:193-204 | the packaged element area never yields a value |
| PackagedMesh.AreaAgrees | NK_FEMeshUtils/Mesh.py:193-204 | where the top-level area is defined the packaged one raises NameError; for an unknown element both raise KeyError |
| PackagedMesh.VolumeByElemID | NK_FEMeshUtils/Mesh.py:206-215 | always raises, with the area's error |
| PackagedMesh.VolumeSum | NK_FEMeshUtils/Mesh.py:182-184 | 0.0 for an empty list; otherwise the first element's error |
| PackagedMesh.VolumeByPartID | NK_FEMeshUtils/Mesh.py:177-184 | KeyError for an unknown part; succeeds with 0.0 exactly when the part's list is empty |
| PackagedMesh.VolumeByPartIDAgrees | NK_FEMeshUtils/Mesh.py:177-215 | where the top-level part volume is defined, the packaged one raises NameError for a non-empty list and agrees on 0.0 for an empty one |
| PackagedMesh.AreaByPartID | NK_FEMeshUtils/Mesh.py:186-196 | 0.0 exactly when no stored element belongs to the part; otherwise NameError from the first such element |
| DynaReader.AddCornerThickness | FEMeshUtils/MeshReaders.py:66-71 | succeeds exactly when all four thickness fields parse, otherwise ValueError; stores the thicknesses of `[0:16]`, `[17:32]`, `[33:48]`, `[49:64]` under the four node fields as text, in that order, and changes nothing else |
| DynaReader.Body | FEMeshUtils/MeshReaders.py:41-145 | a data-line handler never opens or closes a section |
| DynaReader.KeywordLine | FEMeshUtils/MeshReaders.py:38-140 | a line whose stripped text is a recognised keyword opens exactly that section and closes all others; the counter resets except for `*NODE` and `*ELEMENT_SHELL`; nothing else changes |
| DynaReader.StarLine | FEMeshUtils/MeshReaders.py:43-146 | any other line containing `*` closes every section and changes nothing else |
| DynaReader.CommentLine | FEMeshUtils/MeshReaders.py:41-145 | a line with `$` and no `*` changes nothing, so an open section stays open |
| DynaReader.StrayDataLine | FEMeshUtils/MeshReaders.py:41-145 | a data line with no section open changes nothing |
| DynaReader.DataLine | FEMeshUtils/MeshReaders.py:41-145 | a data line goes to the handler of the one open section, and only to it |
| DynaReader.NodeDataLine | FEMeshUtils/MeshReaders.py:41-42 | a `*NODE` data line is `addNode(line[0:8], line[9:24], line[25:40], line[41:56])` |
| DynaReader.ElemDataLine | FEMeshUtils/MeshReaders.py:49-50 | an `*ELEMENT_SHELL` data line always adds a four-node element from `[0:8]`, `[9:16]` and the four 8-wide node columns |
| DynaReader.ThickElementLine | FEMeshUtils/MeshReaders.py:58-65 | counter 0 adds the element, keeps its node fields and sets the counter to 1 |
| DynaReader.ThickValuesLine | FEMeshUtils/MeshReaders.py:66-71 | counter 1 stores four nodal thicknesses from `[0:16]`, `[17:32]`, `[33:48]`, `[49:64]`, keyed by the previous line's node fields, and resets the counter |
| DynaReader.CountedDataLine | FEMeshUtils/MeshReaders.py:79-144 | in a part, material or shell-section block every data line advances the counter by one |
| DynaReader.OffRecordLine | FEMeshUtils/MeshReaders.py:79-144 | off its record line (0 for the plain material, 2 for the titled shell section, 1 otherwise) a block stores nothing and cannot fail |
| DynaReader.PartRecordLine | FEMeshUtils/MeshReaders.py:79-85 | the second `*PART` data line stores `[0:10]`, `[11:20]`, `[21:30]` under the title from the first |
| DynaReader.MatRecordLine | FEMeshUtils/MeshReaders.py:95-115 | the material record line stores ID, density and modulus from `[0:10]`, `[11:20]`, `[21:30]` |
| DynaReader.ShellRecordLine | FEMeshUtils/MeshReaders.py:124-143 | the shell-section record line stores the property ID read one line earlier with the thickness `[0:10]` |
| DynaReader.CountedBlock | FEMeshUtils/MeshReaders.py:75-146 | inside a counted block the counter equals the number of data lines since the keyword; comment lines do not count |
| DynaReader.OneRecordPerBlock | FEMeshUtils/MeshReaders.py:75-146 | past its record line a block stores nothing more, however many data lines follow |
| DynaReader.StepKeepsValid | FEMeshUtils/MeshReaders.py:38-146 | every line keeps at most one section open, keeps each variable bound before the line that reads it, keeps thickness keys as text and keeps elements at 3 or 4 nodes |
| DynaReader.RunKeepsValid | FEMeshUtils/MeshReaders.py:34-146 | the same invariant holds after any sequence of lines |
| DynaReader.ReadDynaMesh | FEMeshUtils/MeshReaders.py:16-155 | the only possible exception is ValueError (never NameError); the mesh is tagged with the file and "LS-Dyna", has no TRB parts, text thickness keys and 3- or 4-node elements |
| RadiossReader.OpensAtMostOne | FEMeshUtils/MeshReaders.py:177-237 | no keyword is a prefix of another, so a line opens at most one section |
| RadiossReader.KeywordLine | FEMeshUtils/MeshReaders.py:177-241 | a keyword line closes every section and opens its own, with IndexError when its path has no ID |
| RadiossReader.SlashLine | FEMeshUtils/MeshReaders.py:182-248 | any other line containing `/` closes every section and changes nothing else |
| RadiossReader.CommentLine | FEMeshUtils/MeshReaders.py:180-248 | a line with `#` and no `/` changes nothing |
| RadiossReader.StrayDataLine | FEMeshUtils/MeshReaders.py:180-248 | a data line with no section open changes nothing |
| RadiossReader.DataLine | FEMeshUtils/MeshReaders.py:180-248 | a data line goes to the handler of the one open section, and only to it |
| RadiossReader.KeywordId | FEMeshUtils/MeshReaders.py:185-239 | a keyword line whose stripped text is the keyword path followed by an ID opens its section with that ID (token 2, or 3 for `/MAT` and `/PROP`) |
| RadiossReader.KeywordWithoutId | FEMeshUtils/MeshReaders.py:185-239 | a keyword path without an ID field raises IndexError |
| RadiossReader.NodeDataLine | FEMeshUtils/MeshReaders.py:180-181 | a `/NODE` data line is `addNode(line[0:10], line[11:30], line[31:50], line[51:70])` |
| RadiossReader.ShellDataLine | FEMeshUtils/MeshReaders.py:189-203 | `/SH3N` adds 3 nodes and `/SHELL` adds 4, under the keyword's part; a non-blank `[91:100]` stores the thickness under the text ID `[0:10]`, and a blank one stores nothing |
| RadiossReader.CountedDataLine | FEMeshUtils/MeshReaders.py:212-247 | in a part, material or property block every data line advances the counter by one |
| RadiossReader.OffRecordLine | FEMeshUtils/MeshReaders.py:212-247 | off its record line (1 for parts, 2 for materials, 3 for properties) a block stores nothing and cannot fail |
| RadiossReader.PartRecordLine | FEMeshUtils/MeshReaders.py:212-217 | the second `/PART` data line stores the keyword's part with the title line and IDs `[0:10]`, `[11:20]` |
| RadiossReader.MatRecordLine | FEMeshUtils/MeshReaders.py:227-232 | the third material data line stores the modulus `[0:20]` with the density read one line earlier |
| RadiossReader.PropRecordLine | FEMeshUtils/MeshReaders.py:242-246 | the fourth property data line stores the thickness `[21:40]` |
| RadiossReader.CountedBlock | FEMeshUtils/MeshReaders.py:207-249 | inside a counted block the counter equals the number of data lines since the keyword |
| RadiossReader.OneRecordPerBlock | FEMeshUtils/MeshReaders.py:207-249 | past its record line a block stores nothing more |
| RadiossReader.StepKeepsValid | FEMeshUtils/MeshReaders.py:174-249 | every line keeps at most one section open and the open section's ID bound; variables are bound before they are read; thickness keys stay text |
| RadiossReader.RunKeepsValid | FEMeshUtils/MeshReaders.py:173-249 | the same invariant holds after any sequence of lines |
| RadiossReader.ReadRadiossMesh | FEMeshUtils/MeshReaders.py:157-260 | the only possible exceptions are ValueError and IndexError; the mesh is tagged with the file and "Radioss", has no TRB parts, text thickness keys and 3- or 4-node elements |
| DynaWriter.NodalThickness | FEMeshUtils/MeshReaders.py:289 | the lookup uses `int(field)` as the key: ValueError for a non-integer field, then KeyError for an absent key, else exactly the thickness stored under that integer key |
| DynaWriter.ThicknessLine | FEMeshUtils/MeshReaders.py:289-294 | succeeds exactly when all four node fields (columns 17-24, 25-32, 33-40, 41-48) look up; the line is then the four stored thicknesses, each `%16.8f`, then a newline; otherwise ValueError or KeyError |
| DynaWriter.NodeRecord | FEMeshUtils/MeshReaders.py:308-312 | the node record is regenerated under `int(line[0:8])`: ValueError for a non-integer ID, KeyError for an unknown node, else the `%8i%16.10f`×3 text of that ID and the node table's coordinates |
| DynaWriter.StepShape | FEMeshUtils/MeshReaders.py:279-347 | a line with `$` or `*` is copied alone and unchanged; a data line keeps its text unless a node section regenerates it; headers and thickness lines surround element lines only; errors are ValueError or KeyError |
| DynaWriter.RegimeHeader | FEMeshUtils/MeshReaders.py:279-303 | a header is inserted exactly when the element's regime (TRB part or not) is not the one last written, and it names that regime |
| DynaWriter.TrbThicknessLine | FEMeshUtils/MeshReaders.py:280-295 | a TRB element line is followed by its `%16.8f`×4 line of nodal thicknesses; any other element line by nothing |
| DynaWriter.TrbLookupFailsAfterRead | FEMeshUtils/MeshReaders.py:289-292 | after a read (text thickness keys) the first TRB element line with a parsable node field raises KeyError |
| DynaWriter.ThickDataVerbatim | FEMeshUtils/MeshReaders.py:304-305 | data lines of a baseline `*ELEMENT_SHELL_THICKNESS` section are copied unchanged |
| DynaWriter.NodeDataLine | FEMeshUtils/MeshReaders.py:307-313 | a node data line becomes `%8i%16.10f%16.10f%16.10f` of the stored node |
| DynaWriter.KeywordFlags | FEMeshUtils/MeshReaders.py:314-341 | the three recognised keywords set all five flags as listed in the source |
| DynaWriter.OtherKeywordFlags | FEMeshUtils/MeshReaders.py:342-347 | another `*` line leaves the element and node sections, but one that only contains `*ELEMENT_SHELL` or `*NODE` keeps every flag |
| DynaWriter.RunShape | FEMeshUtils/MeshReaders.py:278-347 | one chunk per baseline line, in order; non-data lines are copied; only data lines change; inserted headers are the two regime headers; a chunk whose main line differs from its baseline line comes from a data line met while the loop is in the node section |
| DynaWriter.WriteDynaMesh | FEMeshUtils/MeshReaders.py:262-348 | the output is the three banner lines followed by the chunks of the baseline lines; it fails exactly when a line fails, with ValueError or KeyError |
| RadiossWriter.PartInt | FEMeshUtils/MeshReaders.py:377 | `int(partid)` for the integer initial value or the text ID from the keyword |
| RadiossWriter.StepShape | FEMeshUtils/MeshReaders.py:369-417 | the starter line is followed by the banner; every other line gives one line, which is the line itself unless it is a data line of an open section; at most one flag is set |
| RadiossWriter.ShellDataLine | FEMeshUtils/MeshReaders.py:374-382 | a shell line becomes `line[0:90]` + `%10.8f` + newline, with the stored thickness exactly when the table is non-empty and the part is TRB, and 0.0 otherwise |
| RadiossWriter.ThicknessLookupFailsAfterRead | FEMeshUtils/MeshReaders.py:376-378 | after a read (text keys, non-empty table) a shell line of a TRB part raises KeyError |
| RadiossWriter.ThicknessColumnsDiffer | FEMeshUtils/MeshReaders.py:382 | the written field occupies `[90:100]`, while the reader takes `[91:100]`, which is the field without its first character |
| RadiossWriter.NodeDataLine | FEMeshUtils/MeshReaders.py:383-389 | a node data line becomes `%10i%20.14f%20.14f%20.14f` of the stored node; KeyError for an unknown node |
| RadiossWriter.ShellKeywordLine | FEMeshUtils/MeshReaders.py:390-404 | `/SH3N` and `/SHELL` switch to that element section alone, with the part from the keyword path |
| RadiossWriter.SlashLine | FEMeshUtils/MeshReaders.py:411-415 | any other `/` line clears all three flags and is copied |
| RadiossWriter.RunShape | FEMeshUtils/MeshReaders.py:368-417 | one chunk per baseline line, in order; the starter line's chunk is the line plus the banner, every other chunk is one line; only data lines change |
| RadiossWriter.WriteRadiossMesh | FEMeshUtils/MeshReaders.py:351-419 | the output is the chunks of the baseline lines in order; errors are ValueError, KeyError or IndexError |

## Left out

- File I/O is not modelled. The readers take the deck as a sequence of lines, and the writers take the baseline lines and return the output lines. The uncalled `ofile.close` is not modelled either.
- A writer that raises mid-way leaves a partly written file. The model returns only the exception.
- The banner's `datetime.now()` and `getuser()` are string parameters, because they are nondeterministic.
- `int()`, `float()` and `%` formatting are opaque parameters. No property about number syntax or rounding is stated.
- The Euclidean norm in the area formulas is an uninterpreted function. Only the cross-product vectors are computed, over exact reals, not floating point.
- All geometry is exact real arithmetic: sums, products and averages. The program accumulates IEEE doubles in `getPartArea`, `getPartVolume` and `getAreaByPartID`, whose rounding depends on the iteration order. The order-independence and equality results hold of the model, not bit for bit of the program.
- Python object identity is not modelled: parts, elements and nodes are values. In the program, `InitAllObj` stores the same `part` object under every non-resolving PartID after it, and `Part.addElem` puts the element's own Node objects into the part's `Nodelist`. So a later `setTRB`, `setThickness` or `calcThickness` on one of them is seen through the others. In the model such a change affects only the value it is applied to, which is how Materialize.UnresolvedPartCopiesPrevious, Materialize.InitAllObjEntries and Materialize.MaterialisedTrbVolumeFails state their results.
- Objects.AddElem: the list `ElemObj` that `addElem` also appends to is not modelled. A part's elements are a map keyed by element ID, and `getPartArea` and `getPartVolume` sum over that map. In the program they iterate the list, so an ID added twice counts twice there and once in the model. `getNumElem` is not modelled. `InitPartObj` and `InitAllObj` add each element key once, so for materialised parts the map and the list agree.
- Logging is not modelled: the reader's `*KEYWORD` and `#RADIOSS STARTER` debug lines and the unused imports.
- The writers' unused counter `i` has no effect on output and is not modelled.
- The section flags of the Radioss writer for parts, materials and properties are never set and are not modelled.
- `getMassByPartID` indexes a two-entry material row at position 2, so it always fails. It has no model.
- `getRectangleBounds` is not modelled because it uses numpy minima and maxima over floating point.
- `getNodeObjByID` and `getElemObjByID` are not modelled; they are thin lookups over the object cache.
- The plain getters and setters (`getMeshFile`, `getNodelist`, `getElemByID`, `getPartByID`, ...) are not modelled. The mesh's file name and format are fields. `__init__` sets `Meshformat` while `setMeshFormat` sets `MeshFormat`; the model keeps one format field, set by the reader.
- NK_FEMeshUtils/Quad.py is not part of this model. It depends on a base class that is not available, and its averaging duplicates `Quad.calcThickness`.
- test.py, setup.py and setup_cython.py are a timing driver and packaging, and are not modelled.
- PyStr.StripSpec: the contract does not state that the result is exactly the input with the outer whitespace cut off. The exact statement is split between PyStr.LStripSpec and PyStr.RStripSpec, and the readers need only the weaker facts.
- PackagedMesh.VolumeByElemID: the thickness selection after the area is kept, but no property is stated about it, because the area before it always raises.
- PackagedMesh: all members other than `New` take a mesh as if construction had succeeded, which it cannot.

=== FILE: dyna_reader.dfy ===
/**
 * `readDynaMesh` of FEMeshUtils/MeshReaders.py: one forward pass over the
 * lines of an LS-DYNA keyword deck. Eight section blocks run in order on
 * every line; each opens its section on the exact keyword, handles data lines
 * (no `$`, no `*`) while open, and closes on any other line containing `*`.
 * The blocks share the data-line counter `i` and the variables `n1..n4`,
 * `title` and `prop`.
 */
module DynaReader {
  import opened Wrappers
  import opened Python
  import opened PyStr
  import opened MeshStore

  datatype Section =
    | NodeSec         // *NODE
    | ElemSec         // *ELEMENT_SHELL
    | ElemThickSec    // *ELEMENT_SHELL_THICKNESS
    | PartSec         // *PART
    | MatSec          // *MAT_PIECEWISE_LINEAR_PLASTICITY
    | MatTitleSec     // *MAT_PIECEWISE_LINEAR_PLASTICITY_TITLE
    | ShellSec        // *SECTION_SHELL
    | ShellTitleSec   // *SECTION_SHELL_TITLE

  function Keyword(k: Section): (r: string)
    ensures |r| > 0 && r[0] == '*'
  {
    match k
    case NodeSec => "*NODE"
    case ElemSec => "*ELEMENT_SHELL"
    case ElemThickSec => "*ELEMENT_SHELL_THICKNESS"
    case PartSec => "*PART"
    case MatSec => "*MAT_PIECEWISE_LINEAR_PLASTICITY"
    case MatTitleSec => "*MAT_PIECEWISE_LINEAR_PLASTICITY_TITLE"
    case ShellSec => "*SECTION_SHELL"
    case ShellTitleSec => "*SECTION_SHELL_TITLE"
  }

  /** The blocks in the order the loop body runs them. */
  const Blocks: seq<Section> :=
    [NodeSec, ElemSec, ElemThickSec, PartSec, MatSec, MatTitleSec, ShellSec, ShellTitleSec]

  /** Opening these sections resets the shared counter `i`; `*NODE` and `*ELEMENT_SHELL` do not. */
  predicate Resets(k: Section) {
    k != NodeSec && k != ElemSec
  }

  /** The node fields `n1..n4` of the last `*ELEMENT_SHELL_THICKNESS` element line. */
  datatype Corners = Corners(n1: string, n2: string, n3: string, n4: string)

  /**
   * The reader's loop state: the open sections (one Python flag each), the
   * counter `i`, the variables carried between lines (unbound until first
   * assigned) and the mesh being filled.
   */
  datatype State = State(
    open: set<Section>,
    i: nat,
    corners: Option<Corners>,
    title: Option<string>,
    prop: Option<string>,
    mesh: Mesh)

  /** A data line: `not ("$" in line or "*" in line)`. */
  predicate IsData(line: string) {
    !(Mark(line, '$') || Mark(line, '*'))
  }

  /** An LS-DYNA reader state with the mesh an `add*` call returned, or that call's exception. */
  function WithMesh(st: State, r: Result<Mesh, PyError>): (s: Result<State, PyError>)
    ensures s.Success? <==> r.Success?
    ensures s.Failure? ==> s.error == r.error
    ensures s.Success? ==> s.value == st.(mesh := r.value)
  {
    var m :- r;
    Success(st.(mesh := m))
  }

  /** A `*NODE` data line: `addNode(line[0:8], line[9:24], line[25:40], line[41:56])`. */
  function NodeLine(c: Conv, st: State, line: string): Result<State, PyError> {
    WithMesh(st, AddNode(c, st.mesh, Slice(line, 0, 8), Slice(line, 9, 24), Slice(line, 25, 40), Slice(line, 41, 56)))
  }

  /** The four node fields of an element line. */
  function ElemCorners(line: string): Corners {
    Corners(Slice(line, 17, 24), Slice(line, 25, 32), Slice(line, 33, 40), Slice(line, 41, 48))
  }

  function CornerList(n: Corners): seq<string> {
    [n.n1, n.n2, n.n3, n.n4]
  }

  /** A `*ELEMENT_SHELL` data line: always a four-node `addElem`. */
  function ElemLine(c: Conv, st: State, line: string): Result<State, PyError> {
    WithMesh(st, AddElem(c, st.mesh, Slice(line, 0, 8), Slice(line, 9, 16), CornerList(ElemCorners(line))))
  }

  /** The four thickness fields of a thickness line. */
  function ThicknessFields(line: string): seq<string> {
    [Slice(line, 0, 16), Slice(line, 17, 32), Slice(line, 33, 48), Slice(line, 49, 64)]
  }

  /** Four nodal thicknesses, keyed by the node fields as text. */
  function AddCornerThickness(c: Conv, m: Mesh, n: Corners, line: string): (r: Result<Mesh, PyError>)
    ensures r.Success? <==> forall f :: f in ThicknessFields(line) ==> c.toFloat(f).Some?
    ensures r.Failure? ==> r.error == ValueError
    ensures r.Success? ==>
      var t := ThicknessFields(line);
      r.value == m.(nodalThickness := m.nodalThickness
        [StrKey(n.n1) := c.toFloat(t[0]).value][StrKey(n.n2) := c.toFloat(t[1]).value]
        [StrKey(n.n3) := c.toFloat(t[2]).value][StrKey(n.n4) := c.toFloat(t[3]).value])
  {
    var m1 :- AddNodalThickness(c, m, StrKey(n.n1), Slice(line, 0, 16));
    var m2 :- AddNodalThickness(c, m1, StrKey(n.n2), Slice(line, 17, 32));
    var m3 :- AddNodalThickness(c, m2, StrKey(n.n3), Slice(line, 33, 48));
    AddNodalThickness(c, m3, StrKey(n.n4), Slice(line, 49, 64))
  }

  /**
   * A `*ELEMENT_SHELL_THICKNESS` data line. With `i == 0` it is an element
   * line: remember its node fields, add a four-node element, `i` becomes 1.
   * With `i == 1` it is the thickness line of that element: four nodal
   * thicknesses, `i` becomes 0.
   */
  function ThickLine(c: Conv, st: State, line: string): Result<State, PyError> {
    if st.i == 0 then
      var n := ElemCorners(line);
      var m :- AddElem(c, st.mesh, Slice(line, 0, 8), Slice(line, 9, 16), CornerList(n));
      Success(st.(corners := Some(n), mesh := m, i := st.i + 1))
    else if st.i == 1 then
      var n :- Bound(st.corners);
      var m :- AddCornerThickness(c, st.mesh, n, line);
      Success(st.(mesh := m, i := 0))
    else Success(st)
  }

  /** A `*PART` data line: the title at `i == 0`, `addPart` at `i == 1`, then `i` counts on. */
  function PartLine(c: Conv, st: State, line: string): Result<State, PyError> {
    var s1 := if st.i == 0 then st.(title := Some(Strip(line))) else st;
    var s2 :-
      if st.i == 1 then
        var prop := Slice(line, 11, 20);
        var t :- Bound(s1.title);
        var m :- AddPart(c, s1.mesh, Slice(line, 0, 10), t, prop, Slice(line, 21, 30));
        Success(s1.(prop := Some(prop), mesh := m))
      else Success(s1);
    Success(s2.(i := st.i + 1))
  }

  /** Material ID, density and modulus columns of a material card. */
  function MatCard(c: Conv, st: State, line: string): Result<State, PyError> {
    WithMesh(st, AddMat(c, st.mesh, Slice(line, 0, 10), Slice(line, 11, 20), Slice(line, 21, 30)))
  }

  /** A `*MAT_PIECEWISE_LINEAR_PLASTICITY` data line: `addMat` at `i == 0`. */
  function MatLine(c: Conv, st: State, line: string): Result<State, PyError> {
    var s :- if st.i == 0 then MatCard(c, st, line) else Success(st);
    Success(s.(i := st.i + 1))
  }

  /** A `*MAT_PIECEWISE_LINEAR_PLASTICITY_TITLE` data line: the title at `i == 0`, `addMat` at `i == 1`. */
  function MatTitleLine(c: Conv, st: State, line: string): Result<State, PyError> {
    var s1 := if st.i == 0 then st.(title := Some(Strip(line))) else st;
    var s2 :- if st.i == 1 then MatCard(c, s1, line) else Success(s1);
    Success(s2.(i := st.i + 1))
  }

  /** A `*SECTION_SHELL` data line: the property ID at `i == 0`, `addProp` at `i == 1`. */
  function ShellLine(c: Conv, st: State, line: string): Result<State, PyError> {
    var s1 := if st.i == 0 then st.(prop := Some(Slice(line, 0, 10))) else st;
    var s2 :-
      if st.i == 1 then
        var p :- Bound(s1.prop);
        WithMesh(s1, AddProp(c, s1.mesh, p, Slice(line, 0, 10)))
      else Success(s1);
    Success(s2.(i := st.i + 1))
  }

  /** A `*SECTION_SHELL_TITLE` data line: title at `i == 0`, property ID at `i == 1`, `addProp` at `i == 2`. */
  function ShellTitleLine(c: Conv, st: State, line: string): Result<State, PyError> {
    var s1 := if st.i == 0 then st.(title := Some(Strip(line))) else st;
    var s2 := if st.i == 1 then s1.(prop := Some(Slice(line, 0, 10))) else s1;
    var s3 :-
      if st.i == 2 then
        var p :- Bound(s2.prop);
        WithMesh(s2, AddProp(c, s2.mesh, p, Slice(line, 0, 10)))
      else Success(s2);
    Success(s3.(i := st.i + 1))
  }

  /** The data-line handler of a section. Handlers never open or close sections. */
  function Body(c: Conv, st: State, line: string, k: Section): (r: Result<State, PyError>)
    ensures r.Success? ==> r.value.open == st.open
  {
    match k
    case NodeSec => NodeLine(c, st, line)
    case ElemSec => ElemLine(c, st, line)
    case ElemThickSec => ThickLine(c, st, line)
    case PartSec => PartLine(c, st, line)
    case MatSec => MatLine(c, st, line)
    case MatTitleSec => MatTitleLine(c, st, line)
    case ShellSec => ShellLine(c, st, line)
    case ShellTitleSec => ShellTitleLine(c, st, line)
  }

  /** One section block: open on the exact keyword, handle data while open, close on any other `*` line. */
  function Block(c: Conv, st: State, line: string, k: Section): Result<State, PyError> {
    if Strip(line) == Keyword(k) then
      Success(st.(open := st.open + {k}, i := if Resets(k) then 0 else st.i))
    else if k in st.open && IsData(line) then
      Body(c, st, line, k)
    else if Mark(line, '*') then
      Success(st.(open := st.open - {k}))
    else
      Success(st)
  }

  /** The listed blocks run one after the other on the same line. */
  function RunBlocks(c: Conv, st: State, line: string, ks: seq<Section>): Result<State, PyError>
    decreases |ks|
  {
    if |ks| == 0 then Success(st)
    else
      var s :- Block(c, st, line, ks[0]);
      RunBlocks(c, s, line, ks[1..])
  }

  /** One iteration of the loop over the file's lines. */
  function Step(c: Conv, st: State, line: string): Result<State, PyError> {
    RunBlocks(c, st, line, Blocks)
  }

  /** The loop over the lines; an exception ends the read. */
  function Run(c: Conv, st: State, lines: seq<string>): Result<State, PyError>
    decreases |lines|
  {
    if |lines| == 0 then Success(st)
    else
      var s :- Step(c, st, lines[0]);
      Run(c, s, lines[1..])
  }

  /** A fresh reader over file `file`: no section open, nothing bound, an empty LS-DYNA mesh. */
  function Start(file: string): State {
    State({}, 0, None, None, None, Empty.(file := file, format := "LS-Dyna"))
  }

  /** The sections a block list covers. */
  function Listed(ks: seq<Section>): set<Section> {
    set k | k in ks
  }

  predicate Unique(ks: seq<Section>) {
    forall a, b :: 0 <= a < b < |ks| ==> ks[a] != ks[b]
  }

  lemma BlocksCoverAll()
    ensures Unique(Blocks)
    ensures forall k :: k in Listed(Blocks)
  {
    forall k ensures k in Listed(Blocks) {
      match k
      case NodeSec => assert Blocks[0] == k;
      case ElemSec => assert Blocks[1] == k;
      case ElemThickSec => assert Blocks[2] == k;
      case PartSec => assert Blocks[3] == k;
      case MatSec => assert Blocks[4] == k;
      case MatTitleSec => assert Blocks[5] == k;
      case ShellSec => assert Blocks[6] == k;
      case ShellTitleSec => assert Blocks[7] == k;
    }
  }

  lemma KeywordInjective(a: Section, b: Section)
    ensures Keyword(a) == Keyword(b) ==> a == b
  {
  }

  /** Every keyword contains `*`, so a line without `*` opens nothing. */
  lemma NoStarNoKeyword(line: string, k: Section)
    requires !Mark(line, '*')
    ensures Strip(line) != Keyword(k)
  {
    StripSpec(line);
    var w := Keyword(k);
    assert w[0] in w;
  }

  lemma KeywordHasStar(line: string, k: Section)
    requires Strip(line) == Keyword(k)
    ensures Mark(line, '*')
  {
    StripSpec(line);
    assert Strip(line)[0] in Strip(line);
  }

  lemma {:induction false} KeywordBlocks(c: Conv, st: State, line: string, k: Section, ks: seq<Section>)
    requires Strip(line) == Keyword(k)
    ensures RunBlocks(c, st, line, ks) ==
      Success(st.(open := (st.open - Listed(ks)) + (if k in ks then {k} else {}),
                  i := if k in ks && Resets(k) then 0 else st.i))
    decreases |ks|
  {
    if |ks| > 0 {
      var s := st.(open := if ks[0] == k then st.open + {k} else st.open - {ks[0]},
                   i := if ks[0] == k && Resets(k) then 0 else st.i);
      KeywordBlock(c, st, line, k, ks[0]);
      KeywordBlocks(c, s, line, k, ks[1..]);
      KeywordOpenSets(st.open, s.open, k, ks);
    } else {
      assert k !in ks;
      assert (st.open - Listed(ks)) + {} == st.open;
      assert st.(open := (st.open - Listed(ks)) + {}, i := st.i) == st;
    }
  }

  /** One block on `k`'s keyword line: `k`'s own block opens it, any other block closes its section. */
  lemma KeywordBlock(c: Conv, st: State, line: string, k: Section, b: Section)
    requires Strip(line) == Keyword(k)
    ensures Block(c, st, line, b) ==
      Success(st.(open := if b == k then st.open + {k} else st.open - {b},
                  i := if b == k && Resets(k) then 0 else st.i))
  {
    KeywordInjective(k, b);
    KeywordHasStar(line, k);
  }

  /** The open sets before and after one more block on `k`'s keyword line. */
  lemma KeywordOpenSets(o: set<Section>, o': set<Section>, k: Section, ks: seq<Section>)
    requires |ks| > 0
    requires o' == if ks[0] == k then o + {k} else o - {ks[0]}
    ensures (o' - Listed(ks[1..])) + (if k in ks[1..] then {k} else {}) ==
            (o - Listed(ks)) + (if k in ks then {k} else {})
  {
    assert Listed(ks) == {ks[0]} + Listed(ks[1..]);
    assert (k in ks) == (k == ks[0] || k in ks[1..]);
  }

  lemma {:induction false} StarBlocks(c: Conv, st: State, line: string, ks: seq<Section>)
    requires Mark(line, '*')
    requires forall k :: Strip(line) != Keyword(k)
    ensures RunBlocks(c, st, line, ks) == Success(st.(open := st.open - Listed(ks)))
    decreases |ks|
  {
    if |ks| > 0 {
      var s := st.(open := st.open - {ks[0]});
      assert Block(c, st, line, ks[0]) == Success(s);
      StarBlocks(c, s, line, ks[1..]);
      assert Listed(ks) == {ks[0]} + Listed(ks[1..]);
      assert s.open - Listed(ks[1..]) == st.open - Listed(ks);
    } else {
      assert st.open - Listed(ks) == st.open;
    }
  }

  lemma {:induction false} IdleBlocks(c: Conv, st: State, line: string, ks: seq<Section>)
    requires !Mark(line, '*')
    requires IsData(line) ==> forall j :: 0 <= j < |ks| ==> ks[j] !in st.open
    ensures RunBlocks(c, st, line, ks) == Success(st)
    decreases |ks|
  {
    if |ks| > 0 {
      NoStarNoKeyword(line, ks[0]);
      IdleBlocks(c, st, line, ks[1..]);
    }
  }

  lemma {:induction false} DataBlocks(c: Conv, st: State, line: string, k: Section, ks: seq<Section>)
    requires IsData(line) && st.open == {k}
    requires Unique(ks) && k in ks
    ensures RunBlocks(c, st, line, ks) == Body(c, st, line, k)
    decreases |ks|
  {
    NoStarNoKeyword(line, ks[0]);
    if ks[0] == k {
      var r := Body(c, st, line, k);
      if r.Success? {
        IdleBlocks(c, r.value, line, ks[1..]);
      }
    } else {
      DataBlocks(c, st, line, k, ks[1..]);
    }
  }

  /** A keyword line opens its own section and closes every other one; only the counter may change besides. */
  lemma KeywordLine(c: Conv, st: State, line: string, k: Section)
    requires Strip(line) == Keyword(k)
    ensures Step(c, st, line) == Success(st.(open := {k}, i := if Resets(k) then 0 else st.i))
  {
    BlocksCoverAll();
    KeywordBlocks(c, st, line, k, Blocks);
    assert k in Blocks;
    assert (st.open - Listed(Blocks)) + {k} == {k};
  }

  /** Any other line containing `*` closes every section and changes nothing else. */
  lemma StarLine(c: Conv, st: State, line: string)
    requires Mark(line, '*')
    requires forall k :: Strip(line) != Keyword(k)
    ensures Step(c, st, line) == Success(st.(open := {}))
  {
    BlocksCoverAll();
    StarBlocks(c, st, line, Blocks);
    assert st.open - Listed(Blocks) == {};
  }

  /** A comment line (`$`, no `*`) changes nothing at all. */
  lemma CommentLine(c: Conv, st: State, line: string)
    requires Mark(line, '$') && !Mark(line, '*')
    ensures Step(c, st, line) == Success(st)
  {
    IdleBlocks(c, st, line, Blocks);
  }

  /** An LS-DYNA data line (no `$`, no `*`) with no section open is skipped: no flag selects a handler. */
  lemma StrayDataLine(c: Conv, st: State, line: string)
    requires IsData(line) && st.open == {}
    ensures Step(c, st, line) == Success(st)
  {
    IdleBlocks(c, st, line, Blocks);
  }

  /** A data line goes to the handler of the one open section, and only to it. */
  lemma DataLine(c: Conv, st: State, line: string, k: Section)
    requires IsData(line) && st.open == {k}
    ensures Step(c, st, line) == Body(c, st, line, k)
  {
    BlocksCoverAll();
    DataBlocks(c, st, line, k, Blocks);
  }

  /** A `*NODE` data line adds the node from columns 1-8, 10-24, 26-40 and 42-56. */
  lemma NodeDataLine(c: Conv, st: State, line: string)
    requires IsData(line) && st.open == {NodeSec}
    ensures var r := Step(c, st, line);
      var a := AddNode(c, st.mesh, Slice(line, 0, 8), Slice(line, 9, 24), Slice(line, 25, 40), Slice(line, 41, 56));
      && (r.Success? <==> a.Success?)
      && (r.Success? ==> r.value == st.(mesh := a.value))
  {
    DataLine(c, st, line, NodeSec);
  }

  /** A `*ELEMENT_SHELL` data line adds a four-node element from fixed 8-wide columns. */
  lemma ElemDataLine(c: Conv, st: State, line: string)
    requires IsData(line) && st.open == {ElemSec}
    ensures var r := Step(c, st, line);
      var a := AddElem(c, st.mesh, Slice(line, 0, 8), Slice(line, 9, 16),
                       [Slice(line, 17, 24), Slice(line, 25, 32), Slice(line, 33, 40), Slice(line, 41, 48)]);
      && (r.Success? <==> a.Success?)
      && (r.Success? ==> r.value == st.(mesh := a.value))
  {
    DataLine(c, st, line, ElemSec);
  }

  /** In `*ELEMENT_SHELL_THICKNESS`, counter 0 marks an element line: the element is added and its node fields kept. */
  lemma ThickElementLine(c: Conv, st: State, line: string)
    requires IsData(line) && st.open == {ElemThickSec} && st.i == 0
    ensures var r := Step(c, st, line);
      var a := AddElem(c, st.mesh, Slice(line, 0, 8), Slice(line, 9, 16), CornerList(ElemCorners(line)));
      && (r.Success? <==> a.Success?)
      && (r.Success? ==> r.value == st.(mesh := a.value, corners := Some(ElemCorners(line)), i := 1))
  {
    DataLine(c, st, line, ElemThickSec);
  }

  /**
   * In `*ELEMENT_SHELL_THICKNESS`, counter 1 marks the thickness line of the
   * element before: four nodal thicknesses keyed by that element's node
   * fields as text, and the counter returns to 0.
   */
  lemma ThickValuesLine(c: Conv, st: State, line: string, n: Corners)
    requires IsData(line) && st.open == {ElemThickSec} && st.i == 1 && st.corners == Some(n)
    ensures var r := Step(c, st, line);
      var a := AddCornerThickness(c, st.mesh, n, line);
      && (r.Success? <==> a.Success?)
      && (r.Success? ==> r.value == st.(mesh := a.value, i := 0))
  {
    DataLine(c, st, line, ElemThickSec);
  }

  /** The sections whose blocks hold one record spread over numbered data lines. */
  predicate Counted(k: Section) {
    k == PartSec || k == MatSec || k == MatTitleSec || k == ShellSec || k == ShellTitleSec
  }

  /** The data line, counted from 0 after the keyword, that stores the section's record. */
  function RecordLine(k: Section): nat
    requires Counted(k)
  {
    match k
    case MatSec => 0
    case ShellTitleSec => 2
    case _ => 1
  }

  /** In a counted section every data line advances the counter by one. */
  lemma CountedDataLine(c: Conv, st: State, line: string, k: Section)
    requires IsData(line) && st.open == {k} && Counted(k)
    ensures var r := Step(c, st, line);
      r.Success? ==> r.value.open == {k} && r.value.i == st.i + 1
  {
    DataLine(c, st, line, k);
  }

  /** Off its record line a counted section stores nothing and cannot fail. */
  lemma OffRecordLine(c: Conv, st: State, line: string, k: Section)
    requires IsData(line) && st.open == {k} && Counted(k) && st.i != RecordLine(k)
    ensures var r := Step(c, st, line);
      r.Success? && r.value.mesh == st.mesh
  {
    DataLine(c, st, line, k);
    BodyOffRecord(c, st, line, k);
  }

  /** The handlers behind OffRecordLine, one section at a time. */
  lemma BodyOffRecord(c: Conv, st: State, line: string, k: Section)
    requires Counted(k) && st.i != RecordLine(k)
    ensures var r := Body(c, st, line, k);
      r.Success? && r.value.mesh == st.mesh
  {
    match k
    case PartSec => assert PartLine(c, st, line).Success?;
    case MatSec => assert MatLine(c, st, line).Success?;
    case MatTitleSec => assert MatTitleLine(c, st, line).Success?;
    case ShellSec => assert ShellLine(c, st, line).Success?;
    case ShellTitleSec => assert ShellTitleLine(c, st, line).Success?;
  }

  /** The second `*PART` data line stores the part under the title taken from the first. */
  lemma PartRecordLine(c: Conv, st: State, line: string, t: string)
    requires IsData(line) && st.open == {PartSec} && st.i == 1 && st.title == Some(t)
    ensures var r := Step(c, st, line);
      var a := AddPart(c, st.mesh, Slice(line, 0, 10), t, Slice(line, 11, 20), Slice(line, 21, 30));
      && (r.Success? <==> a.Success?)
      && (r.Success? ==> r.value.mesh == a.value && r.value.prop == Some(Slice(line, 11, 20)))
  {
    DataLine(c, st, line, PartSec);
  }

  /** A material card stores ID, density and modulus, on the first data line or after a title line. */
  lemma MatRecordLine(c: Conv, st: State, line: string, k: Section)
    requires IsData(line) && st.open == {k} && (k == MatSec || k == MatTitleSec) && st.i == RecordLine(k)
    ensures var r := Step(c, st, line);
      var a := AddMat(c, st.mesh, Slice(line, 0, 10), Slice(line, 11, 20), Slice(line, 21, 30));
      && (r.Success? <==> a.Success?)
      && (r.Success? ==> r.value.mesh == a.value)
  {
    DataLine(c, st, line, k);
  }

  /** A shell section stores the property ID read one data line earlier with the thickness from columns 1-10. */
  lemma ShellRecordLine(c: Conv, st: State, line: string, k: Section, p: string)
    requires IsData(line) && st.open == {k} && (k == ShellSec || k == ShellTitleSec) && st.i == RecordLine(k)
    requires st.prop == Some(p)
    ensures var r := Step(c, st, line);
      var a := AddProp(c, st.mesh, p, Slice(line, 0, 10));
      && (r.Success? <==> a.Success?)
      && (r.Success? ==> r.value.mesh == a.value)
  {
    DataLine(c, st, line, k);
  }

  /** The number of data lines among `lines`. */
  function DataLines(lines: seq<string>): nat
    decreases |lines|
  {
    if |lines| == 0 then 0 else (if IsData(lines[0]) then 1 else 0) + DataLines(lines[1..])
  }

  /**
   * Inside a counted section (no `*` line in between) the counter is the
   * number of data lines read since the keyword: comment lines do not count.
   */
  lemma {:induction false} CountedBlock(c: Conv, st: State, lines: seq<string>, k: Section)
    requires st.open == {k} && Counted(k)
    requires forall j :: 0 <= j < |lines| ==> !Mark(lines[j], '*')
    ensures var r := Run(c, st, lines);
      r.Success? ==> r.value.open == {k} && r.value.i == st.i + DataLines(lines)
    decreases |lines|
  {
    if |lines| > 0 {
      var line := lines[0];
      if IsData(line) {
        CountedDataLine(c, st, line, k);
      } else {
        CommentLine(c, st, line);
      }
      var s := Step(c, st, line);
      if s.Success? {
        CountedBlock(c, s.value, lines[1..], k);
      }
    }
  }

  /**
   * Past its record line a counted section stores nothing more, however many
   * data lines follow: each block stores at most one record.
   */
  lemma {:induction false} OneRecordPerBlock(c: Conv, st: State, lines: seq<string>, k: Section)
    requires st.open == {k} && Counted(k) && st.i > RecordLine(k)
    requires forall j :: 0 <= j < |lines| ==> !Mark(lines[j], '*')
    ensures var r := Run(c, st, lines);
      r.Success? && r.value.mesh == st.mesh
    decreases |lines|
  {
    if |lines| > 0 {
      var line := lines[0];
      if IsData(line) {
        OffRecordLine(c, st, line, k);
        CountedDataLine(c, st, line, k);
      } else {
        CommentLine(c, st, line);
      }
      OneRecordPerBlock(c, Step(c, st, line).value, lines[1..], k);
    }
  }

  /**
   * What the reader keeps true between lines: at most one section open, the
   * thickness section alternating element and thickness lines, every
   * variable bound before the line that reads it, thickness keys stored as
   * text and elements of three or four nodes.
   */
  ghost predicate Valid(st: State) {
    && (forall a, b :: a in st.open && b in st.open ==> a == b)
    && (ElemThickSec in st.open ==> st.i <= 1 && (st.i == 1 ==> st.corners.Some?))
    && (PartSec in st.open && st.i >= 1 ==> st.title.Some?)
    && (ShellSec in st.open && st.i >= 1 ==> st.prop.Some?)
    && (ShellTitleSec in st.open && st.i >= 2 ==> st.prop.Some?)
    && TextThicknessKeys(st.mesh)
    && ElemsWellFormed(st.mesh)
  }

  /** The mesh fields no line touches. */
  predicate SameFile(a: Mesh, b: Mesh) {
    a.file == b.file && a.format == b.format && a.trbProps == b.trbProps
  }

  lemma BodyKeepsValid(c: Conv, st: State, line: string, k: Section)
    requires Valid(st) && st.open == {k}
    ensures var r := Body(c, st, line, k);
      && (r.Failure? ==> r.error == ValueError)
      && (r.Success? ==> Valid(r.value) && SameFile(r.value.mesh, st.mesh))
  {
    match k
    case NodeSec => NodeLineKeepsValid(c, st, line);
    case ElemSec => ElemLineKeepsValid(c, st, line);
    case ElemThickSec => ThickLineKeepsValid(c, st, line);
    case PartSec => PartLineKeepsValid(c, st, line);
    case MatSec => MatLineKeepsValid(c, st, line);
    case MatTitleSec => MatTitleLineKeepsValid(c, st, line);
    case ShellSec => ShellLineKeepsValid(c, st, line);
    case ShellTitleSec => ShellTitleLineKeepsValid(c, st, line);
  }

  lemma NodeLineKeepsValid(c: Conv, st: State, line: string)
    requires Valid(st) && st.open == {NodeSec}
    ensures var r := NodeLine(c, st, line);
      && (r.Failure? ==> r.error == ValueError)
      && (r.Success? ==> Valid(r.value) && SameFile(r.value.mesh, st.mesh))
  {
  }

  lemma ElemLineKeepsValid(c: Conv, st: State, line: string)
    requires Valid(st) && st.open == {ElemSec}
    ensures var r := ElemLine(c, st, line);
      && (r.Failure? ==> r.error == ValueError)
      && (r.Success? ==> Valid(r.value) && SameFile(r.value.mesh, st.mesh))
  {
    var a := AddElem(c, st.mesh, Slice(line, 0, 8), Slice(line, 9, 16), CornerList(ElemCorners(line)));
    if a.Success? {
      AddElemKeepsWellFormed(c, st.mesh, Slice(line, 0, 8), Slice(line, 9, 16), CornerList(ElemCorners(line)));
    }
  }

  lemma ThickLineKeepsValid(c: Conv, st: State, line: string)
    requires Valid(st) && st.open == {ElemThickSec}
    ensures var r := ThickLine(c, st, line);
      && (r.Failure? ==> r.error == ValueError)
      && (r.Success? ==> Valid(r.value) && SameFile(r.value.mesh, st.mesh))
  {
    if st.i == 0 {
      var a := AddElem(c, st.mesh, Slice(line, 0, 8), Slice(line, 9, 16), CornerList(ElemCorners(line)));
      if a.Success? {
        AddElemKeepsWellFormed(c, st.mesh, Slice(line, 0, 8), Slice(line, 9, 16), CornerList(ElemCorners(line)));
      }
    }
  }

  lemma PartLineKeepsValid(c: Conv, st: State, line: string)
    requires Valid(st) && st.open == {PartSec}
    ensures var r := PartLine(c, st, line);
      && (r.Failure? ==> r.error == ValueError)
      && (r.Success? ==> Valid(r.value) && SameFile(r.value.mesh, st.mesh))
  {
  }

  lemma MatLineKeepsValid(c: Conv, st: State, line: string)
    requires Valid(st) && st.open == {MatSec}
    ensures var r := MatLine(c, st, line);
      && (r.Failure? ==> r.error == ValueError)
      && (r.Success? ==> Valid(r.value) && SameFile(r.value.mesh, st.mesh))
  {
  }

  lemma MatTitleLineKeepsValid(c: Conv, st: State, line: string)
    requires Valid(st) && st.open == {MatTitleSec}
    ensures var r := MatTitleLine(c, st, line);
      && (r.Failure? ==> r.error == ValueError)
      && (r.Success? ==> Valid(r.value) && SameFile(r.value.mesh, st.mesh))
  {
  }

  lemma ShellLineKeepsValid(c: Conv, st: State, line: string)
    requires Valid(st) && st.open == {ShellSec}
    ensures var r := ShellLine(c, st, line);
      && (r.Failure? ==> r.error == ValueError)
      && (r.Success? ==> Valid(r.value) && SameFile(r.value.mesh, st.mesh))
  {
  }

  lemma ShellTitleLineKeepsValid(c: Conv, st: State, line: string)
    requires Valid(st) && st.open == {ShellTitleSec}
    ensures var r := ShellTitleLine(c, st, line);
      && (r.Failure? ==> r.error == ValueError)
      && (r.Success? ==> Valid(r.value) && SameFile(r.value.mesh, st.mesh))
  {
  }

  lemma DataLineKeepsValid(c: Conv, st: State, line: string)
    requires Valid(st) && IsData(line)
    ensures var r := Step(c, st, line);
      && (r.Failure? ==> r.error == ValueError)
      && (r.Success? ==> Valid(r.value) && SameFile(r.value.mesh, st.mesh))
  {
    if st.open == {} {
      StrayDataLine(c, st, line);
    } else {
      var k :| k in st.open;
      assert st.open == {k};
      DataLine(c, st, line, k);
      BodyKeepsValid(c, st, line, k);
    }
  }

  lemma KeywordLineKeepsValid(c: Conv, st: State, line: string, k: Section)
    requires Valid(st) && Strip(line) == Keyword(k)
    ensures var r := Step(c, st, line);
      r.Success? && Valid(r.value) && r.value.mesh == st.mesh
  {
    KeywordLine(c, st, line, k);
  }

  lemma StarLineKeepsValid(c: Conv, st: State, line: string)
    requires Valid(st) && Mark(line, '*') && forall k :: Strip(line) != Keyword(k)
    ensures var r := Step(c, st, line);
      r.Success? && Valid(r.value) && r.value.mesh == st.mesh
  {
    StarLine(c, st, line);
  }

  lemma StepKeepsValid(c: Conv, st: State, line: string)
    requires Valid(st)
    ensures var r := Step(c, st, line);
      && (r.Failure? ==> r.error == ValueError)
      && (r.Success? ==> Valid(r.value) && SameFile(r.value.mesh, st.mesh))
  {
    if k :| Strip(line) == Keyword(k) {
      KeywordLineKeepsValid(c, st, line, k);
    } else if Mark(line, '*') {
      StarLineKeepsValid(c, st, line);
    } else if !IsData(line) {
      CommentLine(c, st, line);
    } else {
      DataLineKeepsValid(c, st, line);
    }
  }

  lemma {:induction false} RunKeepsValid(c: Conv, st: State, lines: seq<string>)
    requires Valid(st)
    ensures var r := Run(c, st, lines);
      && (r.Failure? ==> r.error == ValueError)
      && (r.Success? ==> Valid(r.value) && SameFile(r.value.mesh, st.mesh))
    decreases |lines|
  {
    if |lines| > 0 {
      StepKeepsValid(c, st, lines[0]);
      var s := Step(c, st, lines[0]);
      if s.Success? {
        RunKeepsValid(c, s.value, lines[1..]);
      }
    }
  }

  /**
   * `readDynaMesh(file)`: the only exception a deck can raise is a failed
   * number conversion (no variable is ever read unbound), thickness keys are
   * text, and every element has three or four nodes.
   */
  function ReadDynaMesh(c: Conv, file: string, lines: seq<string>): (r: Result<Mesh, PyError>)
    ensures r.Failure? ==> r.error == ValueError
    ensures r.Success? ==> r.value.file == file && r.value.format == "LS-Dyna" && r.value.trbProps == {}
    ensures r.Success? ==> TextThicknessKeys(r.value) && ElemsWellFormed(r.value)
  {
    RunKeepsValid(c, Start(file), lines);
    var st :- Run(c, Start(file), lines);
    Success(st.mesh)
  }
}

=== FILE: dyna_writer.dfy ===
/**
 * `writeDynaMesh` of FEMeshUtils/MeshReaders.py: the baseline deck the mesh
 * was read from is copied line by line behind a three-line banner. Node data
 * lines are regenerated from the node table; inside `*ELEMENT_SHELL`,
 * elements of a TRB part move to an `*ELEMENT_SHELL_THICKNESS` regime with
 * one synthesised line of nodal thicknesses each, and a section header is
 * inserted whenever the regime changes.
 */
module DynaWriter {
  import opened Wrappers
  import opened Python
  import opened PyStr
  import opened MeshStore
  import opened Vectors
  import DynaReader

  /** The writer's flags, named after the Python variables. */
  datatype WState = WState(
    elem: bool,           // elemsection
    thick: bool,          // elemthicksection
    thickWritten: bool,   // elemshellthicknesswritten
    shellWritten: bool,   // elemshellwritten
    node: bool)           // nodesection

  const Closed := WState(false, false, false, false, false)

  const ShellHeader := "*ELEMENT_SHELL\n"
  const ThickHeader := "*ELEMENT_SHELL_THICKNESS\n"

  /** The three banner lines; date/time and user name are inputs. */
  function Banner(stamp: string, user: string): seq<string> {
    ["$ - Mubea TRB CAE - FE_Mesh_Handlers - writeDynaMesh\n",
     "$ - Date/Time: " + stamp + "\n",
     "$ - User: " + user + "\n"]
  }

  /** What one baseline line turns into: an optional header, the line (or its replacement), an optional thickness line. */
  datatype Chunk = Chunk(header: Option<string>, core: string, extra: Option<string>)

  function Verbatim(line: string): Chunk {
    Chunk(None, line, None)
  }

  function ChunkLines(ch: Chunk): (r: seq<string>)
    ensures |r| >= 1
  {
    (if ch.header.Some? then [ch.header.value] else []) + [ch.core] + (if ch.extra.Some? then [ch.extra.value] else [])
  }

  /** The output lines of a run of chunks, in order. */
  function Emit(chunks: seq<Chunk>): seq<string>
    decreases |chunks|
  {
    if |chunks| == 0 then [] else ChunkLines(chunks[0]) + Emit(chunks[1..])
  }

  /** `getNodalThickness(int(field))`: the lookup uses an integer key. */
  function NodalThickness(c: Conv, m: Mesh, field: string): (r: Result<real, PyError>)
    ensures r.Success? <==> c.toInt(field).Some? && IntKey(c.toInt(field).value) in m.nodalThickness
    ensures r.Failure? ==> r.error == (if c.toInt(field).Some? then KeyError else ValueError)
    ensures r.Success? ==> r.value == m.nodalThickness[IntKey(c.toInt(field).value)]
  {
    var n :- Int(c, field);
    GetNodalThickness(m, IntKey(n))
  }

  /** The synthesised `%16.8f` x 4 line for the element on `line`. */
  function ThicknessLine(c: Conv, f: Fmt, m: Mesh, line: string): (r: Result<string, PyError>)
    ensures r.Success? <==>
      && NodalThickness(c, m, Slice(line, 17, 24)).Success?
      && NodalThickness(c, m, Slice(line, 25, 32)).Success?
      && NodalThickness(c, m, Slice(line, 33, 40)).Success?
      && NodalThickness(c, m, Slice(line, 41, 48)).Success?
    ensures r.Failure? ==> r.error == ValueError || r.error == KeyError
    ensures r.Success? ==> (
      r.value ==
        f.fixed(16, 8, m.nodalThickness[IntKey(c.toInt(Slice(line, 17, 24)).value)])
        + f.fixed(16, 8, m.nodalThickness[IntKey(c.toInt(Slice(line, 25, 32)).value)])
        + f.fixed(16, 8, m.nodalThickness[IntKey(c.toInt(Slice(line, 33, 40)).value)])
        + f.fixed(16, 8, m.nodalThickness[IntKey(c.toInt(Slice(line, 41, 48)).value)]) + "\n")
  {
    var t1 :- NodalThickness(c, m, Slice(line, 17, 24));
    var t2 :- NodalThickness(c, m, Slice(line, 25, 32));
    var t3 :- NodalThickness(c, m, Slice(line, 33, 40));
    var t4 :- NodalThickness(c, m, Slice(line, 41, 48));
    Success(f.fixed(16, 8, t1) + f.fixed(16, 8, t2) + f.fixed(16, 8, t3) + f.fixed(16, 8, t4) + "\n")
  }

  /** An element data line inside `*ELEMENT_SHELL`: its part decides the regime. */
  function ElemStep(c: Conv, f: Fmt, m: Mesh, st: WState, line: string): Result<(WState, Chunk), PyError> {
    var pid :- Int(c, Slice(line, 9, 16));
    if pid in m.trbProps then
      var st1 := if !st.thickWritten then st.(thickWritten := true, thick := true, shellWritten := false) else st;
      var t :- ThicknessLine(c, f, m, line);
      Success((st1, Chunk(if !st.thickWritten then Some(ThickHeader) else None, line, Some(t))))
    else
      var st1 := if !st.shellWritten then st.(thick := false, shellWritten := true, elem := true, thickWritten := false) else st;
      Success((st1, Chunk(if !st.shellWritten then Some(ShellHeader) else None, line, None)))
  }

  /** The `%8i%16.10f%16.10f%16.10f` record of a node. */
  function NodeText(f: Fmt, nid: int, v: Vec3): string {
    f.integer(8, nid) + f.fixed(16, 10, v.x) + f.fixed(16, 10, v.y) + f.fixed(16, 10, v.z) + "\n"
  }

  /** The node record regenerated from the node table. */
  function NodeRecord(c: Conv, f: Fmt, m: Mesh, line: string): (r: Result<string, PyError>)
    ensures r.Success? <==> c.toInt(Slice(line, 0, 8)).Some? && c.toInt(Slice(line, 0, 8)).value in m.nodes
    ensures r.Failure? ==> r.error == (if c.toInt(Slice(line, 0, 8)).Some? then KeyError else ValueError)
    ensures r.Success? ==> r.value == NodeText(f, c.toInt(Slice(line, 0, 8)).value, m.nodes[c.toInt(Slice(line, 0, 8)).value])
  {
    var nid :- Int(c, Slice(line, 0, 8));
    var v :- Lookup(m.nodes, nid);
    Success(NodeText(f, nid, v))
  }

  /** One iteration of the loop: the if/elif chain over a baseline line. */
  function Step(c: Conv, f: Fmt, m: Mesh, st: WState, line: string): Result<(WState, Chunk), PyError> {
    var data := DynaReader.IsData(line);
    if st.elem && data then ElemStep(c, f, m, st, line)
    else if st.thick && data then Success((st, Verbatim(line)))
    else if st.node && data then
      var s :- NodeRecord(c, f, m, line);
      Success((st, Chunk(None, s, None)))
    else if Strip(line) == "*ELEMENT_SHELL" then Success((WState(true, false, false, true, false), Verbatim(line)))
    else if Strip(line) == "*ELEMENT_SHELL_THICKNESS" then Success((WState(false, true, true, false, false), Verbatim(line)))
    else if Strip(line) == "*NODE" then Success((WState(false, false, false, false, true), Verbatim(line)))
    else if Mark(line, '*') && !Contains(line, "*ELEMENT_SHELL") && !Contains(line, "*NODE") then
      Success((st.(elem := false, node := false), Verbatim(line)))
    else Success((st, Verbatim(line)))
  }

  /** The loop over the baseline lines: the final flags and one chunk per line. */
  function Run(c: Conv, f: Fmt, m: Mesh, st: WState, lines: seq<string>): Result<(WState, seq<Chunk>), PyError>
    decreases |lines|
  {
    if |lines| == 0 then Success((st, []))
    else
      var p :- Step(c, f, m, st, lines[0]);
      var rest :- Run(c, f, m, p.0, lines[1..]);
      Success((rest.0, [p.1] + rest.1))
  }

  /** Every chunk yields at least its core line. */
  lemma {:induction false} EmitLength(chunks: seq<Chunk>)
    ensures |Emit(chunks)| >= |chunks|
    decreases |chunks|
  {
    if |chunks| > 0 {
      EmitLength(chunks[1..]);
    }
  }

  /** Lines of the three recognised keywords contain `*`, so they are never data lines. */
  lemma KeywordsAreNotData(line: string)
    ensures Strip(line) == "*ELEMENT_SHELL" ==> !DynaReader.IsData(line)
    ensures Strip(line) == "*ELEMENT_SHELL_THICKNESS" ==> !DynaReader.IsData(line)
    ensures Strip(line) == "*NODE" ==> !DynaReader.IsData(line)
  {
    if Strip(line) == "*ELEMENT_SHELL" { DynaReader.KeywordHasStar(line, DynaReader.ElemSec); }
    if Strip(line) == "*ELEMENT_SHELL_THICKNESS" { DynaReader.KeywordHasStar(line, DynaReader.ElemThickSec); }
    if Strip(line) == "*NODE" { DynaReader.KeywordHasStar(line, DynaReader.NodeSec); }
  }

  /**
   * What the writer keeps true between lines: the node section excludes
   * both element flags, and at most one of the two regime headers counts as
   * written.
   */
  predicate WValid(st: WState) {
    (st.node ==> !st.elem && !st.thick) && !(st.thickWritten && st.shellWritten)
  }

  /** The errors the writer can raise: a field that is not an integer, or a missing node or thickness. */
  predicate WriteError(e: PyError) {
    e == ValueError || e == KeyError
  }

  /** The facts `StepShape` states, for one step's result. */
  predicate Shaped(st: WState, line: string, r: Result<(WState, Chunk), PyError>) {
    && (r.Failure? ==> WriteError(r.error) && DynaReader.IsData(line))
    && (r.Success? ==> WValid(r.value.0))
    && (r.Success? && !DynaReader.IsData(line) ==> r.value.1 == Verbatim(line))
    && (r.Success? && r.value.1.core != line ==> DynaReader.IsData(line) && st.node)
    && (r.Success? && r.value.1.header.Some? ==>
          st.elem && (r.value.1.header.value == ShellHeader || r.value.1.header.value == ThickHeader))
    && (r.Success? && r.value.1.extra.Some? ==> st.elem)
  }

  lemma ElemStepShape(c: Conv, f: Fmt, m: Mesh, st: WState, line: string)
    requires WValid(st) && st.elem && DynaReader.IsData(line)
    ensures Shaped(st, line, Step(c, f, m, st, line))
  {
  }

  lemma NodeStepShape(c: Conv, f: Fmt, m: Mesh, st: WState, line: string)
    requires WValid(st) && !st.elem && DynaReader.IsData(line)
    ensures Shaped(st, line, Step(c, f, m, st, line))
  {
    KeywordsAreNotData(line);
  }

  lemma OtherStepShape(c: Conv, f: Fmt, m: Mesh, st: WState, line: string)
    requires WValid(st) && !DynaReader.IsData(line)
    ensures Shaped(st, line, Step(c, f, m, st, line))
  {
    KeywordsAreNotData(line);
  }

  /**
   * One line's chunk: a line with `$` or `*` is copied alone and unchanged;
   * a data line keeps its text unless the node section regenerates it;
   * headers and thickness lines are only inserted around element lines;
   * the flags stay consistent; the only errors are ValueError and KeyError.
   */
  lemma StepShape(c: Conv, f: Fmt, m: Mesh, st: WState, line: string)
    requires WValid(st)
    ensures Shaped(st, line, Step(c, f, m, st, line))
  {
    if !DynaReader.IsData(line) {
      OtherStepShape(c, f, m, st, line);
    } else if st.elem {
      ElemStepShape(c, f, m, st, line);
    } else {
      NodeStepShape(c, f, m, st, line);
    }
  }

  /**
   * Inside `*ELEMENT_SHELL` an element line's regime is "thickness" when its
   * part (columns 10-16) is a TRB part and "shell" otherwise. A header is
   * inserted exactly when that regime is not the one last written, and it
   * names the line's regime, which becomes the current one.
   */
  lemma RegimeHeader(c: Conv, f: Fmt, m: Mesh, st: WState, line: string)
    requires WValid(st) && st.elem && DynaReader.IsData(line)
    requires Step(c, f, m, st, line).Success?
    ensures var p := Step(c, f, m, st, line).value;
      var trb := c.toInt(Slice(line, 9, 16)).Some? && c.toInt(Slice(line, 9, 16)).value in m.trbProps;
      && c.toInt(Slice(line, 9, 16)).Some?
      && (p.1.header.Some? <==> (if trb then !st.thickWritten else !st.shellWritten))
      && (p.1.header.Some? ==> p.1.header.value == (if trb then ThickHeader else ShellHeader))
      && (if trb then p.0.thickWritten && !p.0.shellWritten else p.0.shellWritten && !p.0.thickWritten)
      && p.1.core == line
  {
  }

  /** A TRB element line is followed by its thickness line; any other element line by nothing. */
  lemma TrbThicknessLine(c: Conv, f: Fmt, m: Mesh, st: WState, line: string, pid: int)
    requires st.elem && DynaReader.IsData(line) && c.toInt(Slice(line, 9, 16)) == Some(pid)
    ensures var r := Step(c, f, m, st, line);
      var t := ThicknessLine(c, f, m, line);
      && (pid in m.trbProps ==> (r.Success? <==> t.Success?) && (r.Success? ==> r.value.1.extra == Some(t.value)))
      && (pid !in m.trbProps ==> r.Success? && r.value.1.extra == None)
  {
  }

  /**
   * The thickness lookups use integer keys, but the readers store text keys:
   * after a read, the first TRB element line whose node field parses raises
   * KeyError.
   */
  lemma TrbLookupFailsAfterRead(c: Conv, f: Fmt, m: Mesh, st: WState, line: string, pid: int)
    requires TextThicknessKeys(m)
    requires st.elem && DynaReader.IsData(line) && c.toInt(Slice(line, 9, 16)) == Some(pid) && pid in m.trbProps
    requires c.toInt(Slice(line, 17, 24)).Some?
    ensures Step(c, f, m, st, line) == Failure(KeyError)
  {
    IntLookupMissesTextKeys(m, c.toInt(Slice(line, 17, 24)).value);
  }

  /** Data lines of a baseline `*ELEMENT_SHELL_THICKNESS` section are copied verbatim. */
  lemma ThickDataVerbatim(c: Conv, f: Fmt, m: Mesh, st: WState, line: string)
    requires st.thick && !st.elem && DynaReader.IsData(line)
    ensures Step(c, f, m, st, line) == Success((st, Verbatim(line)))
  {
  }

  /** A node data line is replaced by the record regenerated from the node table. */
  lemma NodeDataLine(c: Conv, f: Fmt, m: Mesh, st: WState, line: string, nid: int)
    requires WValid(st) && st.node && DynaReader.IsData(line)
    requires c.toInt(Slice(line, 0, 8)) == Some(nid)
    ensures var r := Step(c, f, m, st, line);
      && (r.Success? <==> nid in m.nodes)
      && (r.Failure? ==> r.error == KeyError)
      && (r.Success? ==> r.value.0 == st && r.value.1.header == None && r.value.1.extra == None)
      && (r.Success? ==> r.value.1.core == NodeText(f, nid, m.nodes[nid]))
  {
  }

  /** The three recognised keywords set all five flags; `*ELEMENT_SHELL` counts its own header as written. */
  lemma KeywordFlags(c: Conv, f: Fmt, m: Mesh, st: WState, line: string)
    ensures Strip(line) == "*ELEMENT_SHELL" ==>
      Step(c, f, m, st, line) == Success((WState(true, false, false, true, false), Verbatim(line)))
    ensures Strip(line) == "*ELEMENT_SHELL_THICKNESS" ==>
      Step(c, f, m, st, line) == Success((WState(false, true, true, false, false), Verbatim(line)))
    ensures Strip(line) == "*NODE" ==>
      Step(c, f, m, st, line) == Success((WState(false, false, false, false, true), Verbatim(line)))
  {
    KeywordsAreNotData(line);
  }

  /**
   * Any other keyword line leaves the element and node sections; but one
   * that merely contains `*ELEMENT_SHELL` or `*NODE` (say `*NODE_SET`)
   * leaves every flag as it was.
   */
  lemma OtherKeywordFlags(c: Conv, f: Fmt, m: Mesh, st: WState, line: string)
    requires Mark(line, '*')
    requires Strip(line) != "*ELEMENT_SHELL" && Strip(line) != "*ELEMENT_SHELL_THICKNESS" && Strip(line) != "*NODE"
    ensures var r := Step(c, f, m, st, line);
      && r.Success? && r.value.1 == Verbatim(line)
      && (Contains(line, "*ELEMENT_SHELL") || Contains(line, "*NODE") ==> r.value.0 == st)
      && (!Contains(line, "*ELEMENT_SHELL") && !Contains(line, "*NODE") ==> r.value.0 == st.(elem := false, node := false))
  {
  }

  /** The flags the loop holds when it reaches `lines[j]`, starting from `st`. */
  function StateBefore(c: Conv, f: Fmt, m: Mesh, st: WState, lines: seq<string>, j: nat): WState
    requires j < |lines|
    decreases j
  {
    if j == 0 then st
    else
      var p := Step(c, f, m, st, lines[0]);
      if p.Success? then StateBefore(c, f, m, p.value.0, lines[1..], j - 1) else st
  }

  lemma {:induction false} RunShape(c: Conv, f: Fmt, m: Mesh, st: WState, lines: seq<string>)
    requires WValid(st)
    ensures var r := Run(c, f, m, st, lines);
      && (r.Failure? ==> WriteError(r.error))
      && (r.Success? ==> WValid(r.value.0) && |r.value.1| == |lines|)
      && (r.Success? ==> forall j :: 0 <= j < |lines| && !DynaReader.IsData(lines[j]) ==> r.value.1[j] == Verbatim(lines[j]))
      && (r.Success? ==> forall j :: 0 <= j < |lines| && r.value.1[j].core != lines[j] ==>
            DynaReader.IsData(lines[j]) && StateBefore(c, f, m, st, lines, j).node)
      && (r.Success? ==> forall j :: 0 <= j < |lines| && r.value.1[j].header.Some? ==>
            r.value.1[j].header.value == ShellHeader || r.value.1[j].header.value == ThickHeader)
    decreases |lines|
  {
    if |lines| > 0 {
      StepShape(c, f, m, st, lines[0]);
      var p := Step(c, f, m, st, lines[0]);
      if p.Success? {
        RunShape(c, f, m, p.value.0, lines[1..]);
        var rest := Run(c, f, m, p.value.0, lines[1..]);
        if rest.Success? {
          var chunks := [p.value.1] + rest.value.1;
          forall j | 0 <= j < |lines| && j > 0
            ensures chunks[j] == rest.value.1[j - 1] && lines[j] == lines[1..][j - 1]
            ensures StateBefore(c, f, m, st, lines, j) == StateBefore(c, f, m, p.value.0, lines[1..], j - 1)
          {
          }
        }
      }
    }
  }

  /**
   * `writeDynaMesh(Mesh, file)` over the baseline deck's lines: the banner,
   * then the chunks of the baseline lines, one per line and in order.
   */
  function WriteDynaMesh(c: Conv, f: Fmt, m: Mesh, stamp: string, user: string, lines: seq<string>): (r: Result<seq<string>, PyError>)
    ensures r.Failure? ==> WriteError(r.error)
    ensures r.Success? <==> Run(c, f, m, Closed, lines).Success?
    ensures r.Success? ==> |r.value| >= 3 + |lines|
    ensures r.Success? ==> r.value[..3] == Banner(stamp, user) && r.value[3..] == Emit(Run(c, f, m, Closed, lines).value.1)
  {
    RunShape(c, f, m, Closed, lines);
    var p :- Run(c, f, m, Closed, lines);
    EmitLength(p.1);
    Success(Banner(stamp, user) + Emit(p.1))
  }
}

=== FILE: flat_geometry.dfy ===
/**
 * The flat, dictionary-path geometry of class `Mesh` in FE_Mesh.py:
 * `getAreaByElemID`, `getVolumeByElemID`, `getVolumeByPartID` and
 * `getAreaByPartID`. They read `Elemlist`, `Nodelist`, the elemental thickness
 * side table, `Partlist` and `Proplist` directly, without building objects.
 */
module FlatGeometry {
  import opened Wrappers
  import opened Python
  import opened Vectors
  import opened Sums
  import opened MeshStore

  /** `getNodeByID(NodeID)`. */
  function NodeByID(m: Mesh, id: int): (r: Result<Vec3, PyError>)
    ensures r.Success? <==> id in m.nodes
    ensures r.Success? ==> r.value == m.nodes[id]
    ensures r.Failure? ==> r.error == KeyError
  {
    Lookup(m.nodes, id)
  }

  /** `getNodesByElemID(ElemID)`: the stored row without its leading part ID. */
  function NodesByElemID(m: Mesh, eid: int): (r: Result<seq<int>, PyError>)
    ensures r.Success? <==> eid in m.elems
    ensures r.Success? ==> r.value == m.elems[eid].nodes
    ensures r.Failure? ==> r.error == KeyError
  {
    var row :- Lookup(m.elems, eid);
    Success(row.nodes)
  }

  /** The `i`th node of a list, looked up in `Nodelist`: IndexError, then KeyError. */
  function Corner(m: Mesh, ns: seq<int>, i: nat): (r: Result<Vec3, PyError>)
    ensures r.Success? <==> i < |ns| && ns[i] in m.nodes
    ensures r.Success? ==> r.value == m.nodes[ns[i]]
    ensures r.Failure? ==> r.error == (if i < |ns| then KeyError else IndexError)
  {
    if i < |ns| then NodeByID(m, ns[i]) else Failure(IndexError)
  }

  /** The element is stored, has three or four nodes, and all of them are in `Nodelist`. */
  ghost predicate HasGeometry(m: Mesh, eid: int) {
    && eid in m.elems
    && (|m.elems[eid].nodes| == 3 || |m.elems[eid].nodes| == 4)
    && forall k :: 0 <= k < |m.elems[eid].nodes| ==> m.elems[eid].nodes[k] in m.nodes
  }

  /**
   * `getAreaByElemID(ElemID)`: half the norm of (c-a) x (d-b), with d = c for
   * a triangle. A node list of any other length leaves `d` unbound.
   */
  function AreaByElemID(m: Mesh, norm: Norm, eid: int): (r: Result<real, PyError>)
    ensures r.Success? <==> HasGeometry(m, eid)
    ensures r.Failure? ==> r.error in {KeyError, IndexError, NameError}
    ensures r.Failure? && eid in m.elems && |m.elems[eid].nodes| >= 3 ==>
      r.error == (if |m.elems[eid].nodes| <= 4 then KeyError else
                  if forall k :: 0 <= k < 3 ==> m.elems[eid].nodes[k] in m.nodes then NameError else KeyError)
    ensures r.Success? && |m.elems[eid].nodes| == 4 ==>
      var ns := m.elems[eid].nodes;
      r.value == 0.5 * norm(Cross(Sub(m.nodes[ns[2]], m.nodes[ns[0]]), Sub(m.nodes[ns[3]], m.nodes[ns[1]])))
  {
    var ns :- NodesByElemID(m, eid);
    var a :- Corner(m, ns, 0);
    var b :- Corner(m, ns, 1);
    var c :- Corner(m, ns, 2);
    var d :-
      if |ns| == 3 then Success(c)
      else if |ns| == 4 then Corner(m, ns, 3)
      else Failure(NameError);
    Success(0.0 + 0.5 * norm(Cross(Sub(c, a), Sub(d, b))))
  }

  /**
   * For a triangle the flat formula (c-a) x (c-b) gives the same area as the
   * object formula (b-a) x (c-a) of `Tria.getArea`.
   */
  lemma TriangleAreaMatchesTria(m: Mesh, norm: Norm, eid: int)
    requires HasGeometry(m, eid) && |m.elems[eid].nodes| == 3
    ensures var ns := m.elems[eid].nodes;
      var a := m.nodes[ns[0]];
      var b := m.nodes[ns[1]];
      var c := m.nodes[ns[2]];
      AreaByElemID(m, norm, eid).Success? &&
      AreaByElemID(m, norm, eid).value == 0.5 * norm(Cross(Sub(b, a), Sub(c, a)))
  {
    var ns := m.elems[eid].nodes;
    TriangleCrossProductsAgree(m.nodes[ns[0]], m.nodes[ns[1]], m.nodes[ns[2]]);
  }

  /**
   * `getVolumeByElemID(ElemID)`: the area times the elemental thickness stored
   * under the integer key ElemID if there is one, otherwise times the
   * thickness of the property of the element's part.
   */
  function VolumeByElemID(m: Mesh, norm: Norm, eid: int): (r: Result<real, PyError>)
    ensures r.Success? <==>
      HasGeometry(m, eid) &&
      (IntKey(eid) in m.elementalThickness ||
       (m.elems[eid].part in m.parts && m.parts[m.elems[eid].part].prop in m.props))
    ensures AreaByElemID(m, norm, eid).Failure? ==> r == AreaByElemID(m, norm, eid)
    ensures r.Failure? && AreaByElemID(m, norm, eid).Success? ==> r.error == KeyError
    ensures r.Success? && IntKey(eid) in m.elementalThickness ==>
      r.value == AreaByElemID(m, norm, eid).value * m.elementalThickness[IntKey(eid)]
    ensures r.Success? && IntKey(eid) !in m.elementalThickness ==>
      r.value == AreaByElemID(m, norm, eid).value * m.props[m.parts[m.elems[eid].part].prop]
  {
    var area :- AreaByElemID(m, norm, eid);
    if IntKey(eid) in m.elementalThickness then
      Success(area * m.elementalThickness[IntKey(eid)])
    else
      var part :- Lookup(m.parts, m.elems[eid].part);
      var pthick :- Lookup(m.props, part.prop);
      Success(area * pthick)
  }

  /**
   * Once every side-table key is text, as both readers leave them, the
   * elemental thickness is never found and the property thickness is used.
   */
  lemma VolumeIgnoresTextKeys(m: Mesh, norm: Norm, eid: int)
    requires TextThicknessKeys(m)
    ensures VolumeByElemID(m, norm, eid).Success? <==>
      HasGeometry(m, eid) && m.elems[eid].part in m.parts && m.parts[m.elems[eid].part].prop in m.props
    ensures VolumeByElemID(m, norm, eid).Success? ==>
      VolumeByElemID(m, norm, eid).value ==
        AreaByElemID(m, norm, eid).value * m.props[m.parts[m.elems[eid].part].prop]
  {
    IntLookupMissesTextKeys(m, eid);
  }

  /** The element volume, 0.0 where it cannot be computed. */
  function VolumeOf(m: Mesh, norm: Norm): int -> real {
    k => if VolumeByElemID(m, norm, k).Success? then VolumeByElemID(m, norm, k).value else 0.0
  }

  /**
   * The loop of `getVolumeByPartID` over a list of element IDs: it fails with
   * the error of the first element whose volume fails, otherwise it is the
   * left-to-right sum of the volumes.
   */
  function VolumeSum(m: Mesh, norm: Norm, ids: seq<int>): (r: Result<real, PyError>)
    ensures r.Success? <==> forall k :: 0 <= k < |ids| ==> VolumeByElemID(m, norm, ids[k]).Success?
    ensures r.Success? ==> r.value == SeqSum(ids, VolumeOf(m, norm))
    ensures r.Failure? ==> r.error in {KeyError, IndexError, NameError}
    decreases |ids|
  {
    if |ids| == 0 then Success(0.0)
    else
      var total :- VolumeSum(m, norm, ids[..|ids| - 1]);
      var v :- VolumeByElemID(m, norm, ids[|ids| - 1]);
      assert VolumeOf(m, norm)(ids[|ids| - 1]) == v;
      Success(total + v)
  }

  /** `getVolumeByPartID(PartID)`: the sum over `PartElemlist[PartID]`, KeyError for an unknown part. */
  function VolumeByPartID(m: Mesh, norm: Norm, pid: int): (r: Result<real, PyError>)
    ensures pid !in m.partElems ==> r == Failure(KeyError)
    ensures pid in m.partElems ==> r == VolumeSum(m, norm, m.partElems[pid])
  {
    var ids :- Lookup(m.partElems, pid);
    VolumeSum(m, norm, ids)
  }

  /** The volume sum over two lists one after the other is the sum of the two volume sums. */
  lemma {:induction false} VolumeSumAppend(m: Mesh, norm: Norm, a: seq<int>, b: seq<int>)
    ensures VolumeSum(m, norm, a + b).Success? <==>
      VolumeSum(m, norm, a).Success? && VolumeSum(m, norm, b).Success?
    ensures VolumeSum(m, norm, a + b).Success? ==>
      VolumeSum(m, norm, a + b).value == VolumeSum(m, norm, a).value + VolumeSum(m, norm, b).value
  {
    assert forall k :: 0 <= k < |a| ==> (a + b)[k] == a[k];
    assert forall k :: 0 <= k < |b| ==> (a + b)[|a| + k] == b[k];
    SeqSumAppend(a, b, VolumeOf(m, norm));
  }

  /**
   * `PartElemlist` is not de-duplicated, so an element added twice for a part
   * counts twice in the part's flat volume.
   */
  lemma RepeatedElementCountsTwice(m: Mesh, norm: Norm, pid: int, head: seq<int>, eid: int)
    requires pid in m.partElems && m.partElems[pid] == head + [eid, eid]
    requires VolumeByPartID(m, norm, pid).Success?
    ensures VolumeSum(m, norm, head).Success? && VolumeByElemID(m, norm, eid).Success?
    ensures VolumeByPartID(m, norm, pid).value ==
      VolumeSum(m, norm, head).value + 2.0 * VolumeByElemID(m, norm, eid).value
  {
    VolumeSumAppend(m, norm, head, [eid, eid]);
    VolumeSumAppend(m, norm, [eid], [eid]);
    assert [eid] + [eid] == [eid, eid];
    assert VolumeSum(m, norm, [eid]).value == 0.0 + VolumeByElemID(m, norm, eid).value by {
      assert [eid][..0] == [];
    }
  }

  /** The area of an element of the given part, 0.0 for any other key. */
  function FlatAreaOf(m: Mesh, norm: Norm, pid: int): int -> real {
    k => if k in m.elems && m.elems[k].part == pid && AreaByElemID(m, norm, k).Success?
         then AreaByElemID(m, norm, k).value else 0.0
  }

  /** The loop of `getAreaByPartID`: adds the area of each listed element that belongs to the part. */
  function AreaSum(m: Mesh, norm: Norm, pid: int, ids: seq<int>): (r: Result<real, PyError>)
    ensures r.Success? <==> forall k :: 0 <= k < |ids| && ids[k] in m.elems && m.elems[ids[k]].part == pid ==>
      AreaByElemID(m, norm, ids[k]).Success?
    ensures r.Success? ==> r.value == SeqSum(ids, FlatAreaOf(m, norm, pid))
    decreases |ids|
  {
    if |ids| == 0 then Success(0.0)
    else
      var total :- AreaSum(m, norm, pid, ids[..|ids| - 1]);
      var e := ids[|ids| - 1];
      if e in m.elems && m.elems[e].part == pid then
        var a :- AreaByElemID(m, norm, e);
        Success(total + a)
      else Success(total)
  }

  /**
   * `getAreaByPartID(PartID)`, iterating `Elemlist` in the given order. The
   * outcome does not depend on the order: it is defined exactly when every
   * element of the part has its geometry, and then it is the set sum of the
   * element areas.
   */
  function AreaByPartID(m: Mesh, norm: Norm, pid: int, order: seq<int>): (r: Result<real, PyError>)
    requires Distinct(order) && Members(order) == m.elems.Keys
    ensures r.Success? <==> forall e :: e in m.elems && m.elems[e].part == pid ==> HasGeometry(m, e)
    ensures r.Success? ==> r.value == SetSum(m.elems.Keys, FlatAreaOf(m, norm, pid))
  {
    var r := AreaSum(m, norm, pid, order);
    SeqSumIsSetSum(order, FlatAreaOf(m, norm, pid));
    assert forall e :: e in m.elems ==> exists k :: 0 <= k < |order| && order[k] == e;
    r
  }
}

=== FILE: materialize.dfy ===
/**
 * Materialisation of part objects from the flat mesh store: `InitPartObj`
 * and `InitAllObj` of class `Mesh` in FE_Mesh.py. Both walk `Elemlist` in
 * dictionary order, which is a parameter here; the results are stated against
 * order-free reference definitions (`ElemOf`, `PartElems`, `PartNodes`).
 */
module Materialize {
  import opened Wrappers
  import opened Python
  import opened Vectors
  import opened Sums
  import opened NodeEntity
  import opened Objects
  import opened MeshStore
  import opened FlatGeometry

  const MissingNodes := "Missing Nodes. Please check Input"
  const MissingElements := "Missing Elements. Please check Input"
  const GenericTitle := "GenericPart"

  /** The defaults of `InitPartObj`: steel in tonne-millimetre-second units, 1 mm thickness. */
  const DefaultMaterial := Objects.Material(0, 0.0000000079, 210000.0)
  const DefaultProperty := Objects.Property(0, 1.0)

  /** The node object built for a node ID: coordinates from `Nodelist`, thickness 0.0. */
  function FreshNode(m: Mesh, id: int): Node
    requires id in m.nodes
  {
    Node(id, m.nodes[id].x, m.nodes[id].y, m.nodes[id].z, 0.0)
  }

  /** `Node(NodeID, Nodelist[NodeID])`: KeyError for a node that is not stored. */
  function MkNode(m: Mesh, id: int): (r: Result<Node, PyError>)
    ensures r.Success? <==> id in m.nodes
    ensures r.Failure? ==> r.error == KeyError
    ensures r.Success? ==> r.value == FreshNode(m, id) && Pos(r.value) == m.nodes[id]
  {
    var v :- Lookup(m.nodes, id);
    New(id, [v.x, v.y, v.z])
  }

  /** The `Elemlist` entry is one the loops turn into an object: its part is `pid` and it has 3 or 4 nodes. */
  predicate Selected(m: Mesh, pid: int, e: int) {
    e in m.elems && m.elems[e].part == pid && (|m.elems[e].nodes| == 3 || |m.elems[e].nodes| == 4)
  }

  /** The object built for a stored element: a Quad for four nodes, a Tria for three, thickness 0.0. */
  function ElemOf(m: Mesh, e: int): Elem
    requires HasGeometry(m, e)
  {
    var row := m.elems[e];
    var ns := row.nodes;
    if |ns| == 4 then
      Quad(e, row.part, FreshNode(m, ns[0]), FreshNode(m, ns[1]), FreshNode(m, ns[2]), FreshNode(m, ns[3]), 0.0)
    else
      Tria(e, row.part, FreshNode(m, ns[0]), FreshNode(m, ns[1]), FreshNode(m, ns[2]), 0.0)
  }

  /** One iteration of the element loop: build the nodes in order, then the Quad or Tria. */
  function BuildElem(m: Mesh, e: int): (r: Result<Elem, PyError>)
    requires e in m.elems && (|m.elems[e].nodes| == 3 || |m.elems[e].nodes| == 4)
    ensures r.Success? <==> HasGeometry(m, e)
    ensures r.Failure? ==> r.error == KeyError
    ensures r.Success? ==> r.value == ElemOf(m, e)
  {
    var row := m.elems[e];
    var ns := row.nodes;
    if |ns| == 4 then
      var n1 :- MkNode(m, ns[0]);
      var n2 :- MkNode(m, ns[1]);
      var n3 :- MkNode(m, ns[2]);
      var n4 :- MkNode(m, ns[3]);
      Success(Quad(e, row.part, n1, n2, n3, n4, 0.0))
    else
      var n1 :- MkNode(m, ns[0]);
      var n2 :- MkNode(m, ns[1]);
      var n3 :- MkNode(m, ns[2]);
      Success(Tria(e, row.part, n1, n2, n3, 0.0))
  }

  /** The selected element IDs among a set of keys. */
  function SelectedIn(m: Mesh, pid: int, s: set<int>): set<int> {
    set e | e in s && Selected(m, pid, e)
  }

  /** The node IDs the selected elements among a set of keys refer to. */
  function NodeIdsIn(m: Mesh, pid: int, s: set<int>): set<int> {
    set e, j | e in s && Selected(m, pid, e) && 0 <= j < |m.elems[e].nodes| :: m.elems[e].nodes[j]
  }

  /** Every node object is the fresh copy of the stored node with its ID. */
  ghost predicate AllFresh(m: Mesh, nodes: map<int, Node>) {
    forall i :: i in nodes ==> i in m.nodes && nodes[i] == FreshNode(m, i)
  }

  /** Registering fresh node copies keeps every registered node a fresh copy. */
  lemma {:induction false} AddNodesFresh(m: Mesh, nodes: map<int, Node>, ns: seq<Node>)
    requires AllFresh(m, nodes)
    requires forall k :: 0 <= k < |ns| ==> ns[k].id in m.nodes && ns[k] == FreshNode(m, ns[k].id)
    ensures AllFresh(m, AddNodes(nodes, ns))
    decreases |ns|
  {
    if |ns| > 0 {
      AddNodesFresh(m, nodes[ns[0].id := ns[0]], ns[1..]);
    }
  }

  /** The node objects of a built element are the fresh copies of its stored node IDs, in order. */
  lemma ElemOfNodes(m: Mesh, e: int)
    requires HasGeometry(m, e)
    ensures |ElemOf(m, e).Nodes()| == |m.elems[e].nodes|
    ensures forall k :: 0 <= k < |m.elems[e].nodes| ==>
      ElemOf(m, e).Nodes()[k] == FreshNode(m, m.elems[e].nodes[k]) &&
      ElemOf(m, e).Nodes()[k].id == m.elems[e].nodes[k]
  {
  }

  lemma {:induction false} SelectionSnoc(m: Mesh, pid: int, ids: seq<int>)
    requires |ids| > 0
    ensures var init := Members(ids[..|ids| - 1]);
      var e := ids[|ids| - 1];
      && Members(ids) == init + {e}
      && SelectedIn(m, pid, Members(ids)) == SelectedIn(m, pid, init) + (if Selected(m, pid, e) then {e} else {})
      && NodeIdsIn(m, pid, Members(ids)) == NodeIdsIn(m, pid, init) +
           (if Selected(m, pid, e) then set j | 0 <= j < |m.elems[e].nodes| :: m.elems[e].nodes[j] else {})
  {
    var init := ids[..|ids| - 1];
    var e := ids[|ids| - 1];
    MembersSnoc(ids);
  }

  /** Node objects whose IDs are listed in order have exactly the listed IDs. */
  lemma IdsOfNodes(ns: seq<Node>, ids: seq<int>)
    requires |ns| == |ids| && forall k :: 0 <= k < |ns| ==> ns[k].id == ids[k]
    ensures (set k | 0 <= k < |ns| :: ns[k].id) == set j | 0 <= j < |ids| :: ids[j]
  {
  }

  /**
   * The element loop of `InitPartObj`/`InitAllObj` over `Elemlist` in the
   * given order: every selected element is built and added to the part, the
   * first missing node raises KeyError. Only the elements and nodes change.
   */
  function CollectElems(m: Mesh, pid: int, ids: seq<int>, p: Part): (r: Result<Part, PyError>)
    ensures r.Success? <==> forall k :: 0 <= k < |ids| && Selected(m, pid, ids[k]) ==> HasGeometry(m, ids[k])
    ensures r.Failure? ==> r.error == KeyError
    ensures r.Success? ==> r.value.id == p.id && r.value.title == p.title && r.value.mat == p.mat && r.value.prop == p.prop && r.value.trb == p.trb
    decreases |ids|
  {
    if |ids| == 0 then Success(p)
    else
      var init := ids[..|ids| - 1];
      var e := ids[|ids| - 1];
      assert (forall k :: 0 <= k < |ids| && Selected(m, pid, ids[k]) ==> HasGeometry(m, ids[k])) <==>
        (forall k :: 0 <= k < |init| && Selected(m, pid, init[k]) ==> HasGeometry(m, init[k])) &&
        (Selected(m, pid, e) ==> HasGeometry(m, e)) by {
        assert forall k :: 0 <= k < |init| ==> init[k] == ids[k];
      }
      var q :- CollectElems(m, pid, init, p);
      if Selected(m, pid, e) then
        var el :- BuildElem(m, e);
        Success(Objects.AddElem(q, el))
      else Success(q)
  }

  /**
   * The elements the loop adds: exactly the selected elements among the
   * listed keys, each built by `ElemOf`; elements already in the part and not
   * selected are kept.
   */
  lemma {:induction false} CollectElemsElems(m: Mesh, pid: int, ids: seq<int>, p: Part)
    requires CollectElems(m, pid, ids, p).Success?
    ensures var r := CollectElems(m, pid, ids, p).value;
      && r.elems.Keys == p.elems.Keys + SelectedIn(m, pid, Members(ids))
      && (forall e :: e in SelectedIn(m, pid, Members(ids)) ==> HasGeometry(m, e) && r.elems[e] == ElemOf(m, e))
      && (forall e :: e in p.elems && e !in SelectedIn(m, pid, Members(ids)) ==> r.elems[e] == p.elems[e])
    decreases |ids|
  {
    if |ids| > 0 {
      var init := ids[..|ids| - 1];
      var e := ids[|ids| - 1];
      CollectElemsElems(m, pid, init, p);
      var q := CollectElems(m, pid, init, p).value;
      var r := CollectElems(m, pid, ids, p).value;
      if Selected(m, pid, e) {
        assert HasGeometry(m, e);
        assert r == Objects.AddElem(q, ElemOf(m, e));
        assert SelectedIn(m, pid, Members(ids)) == SelectedIn(m, pid, Members(init)) + {e} by {
          SelectionSnoc(m, pid, ids);
        }
        AddElemStep(m, p.elems, SelectedIn(m, pid, Members(init)), SelectedIn(m, pid, Members(ids)), e, q.elems, r.elems);
      } else {
        assert r == q;
        assert SelectedIn(m, pid, Members(ids)) == SelectedIn(m, pid, Members(init)) by {
          SelectionSnoc(m, pid, ids);
        }
      }
    } else {
      assert Members(ids) == {};
      assert SelectedIn(m, pid, {}) == {};
    }
  }

  /** The step of `CollectElemsElems` for a selected element, stated over plain sets and maps. */
  lemma AddElemStep(m: Mesh, start: map<int, Elem>, before: set<int>, after: set<int>, e: int,
                    q: map<int, Elem>, r: map<int, Elem>)
    requires HasGeometry(m, e) && after == before + {e} && r == q[e := ElemOf(m, e)]
    requires q.Keys == start.Keys + before
    requires forall x :: x in before ==> HasGeometry(m, x) && q[x] == ElemOf(m, x)
    requires forall x :: x in start && x !in before ==> q[x] == start[x]
    ensures r.Keys == start.Keys + after
    ensures forall x :: x in after ==> HasGeometry(m, x) && r[x] == ElemOf(m, x)
    ensures forall x :: x in start && x !in after ==> r[x] == start[x]
  {
  }

  /**
   * The nodes the loop registers: exactly the nodes the selected elements
   * refer to, each a fresh copy of the stored node.
   */
  lemma {:induction false} CollectElemsNodes(m: Mesh, pid: int, ids: seq<int>, p: Part)
    requires CollectElems(m, pid, ids, p).Success?
    requires AllFresh(m, p.nodes)
    ensures var r := CollectElems(m, pid, ids, p).value;
      r.nodes.Keys == p.nodes.Keys + NodeIdsIn(m, pid, Members(ids)) && AllFresh(m, r.nodes)
    decreases |ids|
  {
    if |ids| > 0 {
      var init := ids[..|ids| - 1];
      var e := ids[|ids| - 1];
      CollectElemsNodes(m, pid, init, p);
      SelectionSnoc(m, pid, ids);
      var q := CollectElems(m, pid, init, p).value;
      if Selected(m, pid, e) {
        assert HasGeometry(m, e);
        assert CollectElems(m, pid, ids, p).value == Objects.AddElem(q, ElemOf(m, e));
        AddSelectedNodes(m, pid, ids, p.nodes, q, CollectElems(m, pid, ids, p).value);
      } else {
        assert CollectElems(m, pid, ids, p).value == q;
        assert NodeIdsIn(m, pid, Members(ids)) == NodeIdsIn(m, pid, Members(init));
      }
    } else {
      assert Members(ids) == {};
      assert NodeIdsIn(m, pid, {}) == {};
    }
  }

  /** The step of `CollectElemsNodes` for a selected last element: its node IDs join the registered ones. */
  lemma AddSelectedNodes(m: Mesh, pid: int, ids: seq<int>, start: map<int, Node>, q: Part, r: Part)
    requires |ids| > 0 && Selected(m, pid, ids[|ids| - 1]) && HasGeometry(m, ids[|ids| - 1])
    requires q.nodes.Keys == start.Keys + NodeIdsIn(m, pid, Members(ids[..|ids| - 1])) && AllFresh(m, q.nodes)
    requires r == Objects.AddElem(q, ElemOf(m, ids[|ids| - 1]))
    ensures r.nodes.Keys == start.Keys + NodeIdsIn(m, pid, Members(ids)) && AllFresh(m, r.nodes)
  {
    var e := ids[|ids| - 1];
    var el := ElemOf(m, e);
    var fromRow := set j | 0 <= j < |m.elems[e].nodes| :: m.elems[e].nodes[j];
    assert AllFresh(m, r.nodes) by {
      ElemOfNodes(m, e);
      AddNodesFresh(m, q.nodes, el.Nodes());
    }
    assert r.nodes.Keys == q.nodes.Keys + fromRow by {
      ElemOfNodes(m, e);
      IdsOfNodes(el.Nodes(), m.elems[e].nodes);
    }
    assert NodeIdsIn(m, pid, Members(ids)) == NodeIdsIn(m, pid, Members(ids[..|ids| - 1])) + fromRow by {
      SelectionSnoc(m, pid, ids);
    }
    UnionChain(r.nodes.Keys, q.nodes.Keys, start.Keys, NodeIdsIn(m, pid, Members(ids[..|ids| - 1])),
               fromRow, NodeIdsIn(m, pid, Members(ids)));
  }

  /** Set algebra for one loop step, stated over plain sets so that no comprehension is unfolded. */
  lemma UnionChain(r: set<int>, q: set<int>, start: set<int>, before: set<int>, added: set<int>, after: set<int>)
    requires r == q + added && q == start + before && after == before + added
    ensures r == start + after
  {
  }

  /** Every element of the part that the loop would build has all its nodes stored. */
  ghost predicate Materialisable(m: Mesh, pid: int) {
    forall e :: e in m.elems && Selected(m, pid, e) ==> HasGeometry(m, e)
  }

  /** The elements of a materialised part, independent of iteration order. */
  ghost function PartElems(m: Mesh, pid: int): map<int, Elem> {
    map e | e in m.elems && Selected(m, pid, e) && HasGeometry(m, e) :: ElemOf(m, e)
  }

  /** The nodes of a materialised part, independent of iteration order: fresh copies. */
  ghost function PartNodes(m: Mesh, pid: int): map<int, Node> {
    map n | n in NodeIdsIn(m, pid, m.elems.Keys) && n in m.nodes :: FreshNode(m, n)
  }

  /** A loop over a full enumeration of `Elemlist` that succeeds leaves no selected element without its nodes. */
  lemma CollectedAll(m: Mesh, pid: int, order: seq<int>, p: Part)
    requires Members(order) == m.elems.Keys
    requires CollectElems(m, pid, order, p).Success?
    ensures Materialisable(m, pid)
  {
    forall e | e in m.elems && Selected(m, pid, e) ensures HasGeometry(m, e) {
      assert e in Members(order);
      var k :| 0 <= k < |order| && order[k] == e;
    }
  }

  /** Collecting over a full enumeration of `Elemlist` into an empty part yields the reference elements. */
  lemma CollectedElems(m: Mesh, pid: int, order: seq<int>, p: Part)
    requires Members(order) == m.elems.Keys
    requires p.elems == map[]
    requires CollectElems(m, pid, order, p).Success?
    ensures CollectElems(m, pid, order, p).value.elems == PartElems(m, pid)
  {
    var r := CollectElems(m, pid, order, p).value;
    CollectElemsElems(m, pid, order, p);
    CollectedAll(m, pid, order, p);
    assert r.elems.Keys == PartElems(m, pid).Keys;
  }

  /** Collecting over a full enumeration of `Elemlist` into an empty part yields the reference nodes. */
  lemma CollectedNodes(m: Mesh, pid: int, order: seq<int>, p: Part)
    requires Members(order) == m.elems.Keys
    requires p.nodes == map[]
    requires CollectElems(m, pid, order, p).Success?
    ensures CollectElems(m, pid, order, p).value.nodes == PartNodes(m, pid)
  {
    var r := CollectElems(m, pid, order, p).value;
    CollectElemsNodes(m, pid, order, p);
    CollectedAll(m, pid, order, p);
    assert forall n :: n in NodeIdsIn(m, pid, m.elems.Keys) ==> n in m.nodes;
    assert r.nodes.Keys == PartNodes(m, pid).Keys;
  }

  /** The resolve branch of `InitPartObj`: materials and properties present but no parts. */
  predicate ResolveBranch(m: Mesh) {
    m.mats != map[] && m.props != map[] && m.parts == map[]
  }

  /**
   * `InitPartObj(PartID)`. Empty `Nodelist` and empty `Elemlist` raise, in
   * that order. The resolve branch is taken only when the part table is empty
   * and then indexes it, so it always raises KeyError; every part that is
   * materialised gets the generic defaults. The part is stored in the object
   * cache under PartID.
   */
  function InitPartObj(m: Mesh, objs: map<int, Part>, pid: int, order: seq<int>): (r: Result<(Part, map<int, Part>), PyError>)
    requires Distinct(order) && Members(order) == m.elems.Keys
    ensures m.nodes == map[] ==> r == Failure(Raised(MissingNodes))
    ensures m.nodes != map[] && m.elems == map[] ==> r == Failure(Raised(MissingElements))
    ensures m.nodes != map[] && m.elems != map[] && ResolveBranch(m) ==> r == Failure(KeyError)
    ensures r.Success? <==> m.nodes != map[] && m.elems != map[] && !ResolveBranch(m) && Materialisable(m, pid)
    ensures r.Failure? && m.nodes != map[] && m.elems != map[] ==> r.error == KeyError
    ensures r.Success? ==>
      r.value.0 == Part(pid, GenericTitle, DefaultMaterial, DefaultProperty, false, PartElems(m, pid), PartNodes(m, pid))
    ensures r.Success? ==> r.value.1 == objs[pid := r.value.0]
  {
    if m.nodes == map[] then Failure(Raised(MissingNodes))
    else if m.elems == map[] then Failure(Raised(MissingElements))
    else if ResolveBranch(m) then
      // `Partlist[PartID]` on the part table the branch condition found empty
      Lookup(m.parts, pid).PropagateFailure()
    else
      var empty := NewPart(pid, GenericTitle, DefaultMaterial, DefaultProperty);
      assert Materialisable(m, pid) <==> CollectElems(m, pid, order, empty).Success? by {
        assert forall e :: e in m.elems <==> exists k :: 0 <= k < |order| && order[k] == e;
      }
      var part :- CollectElems(m, pid, order, empty);
      CollectedElems(m, pid, order, empty);
      CollectedNodes(m, pid, order, empty);
      Success((part, objs[pid := part]))
  }

  /** The flat area of a stored element equals the object area of the element built from it. */
  lemma FlatAreaMatchesElemArea(m: Mesh, norm: Norm, e: int)
    requires HasGeometry(m, e)
    ensures AreaByElemID(m, norm, e).Success? && AreaByElemID(m, norm, e).value == Area(ElemOf(m, e), norm)
  {
    var ns := m.elems[e].nodes;
    assert forall k :: 0 <= k < |ns| ==> Pos(FreshNode(m, ns[k])) == m.nodes[ns[k]];
    if |ns| == 3 {
      TriangleAreaMatchesTria(m, norm, e);
    }
  }

  /**
   * The flat path and the object path agree on a part's area: when
   * `InitPartObj` materialises a part, `getAreaByPartID` over the flat tables
   * equals `getPartArea` of the part object, whatever the iteration order.
   */
  lemma FlatAreaMatchesObjectArea(m: Mesh, norm: Norm, objs: map<int, Part>, pid: int, order: seq<int>)
    requires Distinct(order) && Members(order) == m.elems.Keys
    requires ElemsWellFormed(m)
    requires InitPartObj(m, objs, pid, order).Success?
    ensures AreaByPartID(m, norm, pid, order).Success?
    ensures AreaByPartID(m, norm, pid, order).value == PartArea(InitPartObj(m, objs, pid, order).value.0, norm)
  {
    var p := InitPartObj(m, objs, pid, order).value.0;
    assert p.elems == PartElems(m, pid);
    var flat := FlatAreaOf(m, norm, pid);
    assert forall e :: e in m.elems && m.elems[e].part == pid ==> Selected(m, pid, e);
    SetSumZeroOutside(m.elems.Keys, p.elems.Keys, flat);
    forall e | e in p.elems
      ensures flat(e) == AreaOf(p.elems, norm)(e)
    {
      FlatAreaMatchesElemArea(m, norm, e);
    }
    SetSumCongruent(p.elems.Keys, flat, AreaOf(p.elems, norm));
    SumAreaIsSetSum(p.elems, norm);
  }

  /**
   * A materialised part has the default property thickness 1.0 and density
   * 7.9e-9, so its volume is its area and its mass is 7.9e-9 times its area.
   */
  lemma DefaultPartVolumeAndMass(m: Mesh, norm: Norm, objs: map<int, Part>, pid: int, order: seq<int>)
    requires Distinct(order) && Members(order) == m.elems.Keys
    requires InitPartObj(m, objs, pid, order).Success?
    ensures var p := InitPartObj(m, objs, pid, order).value.0;
      && PartVolume(p, norm).Success? && PartVolume(p, norm).value == PartArea(p, norm)
      && PartMass(p, norm).Success? && PartMass(p, norm).value == 0.0000000079 * PartArea(p, norm)
  {
  }

  /**
   * `InitPartObj` never calls `calcThickness`, so every element it builds has
   * thickness 0.0 and no volume: switching a non-empty materialised part to
   * TRB makes `getPartVolume` raise TypeError.
   */
  lemma MaterialisedTrbVolumeFails(m: Mesh, norm: Norm, objs: map<int, Part>, pid: int, order: seq<int>)
    requires Distinct(order) && Members(order) == m.elems.Keys
    requires InitPartObj(m, objs, pid, order).Success?
    requires InitPartObj(m, objs, pid, order).value.0.elems != map[]
    ensures PartVolume(SetTRB(InitPartObj(m, objs, pid, order).value.0, true), norm) == Failure(TypeError)
  {
    var p := InitPartObj(m, objs, pid, order).value.0;
    assert forall e :: e in p.elems ==> p.elems[e].thickness == 0.0;
    var k := Pick(p.elems.Keys);
    SumVolumeDefined(p.elems, norm);
  }

  /** The `Partlist` entry's property and material are both in their tables. */
  predicate Resolves(m: Mesh, pid: int)
    requires pid in m.parts
  {
    m.parts[pid].prop in m.props && m.parts[pid].mat in m.mats
  }

  /** The part resolves, its density and modulus parse, and its elements can be built. */
  ghost predicate Buildable(c: Conv, m: Mesh, pid: int) {
    && pid in m.parts
    && Resolves(m, pid)
    && c.toFloat(m.mats[m.parts[pid].mat].rho).Some?
    && c.toFloat(m.mats[m.parts[pid].mat].e).Some?
    && Materialisable(m, pid)
  }

  /** The part `InitAllObj` builds for a part that resolves, independent of iteration order. */
  ghost function ResolvedPart(c: Conv, m: Mesh, pid: int): Part
    requires Buildable(c, m, pid)
  {
    var row := m.parts[pid];
    var mat := m.mats[row.mat];
    Part(pid, row.title,
         Objects.Material(row.mat, c.toFloat(mat.rho).value, c.toFloat(mat.e).value),
         Objects.Property(row.prop, m.props[row.prop]),
         false, PartElems(m, pid), PartNodes(m, pid))
  }

  /** What `InitAllObj` carries from one part to the next: the object cache and the variable `part`. */
  datatype AllState = AllState(objs: map<int, Part>, last: Option<Part>)

  /**
   * One iteration of `InitAllObj`. A part whose property and material resolve
   * is built (density and modulus through `float()`, then the element loop)
   * and becomes `part`. For any other part the current value of `part` is
   * stored under its ID: a stale part from an earlier iteration, or, before
   * any part was built, an unbound name.
   */
  function InitOne(c: Conv, m: Mesh, elemOrder: seq<int>, st: AllState, pid: int): (r: Result<AllState, PyError>)
    requires pid in m.parts
    ensures !Resolves(m, pid) && st.last.None? ==> r == Failure(NameError)
    ensures !Resolves(m, pid) && st.last.Some? ==> r == Success(AllState(st.objs[pid := st.last.value], st.last))
    ensures Resolves(m, pid) && r.Failure? ==> r.error in {ValueError, KeyError}
    ensures Resolves(m, pid) && r.Success? ==> r.value.last.Some? && r.value.last.value.id == pid
    ensures r.Success? ==> r.value.last.Some? && r.value.objs == st.objs[pid := r.value.last.value]
  {
    var row := m.parts[pid];
    if row.prop in m.props && row.mat in m.mats then
      var rho :- Float(c, m.mats[row.mat].rho);
      var e :- Float(c, m.mats[row.mat].e);
      var empty := NewPart(pid, row.title, Objects.Material(row.mat, rho, e), Objects.Property(row.prop, m.props[row.prop]));
      var part :- CollectElems(m, pid, elemOrder, empty);
      Success(AllState(st.objs[pid := part], Some(part)))
    else
      var part :- Bound(st.last);
      Success(AllState(st.objs[pid := part], st.last))
  }

  /**
   * For a part that resolves, the iteration succeeds exactly when the part is
   * buildable, and then stores and remembers the part built from its tables.
   */
  lemma InitOneResolved(c: Conv, m: Mesh, elemOrder: seq<int>, st: AllState, pid: int)
    requires Members(elemOrder) == m.elems.Keys
    requires pid in m.parts && Resolves(m, pid)
    ensures InitOne(c, m, elemOrder, st, pid).Success? <==> Buildable(c, m, pid)
    ensures InitOne(c, m, elemOrder, st, pid).Success? ==>
      InitOne(c, m, elemOrder, st, pid).value == AllState(st.objs[pid := ResolvedPart(c, m, pid)], Some(ResolvedPart(c, m, pid)))
  {
    var row := m.parts[pid];
    var rho := c.toFloat(m.mats[row.mat].rho);
    var e := c.toFloat(m.mats[row.mat].e);
    if rho.Some? && e.Some? {
      var empty := NewPart(pid, row.title, Objects.Material(row.mat, rho.value, e.value), Objects.Property(row.prop, m.props[row.prop]));
      assert Materialisable(m, pid) <==> CollectElems(m, pid, elemOrder, empty).Success? by {
        assert forall e :: e in m.elems <==> exists k :: 0 <= k < |elemOrder| && elemOrder[k] == e;
      }
      if CollectElems(m, pid, elemOrder, empty).Success? {
        CollectedElems(m, pid, elemOrder, empty);
        CollectedNodes(m, pid, elemOrder, empty);
      }
    }
  }

  /** The first n listed keys, as a set. */
  function FirstKeys(ids: seq<int>, n: nat): set<int>
    requires n <= |ids|
  {
    if n == 0 then {} else FirstKeys(ids, n - 1) + {ids[n - 1]}
  }

  /** The first n listed keys hold exactly the entries `ids[0..n]`. */
  lemma {:induction false} FirstKeysSpec(ids: seq<int>, n: nat)
    requires n <= |ids|
    ensures forall i :: 0 <= i < n ==> ids[i] in FirstKeys(ids, n)
    ensures forall k :: k in FirstKeys(ids, n) ==> exists i :: 0 <= i < n && ids[i] == k
  {
    if n > 0 {
      FirstKeysSpec(ids, n - 1);
    }
  }

  /** All the listed keys are the members of the list. */
  lemma FirstKeysAll(ids: seq<int>)
    ensures FirstKeys(ids, |ids|) == Members(ids)
  {
    FirstKeysSpec(ids, |ids|);
    forall k | k in Members(ids) ensures k in FirstKeys(ids, |ids|) {
      var i :| 0 <= i < |ids| && ids[i] == k;
    }
    forall k | k in FirstKeys(ids, |ids|) ensures k in Members(ids) {
      var i :| 0 <= i < |ids| && ids[i] == k;
      assert ids[i] in ids;
    }
  }

  /**
   * The first n iterations of the loop of `InitAllObj` over the listed part
   * IDs, starting with `part` unbound.
   */
  function InitParts(c: Conv, m: Mesh, elemOrder: seq<int>, objs: map<int, Part>, ids: seq<int>, n: nat): (r: Result<AllState, PyError>)
    requires forall k :: 0 <= k < |ids| ==> ids[k] in m.parts
    requires n <= |ids|
    ensures r.Success? ==> objs.Keys <= r.value.objs.Keys
    ensures r.Success? ==> forall i {:trigger ids[i] in r.value.objs} :: 0 <= i < n ==> ids[i] in r.value.objs
    ensures r.Success? && n > 0 ==> r.value.last == Some(r.value.objs[ids[n - 1]])
    ensures r.Success? && r.value.last.Some? ==> r.value.last.value.id in FirstKeys(ids, n)
    ensures r.Success? && r.value.last.Some? ==> r.value.last.value.id in m.parts && Resolves(m, r.value.last.value.id)
  {
    if n == 0 then Success(AllState(objs, None))
    else
      var st :- InitParts(c, m, elemOrder, objs, ids, n - 1);
      InitOne(c, m, elemOrder, st, ids[n - 1])
  }

  /** A successful loop of n iterations is n - 1 successful iterations and one more. */
  lemma InitPartsLast(c: Conv, m: Mesh, elemOrder: seq<int>, objs: map<int, Part>, ids: seq<int>, n: nat)
    requires forall k :: 0 <= k < |ids| ==> ids[k] in m.parts
    requires 0 < n <= |ids| && InitParts(c, m, elemOrder, objs, ids, n).Success?
    ensures InitParts(c, m, elemOrder, objs, ids, n - 1).Success?
    ensures InitParts(c, m, elemOrder, objs, ids, n) == InitOne(c, m, elemOrder, InitParts(c, m, elemOrder, objs, ids, n - 1).value, ids[n - 1])
  {
  }

  /** After n iterations the cache holds its old keys and the first n listed part IDs. */
  lemma {:induction false} InitPartsKeys(c: Conv, m: Mesh, elemOrder: seq<int>, objs: map<int, Part>, ids: seq<int>, n: nat)
    requires forall k :: 0 <= k < |ids| ==> ids[k] in m.parts
    requires n <= |ids| && InitParts(c, m, elemOrder, objs, ids, n).Success?
    ensures InitParts(c, m, elemOrder, objs, ids, n).value.objs.Keys == objs.Keys + FirstKeys(ids, n)
  {
    if n > 0 {
      InitPartsLast(c, m, elemOrder, objs, ids, n);
      InitPartsKeys(c, m, elemOrder, objs, ids, n - 1);
      var st := InitParts(c, m, elemOrder, objs, ids, n - 1).value;
      var st' := InitParts(c, m, elemOrder, objs, ids, n).value;
      assert st'.objs.Keys == st.objs.Keys + {ids[n - 1]} by {
        assert st'.objs == st.objs[ids[n - 1] := st'.last.value];
      }
      UnionChain(st'.objs.Keys, st.objs.Keys, objs.Keys, FirstKeys(ids, n - 1), {ids[n - 1]}, FirstKeys(ids, n));
    }
  }

  /**
   * `InitAllObj()`: every part of `Partlist` gets an entry in the object
   * cache, in the given order of `Partlist`; the first failure propagates.
   */
  function InitAllObj(c: Conv, m: Mesh, objs: map<int, Part>, partOrder: seq<int>, elemOrder: seq<int>): (r: Result<map<int, Part>, PyError>)
    requires Distinct(partOrder) && Members(partOrder) == m.parts.Keys
    requires Distinct(elemOrder) && Members(elemOrder) == m.elems.Keys
    ensures r.Success? ==> r.value.Keys == objs.Keys + m.parts.Keys
    ensures r.Success? ==> forall k :: k in objs && k !in m.parts ==> r.value[k] == objs[k]
  {
    assert forall k :: 0 <= k < |partOrder| ==> partOrder[k] in m.parts;
    FirstKeysAll(partOrder);
    var st :- InitParts(c, m, elemOrder, objs, partOrder, |partOrder|);
    InitPartsKeys(c, m, elemOrder, objs, partOrder, |partOrder|);
    InitPartsKeepsOthers(c, m, elemOrder, objs, partOrder, |partOrder|);
    Success(st.objs)
  }

  /**
   * The object cache as the loop leaves it. `PartObjList` is written in place
   * at the end of each iteration, so when a part raises, the entries of the
   * parts before it stay, and the raising part writes nothing.
   */
  function LoopCache(c: Conv, m: Mesh, elemOrder: seq<int>, objs: map<int, Part>, ids: seq<int>, n: nat): (r: map<int, Part>)
    requires forall k :: 0 <= k < |ids| ==> ids[k] in m.parts
    requires n <= |ids|
    ensures InitParts(c, m, elemOrder, objs, ids, n).Success? ==> r == InitParts(c, m, elemOrder, objs, ids, n).value.objs
    ensures objs.Keys <= r.Keys
  {
    if n == 0 then objs
    else
      match InitParts(c, m, elemOrder, objs, ids, n)
      case Success(st) => st.objs
      case Failure(_) => LoopCache(c, m, elemOrder, objs, ids, n - 1)
  }

  /**
   * A failing loop stops at one part j: the parts before it all succeed, part
   * j raises the loop's error, and the cache is the one the first j parts left.
   */
  lemma {:induction false} LoopCacheStops(c: Conv, m: Mesh, elemOrder: seq<int>, objs: map<int, Part>, ids: seq<int>, n: nat)
    requires forall k :: 0 <= k < |ids| ==> ids[k] in m.parts
    requires n <= |ids| && InitParts(c, m, elemOrder, objs, ids, n).Failure?
    ensures exists j ::
      && 0 <= j < n
      && InitParts(c, m, elemOrder, objs, ids, j).Success?
      && InitOne(c, m, elemOrder, InitParts(c, m, elemOrder, objs, ids, j).value, ids[j])
         == Failure(InitParts(c, m, elemOrder, objs, ids, n).error)
      && LoopCache(c, m, elemOrder, objs, ids, n) == InitParts(c, m, elemOrder, objs, ids, j).value.objs
  {
    var pre := InitParts(c, m, elemOrder, objs, ids, n - 1);
    if pre.Success? {
      assert InitOne(c, m, elemOrder, pre.value, ids[n - 1]) == Failure(InitParts(c, m, elemOrder, objs, ids, n).error);
    } else {
      LoopCacheStops(c, m, elemOrder, objs, ids, n - 1);
    }
  }

  /** The object cache after `InitAllObj()`, whether or not it raised. */
  function InitAllObjCache(c: Conv, m: Mesh, objs: map<int, Part>, partOrder: seq<int>, elemOrder: seq<int>): (r: map<int, Part>)
    requires Distinct(partOrder) && Members(partOrder) == m.parts.Keys
    requires Distinct(elemOrder) && Members(elemOrder) == m.elems.Keys
    ensures InitAllObj(c, m, objs, partOrder, elemOrder).Success? ==> r == InitAllObj(c, m, objs, partOrder, elemOrder).value
  {
    assert forall k :: 0 <= k < |partOrder| ==> partOrder[k] in m.parts;
    LoopCache(c, m, elemOrder, objs, partOrder, |partOrder|)
  }

  /**
   * When `InitAllObj` raises at the j-th part in iteration order, the cache
   * keeps its earlier entries and holds the entries of the first j parts;
   * entries of keys the loop did not reach are unchanged.
   */
  lemma InitAllObjFailureCache(c: Conv, m: Mesh, objs: map<int, Part>, partOrder: seq<int>, elemOrder: seq<int>)
    requires Distinct(partOrder) && Members(partOrder) == m.parts.Keys
    requires Distinct(elemOrder) && Members(elemOrder) == m.elems.Keys
    requires InitAllObj(c, m, objs, partOrder, elemOrder).Failure?
    ensures exists j ::
      && 0 <= j < |partOrder|
      && InitParts(c, m, elemOrder, objs, partOrder, j).Success?
      && InitOne(c, m, elemOrder, InitParts(c, m, elemOrder, objs, partOrder, j).value, partOrder[j])
         == Failure(InitAllObj(c, m, objs, partOrder, elemOrder).error)
      && InitAllObjCache(c, m, objs, partOrder, elemOrder).Keys == objs.Keys + FirstKeys(partOrder, j)
      && forall k :: k in objs && k !in FirstKeys(partOrder, j) ==> InitAllObjCache(c, m, objs, partOrder, elemOrder)[k] == objs[k]
  {
    assert forall k :: 0 <= k < |partOrder| ==> partOrder[k] in m.parts;
    var n := |partOrder|;
    LoopCacheStops(c, m, elemOrder, objs, partOrder, n);
    var j :| 0 <= j < n && InitParts(c, m, elemOrder, objs, partOrder, j).Success?
      && InitOne(c, m, elemOrder, InitParts(c, m, elemOrder, objs, partOrder, j).value, partOrder[j])
         == Failure(InitParts(c, m, elemOrder, objs, partOrder, n).error)
      && LoopCache(c, m, elemOrder, objs, partOrder, n) == InitParts(c, m, elemOrder, objs, partOrder, j).value.objs;
    InitPartsKeys(c, m, elemOrder, objs, partOrder, j);
    InitPartsKeepsOthers(c, m, elemOrder, objs, partOrder, j);
  }

  /** Keys the loop does not visit keep their cache entries. */
  lemma {:induction false} InitPartsKeepsOthers(c: Conv, m: Mesh, elemOrder: seq<int>, objs: map<int, Part>, ids: seq<int>, n: nat)
    requires forall k :: 0 <= k < |ids| ==> ids[k] in m.parts
    requires n <= |ids| && InitParts(c, m, elemOrder, objs, ids, n).Success?
    ensures forall k :: k in objs && k !in FirstKeys(ids, n) ==> InitParts(c, m, elemOrder, objs, ids, n).value.objs[k] == objs[k]
  {
    if n > 0 {
      InitPartsLast(c, m, elemOrder, objs, ids, n);
      InitPartsKeepsOthers(c, m, elemOrder, objs, ids, n - 1);
    }
  }

  /** The loop fails at its first failing part: a prefix of a successful loop succeeds. */
  lemma {:induction false} InitPartsPrefix(c: Conv, m: Mesh, elemOrder: seq<int>, objs: map<int, Part>, ids: seq<int>, j: nat, n: nat)
    requires forall k :: 0 <= k < |ids| ==> ids[k] in m.parts
    requires j <= n <= |ids|
    requires InitParts(c, m, elemOrder, objs, ids, n).Success?
    ensures InitParts(c, m, elemOrder, objs, ids, j).Success?
  {
    if j < n {
      InitPartsLast(c, m, elemOrder, objs, ids, n);
      InitPartsPrefix(c, m, elemOrder, objs, ids, j, n - 1);
    }
  }

  /** The loop's success condition: the first part resolves and every resolving part among the first n can be built. */
  ghost predicate FirstResolvesAllBuild(c: Conv, m: Mesh, ids: seq<int>, n: nat)
    requires 0 < n <= |ids|
    requires forall k :: 0 <= k < |ids| ==> ids[k] in m.parts
  {
    Resolves(m, ids[0]) && forall k :: 0 <= k < n && Resolves(m, ids[k]) ==> Buildable(c, m, ids[k])
  }

  /**
   * The loop succeeds exactly when the first part resolves (otherwise `part`
   * is read unbound) and every part that resolves can be built.
   */
  lemma {:induction false} InitPartsSucceeds(c: Conv, m: Mesh, elemOrder: seq<int>, objs: map<int, Part>, ids: seq<int>, n: nat)
    requires Members(elemOrder) == m.elems.Keys
    requires forall k :: 0 <= k < |ids| ==> ids[k] in m.parts
    requires 0 < n <= |ids|
    ensures InitParts(c, m, elemOrder, objs, ids, n).Success? <==> FirstResolvesAllBuild(c, m, ids, n)
    ensures InitParts(c, m, elemOrder, objs, ids, n).Failure? && !Resolves(m, ids[0]) ==>
      InitParts(c, m, elemOrder, objs, ids, n).error == NameError
  {
    var x := ids[n - 1];
    if n == 1 {
      if Resolves(m, x) {
        InitOneResolved(c, m, elemOrder, AllState(objs, None), x);
      }
    } else {
      InitPartsSucceeds(c, m, elemOrder, objs, ids, n - 1);
      var ri := InitParts(c, m, elemOrder, objs, ids, n - 1);
      if ri.Success? && Resolves(m, x) {
        InitOneResolved(c, m, elemOrder, ri.value, x);
      }
    }
  }

  /**
   * `InitAllObj` succeeds exactly when the first part in iteration order
   * resolves and every resolving part can be built; an unresolved first part
   * reads the unbound `part` and raises NameError.
   */
  lemma InitAllObjSucceeds(c: Conv, m: Mesh, objs: map<int, Part>, partOrder: seq<int>, elemOrder: seq<int>)
    requires Distinct(partOrder) && Members(partOrder) == m.parts.Keys
    requires Distinct(elemOrder) && Members(elemOrder) == m.elems.Keys
    requires |partOrder| > 0
    ensures InitAllObj(c, m, objs, partOrder, elemOrder).Success? <==>
      Resolves(m, partOrder[0]) && forall pid :: pid in m.parts && Resolves(m, pid) ==> Buildable(c, m, pid)
    ensures !Resolves(m, partOrder[0]) ==> InitAllObj(c, m, objs, partOrder, elemOrder) == Failure(NameError)
  {
    assert forall k :: 0 <= k < |partOrder| ==> partOrder[k] in m.parts;
    InitPartsSucceeds(c, m, elemOrder, objs, partOrder, |partOrder|);
    assert forall pid :: pid in m.parts ==> exists k :: 0 <= k < |partOrder| && partOrder[k] == pid;
  }

  /** From iteration j on, the entry of `ids[j]` stays as iteration j wrote it while no later key repeats it. */
  lemma {:induction false} InitPartsKeepsEntry(c: Conv, m: Mesh, elemOrder: seq<int>, objs: map<int, Part>, ids: seq<int>, j: nat, n: nat)
    requires forall k :: 0 <= k < |ids| ==> ids[k] in m.parts
    requires j < n <= |ids| && forall i :: j < i < n ==> ids[i] != ids[j]
    requires InitParts(c, m, elemOrder, objs, ids, n).Success?
    ensures InitParts(c, m, elemOrder, objs, ids, j + 1).Success?
    ensures InitParts(c, m, elemOrder, objs, ids, n).value.objs[ids[j]] ==
            InitParts(c, m, elemOrder, objs, ids, j + 1).value.objs[ids[j]]
  {
    if n > j + 1 {
      LastStepKeeps(c, m, elemOrder, objs, ids, n, j);
      InitPartsKeepsEntry(c, m, elemOrder, objs, ids, j, n - 1);
    }
  }

  /** Iteration n - 1 writes only the key it visits. */
  lemma LastStepKeeps(c: Conv, m: Mesh, elemOrder: seq<int>, objs: map<int, Part>, ids: seq<int>, n: nat, j: nat)
    requires forall i :: 0 <= i < |ids| ==> ids[i] in m.parts
    requires 0 < n <= |ids| && InitParts(c, m, elemOrder, objs, ids, n).Success?
    requires j < n - 1 && ids[j] != ids[n - 1]
    ensures InitParts(c, m, elemOrder, objs, ids, n - 1).Success?
    ensures InitParts(c, m, elemOrder, objs, ids, n).value.objs[ids[j]] == InitParts(c, m, elemOrder, objs, ids, n - 1).value.objs[ids[j]]
  {
    InitPartsLast(c, m, elemOrder, objs, ids, n);
  }

  /**
   * The entry `InitAllObj` stores for a part that does not resolve is the
   * entry of the part before it in iteration order: the stale `part`.
   */
  lemma UnresolvedPartCopiesPrevious(c: Conv, m: Mesh, objs: map<int, Part>, partOrder: seq<int>, elemOrder: seq<int>, j: nat)
    requires Distinct(partOrder) && Members(partOrder) == m.parts.Keys
    requires Distinct(elemOrder) && Members(elemOrder) == m.elems.Keys
    requires 0 < j < |partOrder| && !Resolves(m, partOrder[j])
    requires InitAllObj(c, m, objs, partOrder, elemOrder).Success?
    ensures InitAllObj(c, m, objs, partOrder, elemOrder).value[partOrder[j]] ==
            InitAllObj(c, m, objs, partOrder, elemOrder).value[partOrder[j - 1]]
  {
    assert forall k :: 0 <= k < |partOrder| ==> partOrder[k] in m.parts;
    InitPartsCopiesPrevious(c, m, elemOrder, objs, partOrder, j);
  }

  /** The loop-level form: iteration j of an unresolved part stores the entry iteration j - 1 wrote. */
  lemma InitPartsCopiesPrevious(c: Conv, m: Mesh, elemOrder: seq<int>, objs: map<int, Part>, ids: seq<int>, j: nat)
    requires forall k :: 0 <= k < |ids| ==> ids[k] in m.parts
    requires Distinct(ids) && 0 < j < |ids| && !Resolves(m, ids[j])
    requires InitParts(c, m, elemOrder, objs, ids, |ids|).Success?
    ensures InitParts(c, m, elemOrder, objs, ids, |ids|).value.objs[ids[j]] ==
            InitParts(c, m, elemOrder, objs, ids, |ids|).value.objs[ids[j - 1]]
  {
    var n := |ids|;
    InitPartsKeepsEntry(c, m, elemOrder, objs, ids, j - 1, n);
    InitPartsKeepsEntry(c, m, elemOrder, objs, ids, j, n);
    InitPartsLast(c, m, elemOrder, objs, ids, j + 1);
    var st := InitParts(c, m, elemOrder, objs, ids, j).value;
    assert st.last == Some(st.objs[ids[j - 1]]);
    assert InitParts(c, m, elemOrder, objs, ids, j + 1).value.objs[ids[j]] == st.objs[ids[j - 1]];
  }

  /** The entry written at iteration j: the built part if it resolves, a part with another ID if not. */
  lemma InitPartsEntryAt(c: Conv, m: Mesh, elemOrder: seq<int>, objs: map<int, Part>, ids: seq<int>, j: nat)
    requires Members(elemOrder) == m.elems.Keys
    requires forall k :: 0 <= k < |ids| ==> ids[k] in m.parts
    requires Distinct(ids) && j < |ids|
    requires InitParts(c, m, elemOrder, objs, ids, |ids|).Success?
    ensures Resolves(m, ids[j]) ==> Buildable(c, m, ids[j])
    ensures Resolves(m, ids[j]) ==> InitParts(c, m, elemOrder, objs, ids, |ids|).value.objs[ids[j]] == ResolvedPart(c, m, ids[j])
    ensures !Resolves(m, ids[j]) ==> InitParts(c, m, elemOrder, objs, ids, |ids|).value.objs[ids[j]].id != ids[j]
  {
    InitPartsKeepsEntry(c, m, elemOrder, objs, ids, j, |ids|);
    InitPartsPrefix(c, m, elemOrder, objs, ids, j, j + 1);
    var st := InitParts(c, m, elemOrder, objs, ids, j).value;
    if Resolves(m, ids[j]) {
      InitOneResolved(c, m, elemOrder, st, ids[j]);
    } else {
      assert st.last.Some?;
      assert ids[j] !in FirstKeys(ids, j) by {
        FirstKeysSpec(ids, j);
      }
    }
  }

  /**
   * After a successful `InitAllObj`, a part that resolves holds exactly the
   * part built from its tables, and a part that does not resolve holds a part
   * object with another ID.
   */
  lemma InitAllObjEntries(c: Conv, m: Mesh, objs: map<int, Part>, partOrder: seq<int>, elemOrder: seq<int>, pid: int)
    requires Distinct(partOrder) && Members(partOrder) == m.parts.Keys
    requires Distinct(elemOrder) && Members(elemOrder) == m.elems.Keys
    requires pid in m.parts
    requires InitAllObj(c, m, objs, partOrder, elemOrder).Success?
    ensures Resolves(m, pid) ==> Buildable(c, m, pid)
    ensures Resolves(m, pid) ==> InitAllObj(c, m, objs, partOrder, elemOrder).value[pid] == ResolvedPart(c, m, pid)
    ensures !Resolves(m, pid) ==> InitAllObj(c, m, objs, partOrder, elemOrder).value[pid].id != pid
  {
    assert forall k :: 0 <= k < |partOrder| ==> partOrder[k] in m.parts;
    assert pid in Members(partOrder);
    var j :| 0 <= j < |partOrder| && partOrder[j] == pid;
    InitPartsEntryAt(c, m, elemOrder, objs, partOrder, j);
  }
}

=== FILE: mesh_store.dfy ===
/**
 * The flat, dictionary-based mesh store (class `Mesh` of FE_Mesh.py, and its
 * line-for-line copy in NK_FEMeshUtils/Mesh.py): keyed tables of nodes,
 * elements, parts, materials and properties, two thickness side tables, and
 * the per-part list of element IDs in insertion order.
 */
module MeshStore {
  import opened Wrappers
  import opened Python
  import opened Vectors

  /** An `Elemlist` entry `[PartID, n1, n2, n3(, n4)]`. */
  datatype ElemRow = ElemRow(part: int, nodes: seq<int>)

  /** A `Partlist` entry `[title, PropID, MatID]`. */
  datatype PartRow = PartRow(title: string, prop: int, mat: int)

  /** A `Matlist` entry `[Rho, E]`: both kept as the text they were given. */
  datatype MatRow = MatRow(rho: string, e: string)

  datatype Mesh = Mesh(
    nodes: map<int, Vec3>,                  // Nodelist
    nodalThickness: map<PyKey, real>,       // Nodalthickness
    elementalThickness: map<PyKey, real>,   // Elementalthickness
    elems: map<int, ElemRow>,               // Elemlist
    partElems: map<int, seq<int>>,          // PartElemlist
    parts: map<int, PartRow>,               // Partlist
    mats: map<int, MatRow>,                 // Matlist
    props: map<int, real>,                  // Proplist, entries `[thickness]`
    trbProps: set<int>,                     // TRBProps, filled by callers
    file: string,                           // Meshfile
    format: string)                         // MeshFormat

  /** A freshly constructed `Mesh()`. */
  const Empty := Mesh(map[], map[], map[], map[], map[], map[], map[], map[], {}, "", "")

  /** Every stored element has three or four nodes (the only shapes `addElem` stores). */
  ghost predicate ElemsWellFormed(m: Mesh) {
    forall e :: e in m.elems ==> |m.elems[e].nodes| == 3 || |m.elems[e].nodes| == 4
  }

  /** Every key of both thickness side tables is text, as the readers store them. */
  ghost predicate TextThicknessKeys(m: Mesh) {
    (forall k :: k in m.nodalThickness ==> k.StrKey?) &&
    (forall k :: k in m.elementalThickness ==> k.StrKey?)
  }

  /** Parses the given fields with `int()` in order. */
  function Ints(c: Conv, fields: seq<string>): (r: Result<seq<int>, PyError>)
    ensures r.Success? <==> forall k :: 0 <= k < |fields| ==> c.toInt(fields[k]).Some?
    ensures r.Success? ==> |r.value| == |fields|
    ensures r.Success? ==> forall k :: 0 <= k < |fields| ==> r.value[k] == c.toInt(fields[k]).value
    ensures r.Failure? ==> r.error == ValueError
  {
    if |fields| == 0 then Success([])
    else
      var head :- Int(c, fields[0]);
      var tail :- Ints(c, fields[1..]);
      Success([head] + tail)
  }

  /** `addNode(NodeID, x, y, z)`: stores the parsed coordinates under `int(NodeID)`, overwriting. */
  function AddNode(c: Conv, m: Mesh, id: string, x: string, y: string, z: string): (r: Result<Mesh, PyError>)
    ensures r.Success? <==>
      c.toInt(id).Some? && c.toFloat(x).Some? && c.toFloat(y).Some? && c.toFloat(z).Some?
    ensures r.Failure? ==> r.error == ValueError
    ensures r.Success? ==> r.value == m.(nodes := m.nodes[c.toInt(id).value :=
      Vec3(c.toFloat(x).value, c.toFloat(y).value, c.toFloat(z).value)])
  {
    var fx :- Float(c, x);
    var fy :- Float(c, y);
    var fz :- Float(c, z);
    var n :- Int(c, id);
    Success(m.(nodes := m.nodes[n := Vec3(fx, fy, fz)]))
  }

  /**
   * `addElem(ElemID, PartID, *Nodes)`: for three or four node fields stores
   * `[int(PartID)] + int(nodes)` under `int(ElemID)`; any other count stores
   * nothing. In every case `int(ElemID)` is appended to `PartElemlist[int(PartID)]`.
   */
  function AddElem(c: Conv, m: Mesh, id: string, part: string, nodes: seq<string>): (r: Result<Mesh, PyError>)
    ensures r.Failure? ==> r.error == ValueError
    ensures r.Success? <==>
      c.toInt(id).Some? && c.toInt(part).Some? &&
      ((|nodes| == 3 || |nodes| == 4) ==> forall k :: 0 <= k < |nodes| ==> c.toInt(nodes[k]).Some?)
    ensures r.Success? ==>
      var e := c.toInt(id).value;
      var p := c.toInt(part).value;
      && (|nodes| == 3 || |nodes| == 4 ==>
            e in r.value.elems && r.value.elems[e].part == p && |r.value.elems[e].nodes| == |nodes| &&
            (forall k :: 0 <= k < |nodes| ==> r.value.elems[e].nodes[k] == c.toInt(nodes[k]).value) &&
            (forall e' :: e' != e ==> (e' in r.value.elems <==> e' in m.elems)) &&
            (forall e' :: e' != e && e' in m.elems ==> r.value.elems[e'] == m.elems[e']))
      && (!(|nodes| == 3 || |nodes| == 4) ==> r.value.elems == m.elems)
      && r.value.partElems.Keys == m.partElems.Keys + {p}
      && r.value.partElems[p] == (if p in m.partElems then m.partElems[p] else []) + [e]
      && (forall q :: q in m.partElems && q != p ==> r.value.partElems[q] == m.partElems[q])
      && r.value == m.(elems := r.value.elems, partElems := r.value.partElems)
  {
    var m1 :-
      if |nodes| == 3 || |nodes| == 4 then
        var p :- Int(c, part);
        var ns :- Ints(c, nodes);
        var e :- Int(c, id);
        Success(m.(elems := m.elems[e := ElemRow(p, ns)]))
      else Success(m);
    var p :- Int(c, part);
    var e :- Int(c, id);
    var list := if p in m1.partElems then m1.partElems[p] + [e] else [e];
    Success(m1.(partElems := m1.partElems[p := list]))
  }

  /** `addNodalThickness(NodeID, t)`: the key is stored exactly as given, not converted. */
  function AddNodalThickness(c: Conv, m: Mesh, key: PyKey, t: string): (r: Result<Mesh, PyError>)
    ensures r.Success? <==> c.toFloat(t).Some?
    ensures r.Failure? ==> r.error == ValueError
    ensures r.Success? ==> r.value == m.(nodalThickness := m.nodalThickness[key := c.toFloat(t).value])
  {
    var v :- Float(c, t);
    Success(m.(nodalThickness := m.nodalThickness[key := v]))
  }

  /** `addElementalThickness(ElemID, t)`: the key is stored exactly as given, not converted. */
  function AddElementalThickness(c: Conv, m: Mesh, key: PyKey, t: string): (r: Result<Mesh, PyError>)
    ensures r.Success? <==> c.toFloat(t).Some?
    ensures r.Failure? ==> r.error == ValueError
    ensures r.Success? ==> r.value == m.(elementalThickness := m.elementalThickness[key := c.toFloat(t).value])
  {
    var v :- Float(c, t);
    Success(m.(elementalThickness := m.elementalThickness[key := v]))
  }

  /** `getNodalThickness(NodeID)`: a plain lookup with the key as given. */
  function GetNodalThickness(m: Mesh, key: PyKey): (r: Result<real, PyError>)
    ensures r.Success? <==> key in m.nodalThickness
    ensures r.Success? ==> r.value == m.nodalThickness[key]
    ensures r.Failure? ==> r.error == KeyError
  {
    Lookup(m.nodalThickness, key)
  }

  /** `getElementalThickness(ElemID)`: a plain lookup with the key as given. */
  function GetElementalThickness(m: Mesh, key: PyKey): (r: Result<real, PyError>)
    ensures r.Success? <==> key in m.elementalThickness
    ensures r.Success? ==> r.value == m.elementalThickness[key]
    ensures r.Failure? ==> r.error == KeyError
  {
    Lookup(m.elementalThickness, key)
  }

  /** An integer lookup never finds an entry stored under a text key. */
  lemma IntLookupMissesTextKeys(m: Mesh, n: int)
    requires TextThicknessKeys(m)
    ensures GetNodalThickness(m, IntKey(n)) == Failure(KeyError)
    ensures GetElementalThickness(m, IntKey(n)) == Failure(KeyError)
  {
    assert IntKey(n) !in m.nodalThickness;
    assert IntKey(n) !in m.elementalThickness;
  }

  /** `addPart(PartID, title, PropID, MatID)`: IDs converted with `int()`, title kept. */
  function AddPart(c: Conv, m: Mesh, id: string, title: string, prop: string, mat: string): (r: Result<Mesh, PyError>)
    ensures r.Success? <==> c.toInt(id).Some? && c.toInt(prop).Some? && c.toInt(mat).Some?
    ensures r.Failure? ==> r.error == ValueError
    ensures r.Success? ==> r.value == m.(parts := m.parts[c.toInt(id).value :=
      PartRow(title, c.toInt(prop).value, c.toInt(mat).value)])
  {
    var pr :- Int(c, prop);
    var ma :- Int(c, mat);
    var p :- Int(c, id);
    Success(m.(parts := m.parts[p := PartRow(title, pr, ma)]))
  }

  /** `addMat(MatID, Rho, E)`: only the ID is converted; density and modulus stay text. */
  function AddMat(c: Conv, m: Mesh, id: string, rho: string, e: string): (r: Result<Mesh, PyError>)
    ensures r.Success? <==> c.toInt(id).Some?
    ensures r.Failure? ==> r.error == ValueError
    ensures r.Success? ==> r.value == m.(mats := m.mats[c.toInt(id).value := MatRow(rho, e)])
  {
    var k :- Int(c, id);
    Success(m.(mats := m.mats[k := MatRow(rho, e)]))
  }

  /** `addProp(PropID, Thickness)`: ID with `int()`, thickness with `float()`. */
  function AddProp(c: Conv, m: Mesh, id: string, thickness: string): (r: Result<Mesh, PyError>)
    ensures r.Success? <==> c.toInt(id).Some? && c.toFloat(thickness).Some?
    ensures r.Failure? ==> r.error == ValueError
    ensures r.Success? ==> r.value == m.(props := m.props[c.toInt(id).value := c.toFloat(thickness).value])
  {
    var t :- Float(c, thickness);
    var k :- Int(c, id);
    Success(m.(props := m.props[k := t]))
  }

  /** Adding the same element twice lists its ID twice for its part: the per-part list is not de-duplicated. */
  lemma {:induction false} AddElemTwiceListsTwice(c: Conv, m: Mesh, id: string, part: string, nodes: seq<string>)
    requires AddElem(c, m, id, part, nodes).Success?
    ensures var m1 := AddElem(c, m, id, part, nodes).value;
      var m2 := AddElem(c, m1, id, part, nodes);
      var p := c.toInt(part).value;
      m2.Success? && m2.value.partElems[p] ==
        (if p in m.partElems then m.partElems[p] else []) + [c.toInt(id).value, c.toInt(id).value]
  {
    var m1 := AddElem(c, m, id, part, nodes).value;
    var p := c.toInt(part).value;
    var e := c.toInt(id).value;
    assert m1.partElems[p] == (if p in m.partElems then m.partElems[p] else []) + [e];
    var m2 := AddElem(c, m1, id, part, nodes);
    assert m2.Success?;
    assert m2.value.partElems[p] == m1.partElems[p] + [e];
  }

  /** The stores keep every element at three or four nodes. */
  lemma AddElemKeepsWellFormed(c: Conv, m: Mesh, id: string, part: string, nodes: seq<string>)
    requires ElemsWellFormed(m)
    requires AddElem(c, m, id, part, nodes).Success?
    ensures ElemsWellFormed(AddElem(c, m, id, part, nodes).value)
  {
  }
}

=== FILE: node.dfy ===
/**
 * The node record of FEMeshEntities/Node.py (the class of the same shape
 * inside FE_Mesh.py behaves identically): an ID, three coordinates and a
 * thickness that starts at 0.0.
 */
module NodeEntity {
  import opened Wrappers
  import opened Python

  datatype Node = Node(id: int, x: real, y: real, z: real, thickness: real)

  /** `getCoord()`. */
  function GetCoord(n: Node): seq<real> {
    [n.x, n.y, n.z]
  }

  /** `getID()`. */
  function GetID(n: Node): int {
    n.id
  }

  /** `getThickness()`. */
  function GetThickness(n: Node): real {
    n.thickness
  }

  /**
   * `Node(NodeID, coord)`: the first three entries of `coord` become x, y, z;
   * a shorter `coord` raises IndexError while indexing it.
   */
  function New(id: int, coord: seq<real>): (r: Result<Node, PyError>)
    ensures r.Success? <==> |coord| >= 3
    ensures r.Failure? ==> r.error == IndexError
    ensures r.Success? ==> GetID(r.value) == id
    ensures r.Success? ==> GetCoord(r.value) == coord[..3]
    ensures r.Success? ==> GetThickness(r.value) == 0.0
  {
    if |coord| < 3 then Failure(IndexError)
    else Success(Node(id, coord[0], coord[1], coord[2], 0.0))
  }

  /** `setCoord(coord)`: replaces x, y, z and nothing else. */
  function SetCoord(n: Node, coord: seq<real>): (r: Result<Node, PyError>)
    ensures r.Success? <==> |coord| >= 3
    ensures r.Failure? ==> r.error == IndexError
    ensures r.Success? ==> GetCoord(r.value) == coord[..3]
    ensures r.Success? ==> GetID(r.value) == GetID(n) && GetThickness(r.value) == GetThickness(n)
  {
    if |coord| < 3 then Failure(IndexError)
    else Success(n.(x := coord[0], y := coord[1], z := coord[2]))
  }

  /** `setThickness(t)`: a later `getThickness()` returns t; ID and coordinates are kept. */
  function SetThickness(n: Node, t: real): (r: Node)
    ensures GetThickness(r) == t
    ensures GetID(r) == GetID(n) && GetCoord(r) == GetCoord(n)
  {
    n.(thickness := t)
  }
}

=== FILE: objects.dfy ===
/**
 * The object graph of FE_Mesh.py (`Material`, `Property`, `Tria`, `Quad`,
 * `Part`) and the object-path geometry: element area, averaged thickness,
 * element volume, part area, part volume and part mass. The Euclidean norm is
 * an uninterpreted parameter; everything else is exact real arithmetic.
 */
module Objects {
  import opened Wrappers
  import opened Python
  import opened Vectors
  import opened NodeEntity
  import opened Sums

  /** `Material(MatID, Rho, E)` after its `float()` conversions. */
  datatype Material = Material(id: int, rho: real, e: real)

  /** `Property(PropID, thickness)`. */
  datatype Property = Property(id: int, thickness: real)

  /**
   * `Tria` and `Quad` objects: the node objects they hold and their own
   * thickness, 0.0 until `calcThickness` sets it.
   */
  datatype Elem =
    | Tria(id: int, part: int, n1: Node, n2: Node, n3: Node, thickness: real)
    | Quad(id: int, part: int, n1: Node, n2: Node, n3: Node, n4: Node, thickness: real)
  {
    /** `getNodelist()`. */
    function Nodes(): seq<Node> {
      if Tria? then [n1, n2, n3] else [n1, n2, n3, n4]
    }
  }

  function Pos(n: Node): Vec3 {
    Vec3(n.x, n.y, n.z)
  }

  /** `getArea()`: half the norm of (b-a) x (c-a) for a triangle, of (c-a) x (d-b) for a quad. */
  function Area(e: Elem, norm: Norm): real {
    match e
    case Tria(_, _, a, b, c, _) => 0.5 * norm(Cross(Sub(Pos(b), Pos(a)), Sub(Pos(c), Pos(a))))
    case Quad(_, _, a, b, c, d, _) => 0.5 * norm(Cross(Sub(Pos(c), Pos(a)), Sub(Pos(d), Pos(b))))
  }

  /** `tempthick`: the node thicknesses summed in list order, starting from 0.0. */
  function NodeThicknessSum(e: Elem): real {
    match e
    case Tria(_, _, a, b, c, _) => 0.0 + a.thickness + b.thickness + c.thickness
    case Quad(_, _, a, b, c, d, _) => 0.0 + a.thickness + b.thickness + c.thickness + d.thickness
  }

  /**
   * `calcThickness()`: the element's thickness becomes the mean of its nodes'
   * thicknesses; nothing else about the element changes.
   */
  function CalcThickness(e: Elem): (r: Elem)
    ensures r.Nodes() == e.Nodes() && r.id == e.id && r.part == e.part && r.Tria? == e.Tria?
    ensures r.thickness * (|e.Nodes()| as real) == NodeThicknessSum(e)
  {
    e.(thickness := NodeThicknessSum(e) / (|e.Nodes()| as real))
  }

  /** An element whose nodes all have thickness t gets thickness t. */
  lemma CalcThicknessOfUniformNodes(e: Elem, t: real)
    requires forall k :: 0 <= k < |e.Nodes()| ==> e.Nodes()[k].thickness == t
    ensures CalcThickness(e).thickness == t
  {
    assert e.Nodes()[0] == e.n1 && e.Nodes()[1] == e.n2 && e.Nodes()[2] == e.n3;
    if e.Quad? {
      assert e.Nodes()[3] == e.n4;
    }
  }

  /** The averaged thickness lies between the smallest and the largest node thickness. */
  lemma CalcThicknessBetween(e: Elem, lo: real, hi: real)
    requires forall k :: 0 <= k < |e.Nodes()| ==> lo <= e.Nodes()[k].thickness <= hi
    ensures lo <= CalcThickness(e).thickness <= hi
  {
    var t := CalcThickness(e).thickness;
    assert e.Nodes()[0] == e.n1 && e.Nodes()[1] == e.n2 && e.Nodes()[2] == e.n3;
    if e.Quad? {
      assert e.Nodes()[3] == e.n4;
      assert t * 4.0 == NodeThicknessSum(e);
    } else {
      assert t * 3.0 == NodeThicknessSum(e);
    }
  }

  /** `getVolume()`: area times thickness, or None (Python's implicit return) when the thickness is 0.0. */
  function Volume(e: Elem, norm: Norm): (r: Option<real>)
    ensures r.Some? <==> e.thickness != 0.0
    ensures r.Some? ==> r.value == Area(e, norm) * e.thickness
  {
    if e.thickness != 0.0 then Some(Area(e, norm) * e.thickness) else None
  }

  /** A `Part` object. `elems` is keyed by element ID; `nodes` by node ID. */
  datatype Part = Part(
    id: int,
    title: string,
    mat: Material,
    prop: Property,
    trb: bool,
    elems: map<int, Elem>,
    nodes: map<int, Node>)

  /** `Part(PartID, title, Mat, Prop)`: no elements yet, not TRB. */
  function NewPart(id: int, title: string, mat: Material, prop: Property): (r: Part)
    ensures r.id == id && r.title == title && r.mat == mat && r.prop == prop
    ensures !r.trb && r.elems == map[] && r.nodes == map[]
  {
    Part(id, title, mat, prop, false, map[], map[])
  }

  /** Registers the nodes of a list by ID; a later node with the same ID wins. */
  function AddNodes(nodes: map<int, Node>, ns: seq<Node>): (r: map<int, Node>)
    ensures r.Keys == nodes.Keys + set k | 0 <= k < |ns| :: ns[k].id
    ensures forall k :: 0 <= k < |ns| && (forall j :: k < j < |ns| ==> ns[j].id != ns[k].id) ==> r[ns[k].id] == ns[k]
    ensures forall i :: i in nodes && (forall k :: 0 <= k < |ns| ==> ns[k].id != i) ==> r[i] == nodes[i]
    decreases |ns|
  {
    if |ns| == 0 then nodes
    else
      var r := AddNodes(nodes[ns[0].id := ns[0]], ns[1..]);
      AddNodeKeys(nodes, ns, r);
      AddNodeLastWins(nodes, ns, r);
      AddNodeKeeps(nodes, ns, r);
      r
  }

  /** The key set after registering `ns[0]` and then the rest. */
  lemma AddNodeKeys(nodes: map<int, Node>, ns: seq<Node>, r: map<int, Node>)
    requires |ns| > 0
    requires r.Keys == nodes[ns[0].id := ns[0]].Keys + set k | 0 <= k < |ns[1..]| :: ns[1..][k].id
    ensures r.Keys == nodes.Keys + set k | 0 <= k < |ns| :: ns[k].id
  {
    var tail := ns[1..];
    assert (set k | 0 <= k < |ns| :: ns[k].id) == {ns[0].id} + set k | 0 <= k < |tail| :: tail[k].id by {
      forall k | 0 <= k < |ns| ensures ns[k].id in {ns[0].id} + set k | 0 <= k < |tail| :: tail[k].id {
        if k > 0 { assert ns[k] == tail[k - 1]; }
      }
    }
  }

  /** A node not repeated later in the list is the one stored under its ID. */
  lemma AddNodeLastWins(nodes: map<int, Node>, ns: seq<Node>, r: map<int, Node>)
    requires |ns| > 0
    requires nodes.Keys <= r.Keys && forall k :: 0 <= k < |ns| ==> ns[k].id in r
    requires forall k :: 0 <= k < |ns[1..]| && (forall j :: k < j < |ns[1..]| ==> ns[1..][j].id != ns[1..][k].id) ==> r[ns[1..][k].id] == ns[1..][k]
    requires forall i :: i in nodes[ns[0].id := ns[0]] && (forall k :: 0 <= k < |ns[1..]| ==> ns[1..][k].id != i) ==> r[i] == nodes[ns[0].id := ns[0]][i]
    ensures forall k :: 0 <= k < |ns| && (forall j :: k < j < |ns| ==> ns[j].id != ns[k].id) ==> r[ns[k].id] == ns[k]
  {
    var tail := ns[1..];
    forall k | 0 <= k < |ns| && (forall j :: k < j < |ns| ==> ns[j].id != ns[k].id) ensures r[ns[k].id] == ns[k] {
      if k == 0 {
        assert forall j :: 0 <= j < |tail| ==> tail[j].id != ns[0].id by {
          forall j | 0 <= j < |tail| ensures tail[j].id != ns[0].id { assert tail[j] == ns[j + 1]; }
        }
      } else {
        assert ns[k] == tail[k - 1];
        assert forall j :: k - 1 < j < |tail| ==> tail[j].id != tail[k - 1].id by {
          forall j | k - 1 < j < |tail| ensures tail[j].id != tail[k - 1].id { assert tail[j] == ns[j + 1]; }
        }
      }
    }
  }

  /** An ID the list does not mention keeps its entry. */
  lemma AddNodeKeeps(nodes: map<int, Node>, ns: seq<Node>, r: map<int, Node>)
    requires |ns| > 0
    requires nodes[ns[0].id := ns[0]].Keys <= r.Keys
    requires forall i :: i in nodes[ns[0].id := ns[0]] && (forall k :: 0 <= k < |ns[1..]| ==> ns[1..][k].id != i) ==> r[i] == nodes[ns[0].id := ns[0]][i]
    ensures forall i :: i in nodes && (forall k :: 0 <= k < |ns| ==> ns[k].id != i) ==> r[i] == nodes[i]
  {
    var tail := ns[1..];
    forall i | i in nodes && (forall k :: 0 <= k < |ns| ==> ns[k].id != i) ensures r[i] == nodes[i] {
      assert ns[0].id != i;
      assert forall k :: 0 <= k < |tail| ==> tail[k].id != i by {
        forall k | 0 <= k < |tail| ensures tail[k].id != i { assert tail[k] == ns[k + 1]; }
      }
    }
  }

  /** `Part.addElem(Elem)`: the element is stored under its ID and its nodes under theirs. */
  function AddElem(p: Part, e: Elem): (r: Part)
    ensures r.elems == p.elems[e.id := e]
    ensures r.nodes.Keys == p.nodes.Keys + set k | 0 <= k < |e.Nodes()| :: e.Nodes()[k].id
    ensures forall k :: 0 <= k < |e.Nodes()| && (forall j :: k < j < |e.Nodes()| ==> e.Nodes()[j].id != e.Nodes()[k].id) ==> r.nodes[e.Nodes()[k].id] == e.Nodes()[k]
    ensures forall i :: i in p.nodes && (forall k :: 0 <= k < |e.Nodes()| ==> e.Nodes()[k].id != i) ==> r.nodes[i] == p.nodes[i]
    ensures r.id == p.id && r.title == p.title && r.mat == p.mat && r.prop == p.prop && r.trb == p.trb
  {
    p.(elems := p.elems[e.id := e], nodes := AddNodes(p.nodes, e.Nodes()))
  }

  /** `setTRB(flag)`. */
  function SetTRB(p: Part, flag: bool): (r: Part)
    ensures r.trb == flag && r == p.(trb := flag)
  {
    p.(trb := flag)
  }

  /** Sum of element areas over a map of elements. */
  ghost function SumArea(m: map<int, Elem>, norm: Norm): real
    decreases m.Keys
  {
    if m == map[] then 0.0
    else
      var k := Pick(m.Keys);
      Area(m[k], norm) + SumArea(m - {k}, norm)
  }

  /** Sum of element volumes; a None volume makes the Python `+` raise TypeError. */
  ghost function SumVolume(m: map<int, Elem>, norm: Norm): Result<real, PyError>
    decreases m.Keys
  {
    if m == map[] then Success(0.0)
    else
      var k := Pick(m.Keys);
      var v :- OrFail(Volume(m[k], norm), TypeError);
      var rest :- SumVolume(m - {k}, norm);
      Success(v + rest)
  }

  /** The sum does not depend on which element is taken first. */
  lemma {:induction false} SumAreaSplit(m: map<int, Elem>, norm: Norm, k: int)
    requires k in m
    ensures SumArea(m, norm) == Area(m[k], norm) + SumArea(m - {k}, norm)
    decreases m.Keys
  {
    var p := Pick(m.Keys);
    if p != k {
      SumAreaSplit(m - {p}, norm, k);
      SumAreaSplit(m - {k}, norm, p);
      assert m - {p} - {k} == m - {k} - {p};
    }
  }

  /** The area of the element stored under a key, 0.0 for an absent key. */
  function AreaOf(m: map<int, Elem>, norm: Norm): int -> real {
    k => if k in m then Area(m[k], norm) else 0.0
  }

  /** The element-area sum is the set sum of the element areas over the keys. */
  lemma {:induction false} SumAreaIsSetSum(m: map<int, Elem>, norm: Norm)
    ensures SumArea(m, norm) == SetSum(m.Keys, AreaOf(m, norm))
    decreases m.Keys
  {
    if m != map[] {
      var k := Pick(m.Keys);
      var rest := m - {k};
      assert rest.Keys == m.Keys - {k};
      SumAreaIsSetSum(rest, norm);
      SetSumCongruent(rest.Keys, AreaOf(rest, norm), AreaOf(m, norm));
    }
  }

  /** `getPartArea()`. */
  ghost function PartArea(p: Part, norm: Norm): real {
    SumArea(p.elems, norm)
  }

  /**
   * `getPartVolume()`: for a TRB part the sum of element volumes, otherwise the
   * property thickness times the part area.
   */
  ghost function PartVolume(p: Part, norm: Norm): Result<real, PyError> {
    if p.trb then SumVolume(p.elems, norm) else Success(p.prop.thickness * PartArea(p, norm))
  }

  /** `getPartMass()`: density times part volume. */
  ghost function PartMass(p: Part, norm: Norm): Result<real, PyError> {
    var v :- PartVolume(p, norm);
    Success(p.mat.rho * v)
  }

  /** The TRB volume of a set of elements is defined exactly when no element has thickness 0.0. */
  lemma {:induction false} SumVolumeDefined(m: map<int, Elem>, norm: Norm)
    ensures SumVolume(m, norm).Success? <==> forall k :: k in m ==> m[k].thickness != 0.0
    ensures SumVolume(m, norm).Failure? ==> SumVolume(m, norm).error == TypeError
    decreases m.Keys
  {
    if m != map[] {
      var k := Pick(m.Keys);
      var rest := m - {k};
      SumVolumeDefined(rest, norm);
      assert forall j :: j in rest ==> j in m && rest[j] == m[j];
      assert forall j :: j in m && j != k ==> j in rest;
    }
  }

  /** The volume of the element stored under a key, 0.0 for an absent key or a None volume. */
  function VolumeOf(m: map<int, Elem>, norm: Norm): int -> real {
    k => if k in m && Volume(m[k], norm).Some? then Volume(m[k], norm).value else 0.0
  }

  /** A defined TRB volume sum is the set sum of the element volumes over the keys. */
  lemma {:induction false} SumVolumeIsSetSum(m: map<int, Elem>, norm: Norm)
    requires SumVolume(m, norm).Success?
    ensures SumVolume(m, norm).value == SetSum(m.Keys, VolumeOf(m, norm))
    decreases m.Keys
  {
    if m != map[] {
      var k := Pick(m.Keys);
      var rest := m - {k};
      assert rest.Keys == m.Keys - {k};
      SumVolumeIsSetSum(rest, norm);
      SetSumCongruent(rest.Keys, VolumeOf(rest, norm), VolumeOf(m, norm));
    }
  }

  /** The non-TRB volume and the mass of a part whose area is known. */
  lemma PropertyVolume(p: Part, norm: Norm, area: real)
    requires !p.trb && PartArea(p, norm) == area
    ensures PartVolume(p, norm).Success? && PartVolume(p, norm).value == area * p.prop.thickness
    ensures PartMass(p, norm).Success? && PartMass(p, norm).value == p.mat.rho * PartVolume(p, norm).value
  {
  }

  /** Every element of the map has area a. */
  ghost predicate AllOfArea(m: map<int, Elem>, norm: Norm, a: real) {
    forall k :: k in m ==> Area(m[k], norm) == a
  }

  /** N elements of area A sum to N * A. */
  lemma {:induction false} SumAreaUniform(m: map<int, Elem>, norm: Norm, a: real)
    requires AllOfArea(m, norm, a)
    ensures SumArea(m, norm) == (|m| as real) * a
    decreases m.Keys
  {
    if m != map[] {
      var k := Pick(m.Keys);
      var rest := m - {k};
      SumAreaUniform(rest, norm, a);
      assert rest.Keys == m.Keys - {k};
      assert |rest| == |m| - 1;
      calc {
        SumArea(m, norm);
        a + SumArea(rest, norm);
        a + (|rest| as real) * a;
        (|m| as real) * a;
      }
    }
  }

  /**
   * For a non-TRB part of N elements of area A, property thickness T and
   * density D: volume N*A*T and mass N*A*T*D, one multiplication by T over the
   * total area.
   */
  lemma UniformPartMass(p: Part, norm: Norm, a: real)
    requires !p.trb
    requires AllOfArea(p.elems, norm, a)
    ensures PartVolume(p, norm).Success? && PartVolume(p, norm).value == (|p.elems| as real) * a * p.prop.thickness
    ensures PartMass(p, norm).Success? && PartMass(p, norm).value == p.mat.rho * PartVolume(p, norm).value
  {
    PartAreaUniform(p, norm, a);
    PropertyVolume(p, norm, (|p.elems| as real) * a);
  }

  lemma PartAreaUniform(p: Part, norm: Norm, a: real)
    requires AllOfArea(p.elems, norm, a)
    ensures PartArea(p, norm) == (|p.elems| as real) * a
  {
    SumAreaUniform(p.elems, norm, a);
  }

}

=== FILE: packaged_mesh.dfy ===
/**
 * The packaged copy of class `Mesh` in NK_FEMeshUtils/Mesh.py. Its tables and
 * its `add*`/`get*` methods are those of FE_Mesh.py (module MeshStore). What
 * differs is what the module imports: only `FEMeshEntities`, so the names
 * `logging`, `np`, `Node`, `Property`, `Material`, `Part`, `Tria` and `Quad`
 * are unbound and every method that reaches one of them raises NameError.
 * The members below take the mesh as given, as if an instance existed.
 */
module PackagedMesh {
  import opened Wrappers
  import opened Python
  import opened Vectors
  import opened Sums
  import opened Objects
  import opened MeshStore
  import FlatGeometry
  import Materialize

  /** The constructor reaches `logging.getLogger` after filling the tables, and `logging` is not imported. */
  function New(): (r: Result<Mesh, PyError>)
    ensures r.Failure? && r.error == NameError
  {
    Failure(NameError)
  }

  /**
   * `InitPartObj(PartID)`: the same two checks as the top-level class, in the
   * same order, and the same resolve branch over an empty part table; past
   * them, building `Property(propid, thickness)` raises NameError before any
   * element is visited.
   */
  function InitPartObj(m: Mesh, pid: int): (r: Result<Part, PyError>)
    ensures r.Failure?
    ensures m.nodes == map[] ==> r.error == Raised(Materialize.MissingNodes)
    ensures m.nodes != map[] && m.elems == map[] ==> r.error == Raised(Materialize.MissingElements)
    ensures r.error == KeyError <==> m.nodes != map[] && m.elems != map[] && Materialize.ResolveBranch(m)
    ensures m.nodes != map[] && m.elems != map[] && !Materialize.ResolveBranch(m) ==> r.error == NameError
  {
    if m.nodes == map[] then Failure(Raised(Materialize.MissingNodes))
    else if m.elems == map[] then Failure(Raised(Materialize.MissingElements))
    else if Materialize.ResolveBranch(m) then Lookup(m.parts, pid).PropagateFailure()
    else Failure(NameError)
  }

  /**
   * Wherever the top-level `InitPartObj` raises, the packaged one raises the
   * same error; wherever the top-level one materialises a part, the packaged
   * one raises NameError instead.
   */
  lemma InitPartObjAgrees(m: Mesh, objs: map<int, Part>, pid: int, order: seq<int>)
    requires Distinct(order) && Members(order) == m.elems.Keys
    ensures var top := Materialize.InitPartObj(m, objs, pid, order);
      && (top.Failure? && (m.nodes == map[] || m.elems == map[] || Materialize.ResolveBranch(m)) ==>
            InitPartObj(m, pid).error == top.error)
      && (top.Success? ==> InitPartObj(m, pid).error == NameError)
  {
  }

  /** What `InitAllObj` carries from one part to the next: the variable `part`, which no iteration can bind. */
  function InitOne(m: Mesh, objs: map<int, Part>, last: Option<Part>, pid: int): (r: Result<map<int, Part>, PyError>)
    requires pid in m.parts
    ensures Materialize.Resolves(m, pid) ==> r == Failure(NameError)
    ensures !Materialize.Resolves(m, pid) ==> (r.Success? <==> last.Some?)
    ensures r.Failure? ==> r.error == NameError
    ensures r.Success? ==> r.value == objs[pid := last.value]
  {
    var row := m.parts[pid];
    if row.prop in m.props && row.mat in m.mats then
      Failure(NameError)
    else
      var part :- Bound(last);
      Success(objs[pid := part])
  }

  /** The loop of `InitAllObj` over the listed part IDs; while `part` is unbound the first part raises. */
  function InitParts(m: Mesh, objs: map<int, Part>, last: Option<Part>, ids: seq<int>): (r: Result<map<int, Part>, PyError>)
    requires forall k :: 0 <= k < |ids| ==> ids[k] in m.parts
    ensures last.None? ==> (r.Success? <==> |ids| == 0)
    ensures r.Success? && |ids| == 0 ==> r.value == objs
    ensures r.Failure? ==> r.error == NameError
    decreases |ids|
  {
    if |ids| == 0 then Success(objs)
    else
      var objs' :- InitOne(m, objs, last, ids[0]);
      InitParts(m, objs', last, ids[1..])
  }

  /**
   * `InitAllObj()`: with no parts the object cache is unchanged, as in the
   * top-level class; the first part raises NameError whether or not its
   * property and material resolve.
   */
  function InitAllObj(m: Mesh, objs: map<int, Part>, partOrder: seq<int>): (r: Result<map<int, Part>, PyError>)
    requires Distinct(partOrder) && Members(partOrder) == m.parts.Keys
    ensures r.Success? <==> m.parts == map[]
    ensures r.Success? ==> r.value == objs
    ensures r.Failure? ==> r.error == NameError
  {
    assert forall k :: 0 <= k < |partOrder| ==> partOrder[k] in m.parts;
    assert m.parts != map[] ==> |partOrder| > 0 by {
      if m.parts != map[] {
        var k :| k in m.parts;
        assert k in Members(partOrder);
      }
    }
    InitParts(m, objs, None, partOrder)
  }

  /** Without parts both classes leave the object cache as it was. */
  lemma InitAllObjAgrees(c: Conv, m: Mesh, objs: map<int, Part>, partOrder: seq<int>, elemOrder: seq<int>)
    requires Distinct(partOrder) && Members(partOrder) == m.parts.Keys
    requires Distinct(elemOrder) && Members(elemOrder) == m.elems.Keys
    requires m.parts == map[]
    ensures Materialize.InitAllObj(c, m, objs, partOrder, elemOrder) == Success(objs)
    ensures InitAllObj(m, objs, partOrder) == Success(objs)
  {
    assert forall k :: 0 <= k < |partOrder| ==> partOrder[k] in Members(partOrder);
  }

  /**
   * `getAreaByElemID(ElemID)`: the element row is looked up, then the global
   * `np` is loaded before the argument of `np.array` is evaluated, so no node
   * is looked up and NameError is raised.
   */
  function AreaByElemID(m: Mesh, eid: int): (r: Result<real, PyError>)
    ensures r.Failure?
    ensures r.error == NameError <==> eid in m.elems
    ensures r.error == KeyError <==> eid !in m.elems
  {
    var ns :- FlatGeometry.NodesByElemID(m, eid);
    Failure(NameError)
  }

  /** The packaged element area never yields a value. */
  lemma AreaAlwaysFails(m: Mesh, eid: int)
    ensures AreaByElemID(m, eid).Failure?
  {
  }

  /**
   * Where the top-level area is defined, the packaged one raises NameError;
   * for an unknown element both raise KeyError.
   */
  lemma AreaAgrees(m: Mesh, norm: Norm, eid: int)
    ensures FlatGeometry.AreaByElemID(m, norm, eid).Success? ==> AreaByElemID(m, eid) == Failure(NameError)
    ensures eid !in m.elems ==> FlatGeometry.AreaByElemID(m, norm, eid) == AreaByElemID(m, eid) == Failure(KeyError)
  {
  }

  /** The thickness selection of `getVolumeByElemID` once the area is known. */
  function ThicknessVolume(m: Mesh, eid: int, area: real): Result<real, PyError> {
    if IntKey(eid) in m.elementalThickness then
      var t :- GetElementalThickness(m, IntKey(eid));
      Success(area * t)
    else
      var row :- Lookup(m.elems, eid);
      var part :- Lookup(m.parts, row.part);
      var pthick :- Lookup(m.props, part.prop);
      Success(area * pthick)
  }

  /** `getVolumeByElemID(ElemID)`: the area comes first, so the area's error is the volume's error. */
  function VolumeByElemID(m: Mesh, eid: int): (r: Result<real, PyError>)
    ensures r.Failure? && r.error == AreaByElemID(m, eid).error
  {
    AreaAlwaysFails(m, eid);
    match AreaByElemID(m, eid)
    case Failure(e) => Failure(e)
    case Success(area) => ThicknessVolume(m, eid, area)
  }

  /** The loop of `getVolumeByPartID`: 0.0 for an empty list, otherwise the first element's error. */
  function VolumeSum(m: Mesh, ids: seq<int>): (r: Result<real, PyError>)
    ensures r.Success? <==> |ids| == 0
    ensures r.Success? ==> r.value == 0.0
    ensures r.Failure? ==> r.error == VolumeByElemID(m, ids[0]).error
    decreases |ids|
  {
    if |ids| == 0 then Success(0.0)
    else
      var total :- VolumeSum(m, ids[..|ids| - 1]);
      match VolumeByElemID(m, ids[|ids| - 1])
      case Failure(e) => Failure(e)
      case Success(v) => Success(total + v)
  }

  /** `getVolumeByPartID(PartID)`: KeyError for an unknown part, 0.0 for a part without elements. */
  function VolumeByPartID(m: Mesh, pid: int): (r: Result<real, PyError>)
    ensures pid !in m.partElems ==> r == Failure(KeyError)
    ensures r.Success? <==> pid in m.partElems && m.partElems[pid] == []
    ensures r.Success? ==> r.value == 0.0
  {
    var ids :- Lookup(m.partElems, pid);
    VolumeSum(m, ids)
  }

  /**
   * Where the top-level part volume is defined over a non-empty element
   * list, the packaged one raises NameError; over an empty list both are 0.0.
   */
  lemma VolumeByPartIDAgrees(m: Mesh, norm: Norm, pid: int)
    requires FlatGeometry.VolumeByPartID(m, norm, pid).Success?
    ensures m.partElems[pid] != [] ==> VolumeByPartID(m, pid) == Failure(NameError)
    ensures m.partElems[pid] == [] ==> VolumeByPartID(m, pid) == FlatGeometry.VolumeByPartID(m, norm, pid) == Success(0.0)
  {
    var ids := m.partElems[pid];
    if ids != [] {
      assert FlatGeometry.VolumeByElemID(m, norm, ids[0]).Success?;
      AreaAgrees(m, norm, ids[0]);
    }
  }

  /** The loop of `getAreaByPartID` over `Elemlist`: the first element of the part raises. */
  function AreaSum(m: Mesh, pid: int, ids: seq<int>): (r: Result<real, PyError>)
    ensures r.Success? <==> forall k :: 0 <= k < |ids| && ids[k] in m.elems ==> m.elems[ids[k]].part != pid
    ensures r.Success? ==> r.value == 0.0
    ensures r.Failure? ==> r.error == NameError
    decreases |ids|
  {
    if |ids| == 0 then Success(0.0)
    else
      var total :- AreaSum(m, pid, ids[..|ids| - 1]);
      var e := ids[|ids| - 1];
      if e in m.elems && m.elems[e].part == pid then
        AreaAlwaysFails(m, e);
        match AreaByElemID(m, e)
        case Failure(err) => Failure(err)
        case Success(a) => Success(total + a)
      else Success(total)
  }

  /** `getAreaByPartID(PartID)`: 0.0 exactly when no stored element belongs to the part, otherwise NameError. */
  function AreaByPartID(m: Mesh, pid: int, order: seq<int>): (r: Result<real, PyError>)
    requires Members(order) == m.elems.Keys
    ensures r.Success? <==> forall e :: e in m.elems ==> m.elems[e].part != pid
    ensures r.Success? ==> r.value == 0.0
    ensures r.Failure? ==> r.error == NameError
  {
    assert forall e :: e in m.elems ==> exists k :: 0 <= k < |order| && order[k] == e;
    AreaSum(m, pid, order)
  }
}

=== FILE: pystr.dfy ===
/**
 * Python 2 byte-string operations used by the readers and writers:
 * `s.strip()`, `s[a:b]`, `sub in s`, `s.split(sep)` and `s.split(sep)[k]`.
 */
module PyStr {
  import opened Wrappers

  /** The characters `str.strip()` removes from a Python 2 byte string. */
  predicate IsSpace(ch: char) {
    ch == ' ' || ch == '\t' || ch == '\n' || ch == '\r' || ch == '\U{000B}' || ch == '\U{000C}'
  }

  function LStrip(s: string): (r: string)
    ensures |r| <= |s|
    decreases |s|
  {
    if |s| > 0 && IsSpace(s[0]) then LStrip(s[1..]) else s
  }

  /** `lstrip()` cuts off exactly the leading whitespace. */
  lemma {:induction false} LStripSpec(s: string)
    ensures var r := LStrip(s);
      && r == s[|s| - |r|..]
      && (|r| > 0 ==> !IsSpace(r[0]))
      && forall k :: 0 <= k < |s| - |r| ==> IsSpace(s[k])
    decreases |s|
  {
    if |s| > 0 && IsSpace(s[0]) {
      LStripSpec(s[1..]);
      var r := LStrip(s);
      assert r == LStrip(s[1..]);
      forall k | 0 <= k < |s| - |r| ensures IsSpace(s[k]) {
        if k > 0 { assert s[k] == s[1..][k - 1]; }
      }
    }
  }

  function RStrip(s: string): (r: string)
    ensures |r| <= |s|
    decreases |s|
  {
    if |s| > 0 && IsSpace(s[|s| - 1]) then RStrip(s[..|s| - 1]) else s
  }

  /** `rstrip()` cuts off exactly the trailing whitespace. */
  lemma {:induction false} RStripSpec(s: string)
    ensures var r := RStrip(s);
      && r == s[..|r|]
      && (|r| > 0 ==> !IsSpace(r[|r| - 1]))
      && forall k :: |r| <= k < |s| ==> IsSpace(s[k])
    decreases |s|
  {
    if |s| > 0 && IsSpace(s[|s| - 1]) {
      var t := s[..|s| - 1];
      RStripSpec(t);
      var r := RStrip(s);
      assert r == RStrip(t);
      forall k | |r| <= k < |s| ensures IsSpace(s[k]) {
        if k < |s| - 1 { assert s[k] == t[k]; }
      }
    }
  }

  /** `s.strip()`: whitespace cut off at both ends (see StripSpec). */
  function Strip(s: string): (r: string)
    ensures |r| <= |s|
  {
    RStrip(LStrip(s))
  }

  /** `strip()` gives text with no whitespace at either end, made of characters of the input, empty exactly for all-whitespace input. */
  lemma StripSpec(s: string)
    ensures var r := Strip(s);
      && (|r| > 0 ==> !IsSpace(r[0]) && !IsSpace(r[|r| - 1]))
      && (forall ch :: ch in r ==> ch in s)
      && ((forall k :: 0 <= k < |s| ==> IsSpace(s[k])) <==> r == "")
  {
    var l := LStrip(s);
    var r := RStrip(l);
    LStripSpec(s);
    RStripSpec(l);
    assert forall ch :: ch in r ==> ch in l;
    assert forall ch :: ch in l ==> ch in s by {
      forall ch | ch in l ensures ch in s {
        var k :| 0 <= k < |l| && l[k] == ch;
        assert s[|s| - |l| + k] == ch;
      }
    }
    if r == "" {
      assert forall k :: 0 <= k < |s| ==> IsSpace(s[k]) by {
        assert l == "";
      }
    } else {
      assert r[0] == l[0];
    }
  }

  function Min(a: nat, b: nat): nat { if a <= b then a else b }

  /** `s[a:b]` with Python's clamping of out-of-range bounds (both bounds non-negative). */
  function Slice(s: string, a: nat, b: nat): (r: string)
    ensures a <= b <= |s| ==> r == s[a..b]
    ensures a <= |s| <= b ==> r == s[a..]
    ensures |s| <= a || b <= a ==> r == ""
    ensures |r| <= b - a || b < a
  {
    var hi := Min(b, |s|);
    var lo := Min(a, hi);
    s[lo..hi]
  }

  predicate StartsWith(s: string, p: string) {
    |p| <= |s| && s[..|p|] == p
  }

  /** `sub in s` on Python strings: `sub` occurs as a contiguous infix of `s`. */
  predicate Contains(s: string, sub: string)
    decreases |s|
  {
    StartsWith(s, sub) || (|s| > 0 && Contains(s[1..], sub))
  }

  lemma {:induction false} ContainsOneChar(s: string, ch: char)
    ensures Contains(s, [ch]) <==> ch in s
    decreases |s|
  {
    if |s| > 0 {
      ContainsOneChar(s[1..], ch);
      assert s == [s[0]] + s[1..];
    }
  }

  /** `ch in line` for a one-character string `ch`: the substring test, which is character membership. */
  function Mark(line: string, ch: char): (r: bool)
    ensures r <==> ch in line
  {
    ContainsOneChar(line, ch);
    Contains(line, [ch])
  }

  /** Every character of a contained substring occurs in the string. */
  lemma {:induction false} ContainsHasChars(s: string, sub: string, j: nat)
    requires Contains(s, sub) && j < |sub|
    ensures sub[j] in s
    decreases |s|
  {
    if StartsWith(s, sub) {
      assert s[j] == sub[j];
    } else {
      ContainsHasChars(s[1..], sub, j);
      assert sub[j] in s[1..];
    }
  }

  /** `sub in s[0:|sub|]`, the readers' keyword test, is exactly a prefix test. */
  lemma {:induction false} PrefixTest(s: string, p: string)
    requires |p| > 0
    ensures Contains(Slice(s, 0, |p|), p) <==> StartsWith(s, p)
  {
    var h := Slice(s, 0, |p|);
    if StartsWith(s, p) {
      assert h == p;
      assert StartsWith(h, p);
    } else {
      ContainsLength(h, p);
      if Contains(h, p) {
        assert |h| == |p|;
        assert StartsWith(h, p) || Contains(h[1..], p);
        if !StartsWith(h, p) {
          ContainsLength(h[1..], p);
        }
      }
    }
  }

  lemma {:induction false} ContainsLength(s: string, sub: string)
    ensures Contains(s, sub) ==> |sub| <= |s|
    decreases |s|
  {
    if |s| > 0 {
      ContainsLength(s[1..], sub);
    }
  }

  /** `s.split(sep)` for a one-character separator, as Python splits. */
  function Split(s: string, sep: char): (r: seq<string>)
    ensures |r| >= 1
    decreases |s|
  {
    if |s| == 0 then [""]
    else if s[0] == sep then [""] + Split(s[1..], sep)
    else
      var rest := Split(s[1..], sep);
      [[s[0]] + rest[0]] + rest[1..]
  }

  /** No field of a split holds the separator. */
  lemma {:induction false} SplitFields(s: string, sep: char)
    ensures forall k :: 0 <= k < |Split(s, sep)| ==> sep !in Split(s, sep)[k]
    decreases |s|
  {
    if |s| > 0 {
      SplitFields(s[1..], sep);
      var rest := Split(s[1..], sep);
      if s[0] != sep {
        var r := Split(s, sep);
        assert r[0] == [s[0]] + rest[0];
        forall k | 1 <= k < |r| ensures sep !in r[k] {
          assert r[k] == rest[k];
        }
      }
    }
  }

  /** `sep.join(parts)`. */
  function Join(parts: seq<string>, sep: char): string
    requires |parts| >= 1
    decreases |parts|
  {
    if |parts| == 1 then parts[0] else parts[0] + [sep] + Join(parts[1..], sep)
  }

  /** Splitting then joining again gives back the text. */
  lemma {:induction false} SplitJoin(s: string, sep: char)
    ensures Join(Split(s, sep), sep) == s
    decreases |s|
  {
    if |s| > 0 {
      SplitJoin(s[1..], sep);
      var rest := Split(s[1..], sep);
      if s[0] != sep {
        if |rest| == 1 {
          assert Split(s, sep) == [[s[0]] + rest[0]];
        } else {
          var r := Split(s, sep);
          assert r[1..] == rest[1..];
          assert Join(r, sep) == [s[0]] + rest[0] + [sep] + Join(rest[1..], sep);
        }
      }
    }
  }

  /** A chunk without the separator, then the separator, splits off as the first field. */
  lemma {:induction false} SplitAfterField(a: string, sep: char, b: string)
    requires sep !in a
    ensures Split(a + [sep] + b, sep) == [a] + Split(b, sep)
    decreases |a|
  {
    if |a| == 0 {
      assert a + [sep] + b == [sep] + b;
      assert ([sep] + b)[1..] == b;
    } else {
      SplitAfterField(a[1..], sep, b);
      assert (a + [sep] + b)[1..] == a[1..] + [sep] + b;
      assert [a[0]] + a[1..] == a;
    }
  }

  /** Text without the separator is a single field. */
  lemma {:induction false} SplitNoSeparator(a: string, sep: char)
    requires sep !in a
    ensures Split(a, sep) == [a]
    decreases |a|
  {
    if |a| > 0 {
      SplitNoSeparator(a[1..], sep);
      assert [a[0]] + a[1..] == a;
    }
  }

  /** `line.strip().split("/")[k]`: None is the IndexError Python raises. */
  function SlashToken(line: string, k: nat): (r: Option<string>)
    ensures r.Some? ==> '/' !in r.value
    ensures r.Some? <==> k < |Split(Strip(line), '/')|
    ensures r.Some? ==> r.value == Split(Strip(line), '/')[k]
  {
    var parts := Split(Strip(line), '/');
    SplitFields(Strip(line), '/');
    if k < |parts| then Some(parts[k]) else None
  }

  /** The id token of `/KEY/<id>` (index 2) and of `/KEY/SUB/<id>` (index 3). */
  lemma {:induction false} SlashTokenOfKeyword(line: string, keys: seq<string>, id: string, tail: string)
    requires forall j :: 0 <= j < |keys| ==> '/' !in keys[j]
    requires '/' !in id
    requires Strip(line) == SlashPath(keys) + id + tail
    requires tail == "" || tail[0] == '/'
    ensures SlashToken(line, |keys| + 1) == Some(id)
    decreases |keys|
  {
    var parts := Split(Strip(line), '/');
    SplitPath(keys, id, tail);
  }

  /** `"/" + k1 + "/" + ... + kn + "/"`. */
  function SlashPath(keys: seq<string>): string
    decreases |keys|
  {
    if |keys| == 0 then "/" else SlashPath(keys[..|keys| - 1]) + keys[|keys| - 1] + "/"
  }

  lemma {:induction false} SplitPath(keys: seq<string>, id: string, tail: string)
    requires forall j :: 0 <= j < |keys| ==> '/' !in keys[j]
    requires '/' !in id
    requires tail == "" || tail[0] == '/'
    ensures |Split(SlashPath(keys) + id + tail, '/')| >= |keys| + 2
    ensures Split(SlashPath(keys) + id + tail, '/')[|keys| + 1] == id
    decreases |keys|
  {
    if |keys| == 0 {
      assert SlashPath(keys) + id + tail == "" + ['/'] + (id + tail);
      SplitAfterField("", '/', id + tail);
      SplitHead(id, tail);
    } else {
      var init := keys[..|keys| - 1];
      var last := keys[|keys| - 1];
      assert SlashPath(keys) + id + tail == SlashPath(init) + (last + ['/'] + id + tail);
      assert forall j :: 0 <= j < |init| ==> '/' !in init[j] by {
        forall j | 0 <= j < |init| ensures '/' !in init[j] { assert init[j] == keys[j]; }
      }
      SplitPathGeneral(init, last + ['/'] + id + tail);
      SplitAfterField(last, '/', id + tail);
      assert last + ['/'] + id + tail == last + ['/'] + (id + tail);
      SplitHead(id, tail);
    }
  }

  /** Splitting `"/" + k1 + ... + "/" + rest` yields the keys' fields then the fields of `rest`. */
  lemma {:induction false} SplitPathGeneral(keys: seq<string>, rest: string)
    requires forall j :: 0 <= j < |keys| ==> '/' !in keys[j]
    ensures Split(SlashPath(keys) + rest, '/') == [""] + keys + Split(rest, '/')
    decreases |keys|
  {
    if |keys| == 0 {
      assert SlashPath(keys) + rest == "" + ['/'] + rest;
      SplitAfterField("", '/', rest);
    } else {
      var init := keys[..|keys| - 1];
      var last := keys[|keys| - 1];
      assert forall j :: 0 <= j < |init| ==> '/' !in init[j] by {
        forall j | 0 <= j < |init| ensures '/' !in init[j] { assert init[j] == keys[j]; }
      }
      var x := last + ['/'] + rest;
      assert SlashPath(keys) + rest == SlashPath(init) + x by {
        assert SlashPath(keys) == SlashPath(init) + last + "/";
      }
      SplitPathGeneral(init, x);
      SplitAfterField(last, '/', rest);
      FieldsAppend(init, last, Split(rest, '/'), keys);
    }
  }

  /** `[""] + init + ([last] + fs)` is `[""] + keys + fs` when `keys == init + [last]`. */
  lemma FieldsAppend(init: seq<string>, last: string, fs: seq<string>, keys: seq<string>)
    requires |keys| > 0 && init == keys[..|keys| - 1] && last == keys[|keys| - 1]
    ensures [""] + init + ([last] + fs) == [""] + keys + fs
  {
    assert init + [last] == keys;
  }

  /** The first field of `id + tail` is `id` when `tail` is empty or starts with the separator. */
  lemma {:induction false} SplitHead(id: string, tail: string)
    requires '/' !in id
    requires tail == "" || tail[0] == '/'
    ensures Split(id + tail, '/')[0] == id
  {
    if tail == "" {
      assert id + tail == id;
      SplitNoSeparator(id, '/');
    } else {
      assert id + tail == id + ['/'] + tail[1..];
      SplitAfterField(id, '/', tail[1..]);
    }
  }
}

=== FILE: python.dfy ===
/**
 * The pieces of the Python runtime the mesh code relies on: the exceptions it
 * can raise, the numeric conversions `int()`/`float()`, the uninterpreted
 * `%Nd`/`%N.Mf` formatting, and dictionary keys that may be either integers or
 * text (Python dictionaries are heterogeneous).
 */
module Python {
  import opened Wrappers

  /** The exceptions the modelled code raises. `Raised` is a plain `Exception(msg)`. */
  datatype PyError =
    | ValueError   // int()/float() on text that is not a number
    | KeyError     // dictionary lookup of an absent key
    | IndexError   // list index out of range
    | NameError    // a variable or module name that is not bound
    | TypeError    // arithmetic with None
    | Raised(msg: string)

  /** `int(text)` and `float(text)`, left uninterpreted: None means a ValueError. */
  datatype Conv = Conv(toInt: string -> Option<int>, toFloat: string -> Option<real>)

  /** `"%<w>i" % n` and `"%<w>.<p>f" % x`, left uninterpreted. */
  datatype Fmt = Fmt(integer: (nat, int) -> string, fixed: (nat, nat, real) -> string)

  /** A dictionary key: the thickness side tables store whatever key the caller passes. */
  datatype PyKey = IntKey(n: int) | StrKey(s: string)

  function Int(c: Conv, text: string): (r: Result<int, PyError>)
    ensures r.Failure? ==> r.error == ValueError
    ensures r.Success? <==> c.toInt(text).Some?
    ensures r.Success? ==> r.value == c.toInt(text).value
  {
    OrFail(c.toInt(text), ValueError)
  }

  function Float(c: Conv, text: string): (r: Result<real, PyError>)
    ensures r.Failure? ==> r.error == ValueError
    ensures r.Success? <==> c.toFloat(text).Some?
    ensures r.Success? ==> r.value == c.toFloat(text).value
  {
    OrFail(c.toFloat(text), ValueError)
  }

  /** `d[k]` on a dictionary. */
  function Lookup<K, V>(d: map<K, V>, k: K): (r: Result<V, PyError>)
    ensures r.Success? <==> k in d
    ensures r.Success? ==> r.value == d[k]
    ensures r.Failure? ==> r.error == KeyError
  {
    if k in d then Success(d[k]) else Failure(KeyError)
  }

  /** Reading a local variable: unbound is a NameError. */
  function Bound<T>(v: Option<T>): (r: Result<T, PyError>)
    ensures r.Success? <==> v.Some?
    ensures r.Success? ==> r.value == v.value
    ensures r.Failure? ==> r.error == NameError
  {
    OrFail(v, NameError)
  }
}

=== FILE: radioss_reader.dfy ===
/**
 * `readRadiossMesh` of FEMeshUtils/MeshReaders.py: one forward pass over the
 * lines of a Radioss starter deck. Six section blocks run in order on every
 * line; each opens its section when the line starts with its keyword (taking
 * the part, material or property ID from the keyword's path), handles data
 * lines (no `#`, no `/`) while open, and closes on any other line containing
 * `/`. The blocks share the counter `i` and the variables `partid`, `matid`,
 * `propid`, `title` and `rho`.
 */
module RadiossReader {
  import opened Wrappers
  import opened Python
  import opened PyStr
  import opened MeshStore

  datatype Section =
    | NodeSec    // /NODE
    | Sh3nSec    // /SH3N/<part>
    | ShellSec   // /SHELL/<part>
    | PartSec    // /PART/<part>
    | MatSec     // /MAT/PLAS_TAB/<mat>
    | PropSec    // /PROP/SHELL/<prop>

  function Keyword(k: Section): (r: string)
    ensures |r| >= 5 && r[0] == '/'
  {
    match k
    case NodeSec => "/NODE"
    case Sh3nSec => "/SH3N"
    case ShellSec => "/SHELL"
    case PartSec => "/PART"
    case MatSec => "/MAT/PLAS_TAB"
    case PropSec => "/PROP/SHELL"
  }

  /** The blocks in the order the loop body runs them. */
  const Blocks: seq<Section> := [NodeSec, Sh3nSec, ShellSec, PartSec, MatSec, PropSec]

  /** `"<keyword>" in line[0:len(keyword)]`. */
  predicate Opens(line: string, k: Section) {
    Contains(Slice(line, 0, |Keyword(k)|), Keyword(k))
  }

  /** `line.strip().split("/")[k]`, raising IndexError when the path is too short. */
  function Token(line: string, k: nat): (r: Result<string, PyError>)
    ensures r.Success? <==> SlashToken(line, k).Some?
    ensures r.Success? ==> r.value == SlashToken(line, k).value
    ensures r.Failure? ==> r.error == IndexError
  {
    match SlashToken(line, k)
    case Some(t) => Success(t)
    case None => Failure(IndexError)
  }

  /** The reader's loop state: open sections, the counter, the variables carried between lines, the mesh. */
  datatype State = State(
    open: set<Section>,
    i: nat,
    partid: Option<string>,
    matid: Option<string>,
    propid: Option<string>,
    title: Option<string>,
    rho: Option<string>,
    mesh: Mesh)

  /** A data line: `not ("#" in line or "/" in line)`. */
  predicate IsData(line: string) {
    !(Mark(line, '#') || Mark(line, '/'))
  }

  /** A Radioss reader state with the mesh an `add*` call returned, or that call's exception. */
  function WithMesh(st: State, r: Result<Mesh, PyError>): (s: Result<State, PyError>)
    ensures s.Success? <==> r.Success?
    ensures s.Failure? ==> s.error == r.error
    ensures s.Success? ==> s.value == st.(mesh := r.value)
  {
    var m :- r;
    Success(st.(mesh := m))
  }

  /** The path segments before the ID: `/SH3N/<id>`, `/MAT/PLAS_TAB/<id>`, ... */
  function Path(k: Section): seq<string>
    requires k != NodeSec
  {
    match k
    case Sh3nSec => ["SH3N"]
    case ShellSec => ["SHELL"]
    case PartSec => ["PART"]
    case MatSec => ["MAT", "PLAS_TAB"]
    case PropSec => ["PROP", "SHELL"]
  }

  /**
   * A keyword line: the section opens, after its ID (if any) is taken from
   * the keyword path (`split("/")[2]` after a one-segment path, `[3]` after
   * `/MAT/PLAS_TAB` and `/PROP/SHELL`).
   */
  function OpenSection(st: State, line: string, k: Section): Result<State, PyError> {
    if k == NodeSec then Success(st.(open := st.open + {k}))
    else
      var id :- Token(line, |Path(k)| + 1);
      Success(Opened(st, k, id))
  }

  /** The section open with its ID bound; `/PART`, `/MAT/PLAS_TAB` and `/PROP/SHELL` reset `i`. */
  function Opened(st: State, k: Section, id: string): State
    requires k != NodeSec
  {
    match k
    case Sh3nSec | ShellSec => st.(partid := Some(id), open := st.open + {k})
    case PartSec => st.(partid := Some(id), open := st.open + {k}, i := 0)
    case MatSec => st.(matid := Some(id), open := st.open + {k}, i := 0)
    case PropSec => st.(propid := Some(id), open := st.open + {k}, i := 0)
  }

  /** A `/NODE` data line: `addNode(line[0:10], line[11:30], line[31:50], line[51:70])`. */
  function NodeLine(c: Conv, st: State, line: string): Result<State, PyError> {
    WithMesh(st, AddNode(c, st.mesh, Slice(line, 0, 10), Slice(line, 11, 30), Slice(line, 31, 50), Slice(line, 51, 70)))
  }

  /** The node fields of a shell line: three for `/SH3N`, four for `/SHELL`. */
  function ShellNodes(line: string, k: Section): seq<string> {
    if k == Sh3nSec then [Slice(line, 11, 20), Slice(line, 21, 30), Slice(line, 31, 40)]
    else [Slice(line, 11, 20), Slice(line, 21, 30), Slice(line, 31, 40), Slice(line, 41, 50)]
  }

  /** A non-blank thickness field in columns 92-100 becomes the element's thickness, keyed by the element ID as text. */
  function ShellThickness(c: Conv, m: Mesh, line: string): Result<Mesh, PyError> {
    if Strip(Slice(line, 91, 100)) != "" then
      AddElementalThickness(c, m, StrKey(Slice(line, 0, 10)), Slice(line, 91, 100))
    else Success(m)
  }

  /** A `/SH3N` or `/SHELL` data line: the element under the keyword's part, then its optional thickness. */
  function ShellLine(c: Conv, st: State, line: string, k: Section): Result<State, PyError> {
    var pid :- Bound(st.partid);
    var m1 :- AddElem(c, st.mesh, Slice(line, 0, 10), pid, ShellNodes(line, k));
    var m2 :- ShellThickness(c, m1, line);
    Success(st.(mesh := m2))
  }

  /** A `/PART` data line: the title at `i == 0`, property and material IDs and `addPart` at `i == 1`. */
  function PartLine(c: Conv, st: State, line: string): Result<State, PyError> {
    var s1 := if st.i == 0 then st.(title := Some(Strip(line))) else st;
    var s2 :-
      if st.i == 1 then
        var pid :- Bound(s1.partid);
        var t :- Bound(s1.title);
        WithMesh(s1, AddPart(c, s1.mesh, pid, t, Slice(line, 0, 10), Slice(line, 11, 20)))
      else Success(s1);
    Success(s2.(i := st.i + 1))
  }

  /** A `/MAT/PLAS_TAB` data line: title at `i == 0`, density at `i == 1`, modulus and `addMat` at `i == 2`. */
  function MatLine(c: Conv, st: State, line: string): Result<State, PyError> {
    var s1 := if st.i == 0 then st.(title := Some(Strip(line))) else st;
    var s2 := if st.i == 1 then s1.(rho := Some(Slice(line, 0, 20))) else s1;
    var s3 :-
      if st.i == 2 then
        var mid :- Bound(s2.matid);
        var rho :- Bound(s2.rho);
        WithMesh(s2, AddMat(c, s2.mesh, mid, rho, Slice(line, 0, 20)))
      else Success(s2);
    Success(s3.(i := st.i + 1))
  }

  /** A `/PROP/SHELL` data line: title at `i == 0`, thickness from columns 22-40 and `addProp` at `i == 3`. */
  function PropLine(c: Conv, st: State, line: string): Result<State, PyError> {
    var s1 := if st.i == 0 then st.(title := Some(Strip(line))) else st;
    var s2 :-
      if st.i == 3 then
        var pid :- Bound(s1.propid);
        WithMesh(s1, AddProp(c, s1.mesh, pid, Slice(line, 21, 40)))
      else Success(s1);
    Success(s2.(i := st.i + 1))
  }

  /** The data-line handler of a section. Handlers never open or close sections. */
  function Body(c: Conv, st: State, line: string, k: Section): (r: Result<State, PyError>)
    ensures r.Success? ==> r.value.open == st.open
  {
    match k
    case NodeSec => NodeLine(c, st, line)
    case Sh3nSec | ShellSec => ShellLine(c, st, line, k)
    case PartSec => PartLine(c, st, line)
    case MatSec => MatLine(c, st, line)
    case PropSec => PropLine(c, st, line)
  }

  /** One section block: open on the keyword prefix, handle data while open, close on a `/` line while open. */
  function Block(c: Conv, st: State, line: string, k: Section): Result<State, PyError> {
    if Opens(line, k) then OpenSection(st, line, k)
    else if k in st.open && IsData(line) then Body(c, st, line, k)
    else if k in st.open && Mark(line, '/') then Success(st.(open := st.open - {k}))
    else Success(st)
  }

  function RunBlocks(c: Conv, st: State, line: string, ks: seq<Section>): Result<State, PyError>
    decreases |ks|
  {
    if |ks| == 0 then Success(st)
    else
      var s :- Block(c, st, line, ks[0]);
      RunBlocks(c, s, line, ks[1..])
  }

  /** One iteration of the loop over the file's lines. */
  function Step(c: Conv, st: State, line: string): Result<State, PyError> {
    RunBlocks(c, st, line, Blocks)
  }

  function Run(c: Conv, st: State, lines: seq<string>): Result<State, PyError>
    decreases |lines|
  {
    if |lines| == 0 then Success(st)
    else
      var s :- Step(c, st, lines[0]);
      Run(c, s, lines[1..])
  }

  /** A fresh reader over file `file`: no section open, nothing bound, an empty Radioss mesh. */
  function Start(file: string): State {
    State({}, 0, None, None, None, None, None, Empty.(file := file, format := "Radioss"))
  }

  function Listed(ks: seq<Section>): set<Section> {
    set k | k in ks
  }

  predicate Unique(ks: seq<Section>) {
    forall a, b :: 0 <= a < b < |ks| ==> ks[a] != ks[b]
  }

  lemma BlocksCoverAll()
    ensures Unique(Blocks)
    ensures forall k :: k in Listed(Blocks)
  {
    forall k ensures k in Listed(Blocks) {
      match k
      case NodeSec => assert Blocks[0] == k;
      case Sh3nSec => assert Blocks[1] == k;
      case ShellSec => assert Blocks[2] == k;
      case PartSec => assert Blocks[3] == k;
      case MatSec => assert Blocks[4] == k;
      case PropSec => assert Blocks[5] == k;
    }
  }

  /** Characters two to four already tell the keywords apart. */
  lemma KeywordTagsDiffer(a: Section, b: Section)
    ensures Keyword(a)[1] == Keyword(b)[1] && Keyword(a)[2] == Keyword(b)[2] && Keyword(a)[3] == Keyword(b)[3] ==> a == b
  {
  }

  /** The keyword test on `line[0:n]` is a prefix test. */
  lemma OpensIsPrefix(line: string, k: Section)
    ensures Opens(line, k) <==> StartsWith(line, Keyword(k))
  {
    PrefixTest(line, Keyword(k));
  }

  /** No keyword is a prefix of another, so a line opens at most one section. */
  lemma OpensAtMostOne(line: string, a: Section, b: Section)
    requires Opens(line, a) && Opens(line, b)
    ensures a == b
  {
    OpensIsPrefix(line, a);
    OpensIsPrefix(line, b);
    forall j | 1 <= j <= 3 ensures Keyword(a)[j] == Keyword(b)[j] {
      assert Keyword(a)[j] == line[..|Keyword(a)|][j] == line[j];
      assert Keyword(b)[j] == line[..|Keyword(b)|][j] == line[j];
    }
    KeywordTagsDiffer(a, b);
  }

  lemma OpensHasSlash(line: string, k: Section)
    requires Opens(line, k)
    ensures Mark(line, '/')
  {
    OpensIsPrefix(line, k);
    assert line[0] == Keyword(k)[0];
  }

  /** The result of a keyword line for section `k` after the blocks `ks`: the others close, `k` opens. */
  function AfterKeyword(st: State, line: string, k: Section, ks: seq<Section>): Result<State, PyError> {
    if k in ks then OpenSection(st.(open := st.open - Listed(ks)), line, k)
    else Success(st.(open := st.open - Listed(ks)))
  }

  /** Opening a section only adds it to whatever sections are open. */
  lemma OpenSectionAdds(st: State, line: string, k: Section)
    ensures var o := OpenSection(st, line, k);
      o.Success? ==> o.value.open == st.open + {k}
  {
  }

  /** What else a keyword line sets does not depend on the sections already open. */
  lemma OpenSectionFrame(st: State, line: string, k: Section, x: set<Section>)
    ensures var o := OpenSection(st, line, k);
      OpenSection(st.(open := x), line, k) == (if o.Success? then Success(o.value.(open := x + {k})) else o)
  {
  }

  /** The block of `k` itself on its keyword line, followed by blocks that do not repeat it. */
  lemma KeywordBlocksHere(c: Conv, st: State, line: string, k: Section, ks: seq<Section>)
    requires Opens(line, k) && Unique(ks) && |ks| > 0 && ks[0] == k
    requires forall s: State :: RunBlocks(c, s, line, ks[1..]) == AfterKeyword(s, line, k, ks[1..])
    ensures RunBlocks(c, st, line, ks) == AfterKeyword(st, line, k, ks)
  {
    assert Listed(ks) == {ks[0]} + Listed(ks[1..]);
    assert k !in ks[1..];
    var o := OpenSection(st, line, k);
    OpenSectionAdds(st, line, k);
    OpenSectionFrame(st, line, k, st.open - Listed(ks));
    if o.Success? {
      assert RunBlocks(c, st, line, ks) == RunBlocks(c, o.value, line, ks[1..]);
      assert o.value.open - Listed(ks[1..]) == (st.open - Listed(ks)) + {k};
    }
  }

  /** The block of another section on `k`'s keyword line: it closes. */
  lemma KeywordBlocksOther(c: Conv, st: State, line: string, k: Section, ks: seq<Section>)
    requires Opens(line, k) && |ks| > 0 && ks[0] != k
    requires forall s: State :: RunBlocks(c, s, line, ks[1..]) == AfterKeyword(s, line, k, ks[1..])
    ensures RunBlocks(c, st, line, ks) == AfterKeyword(st, line, k, ks)
  {
    var s := st.(open := st.open - {ks[0]});
    OtherBlockCloses(c, st, line, k, ks[0]);
    assert Listed(ks) == {ks[0]} + Listed(ks[1..]);
    assert s.open - Listed(ks[1..]) == st.open - Listed(ks);
    assert (k in ks) == (k in ks[1..]);
  }

  /** On `k`'s keyword line the block of another section only closes that section. */
  lemma OtherBlockCloses(c: Conv, st: State, line: string, k: Section, b: Section)
    requires Opens(line, k) && b != k
    ensures Block(c, st, line, b) == Success(st.(open := st.open - {b}))
  {
    OpensHasSlash(line, k);
    if Opens(line, b) {
      OpensAtMostOne(line, k, b);
    }
    assert b !in st.open ==> st.open - {b} == st.open;
  }

  lemma {:induction false} KeywordBlocks(c: Conv, st: State, line: string, k: Section, ks: seq<Section>)
    requires Opens(line, k) && Unique(ks)
    ensures forall s: State :: RunBlocks(c, s, line, ks) == AfterKeyword(s, line, k, ks)
    decreases |ks|
  {
    if |ks| == 0 {
      forall s: State ensures RunBlocks(c, s, line, ks) == AfterKeyword(s, line, k, ks) {
        assert s.open - Listed(ks) == s.open;
      }
    } else {
      KeywordBlocks(c, st, line, k, ks[1..]);
      forall s: State ensures RunBlocks(c, s, line, ks) == AfterKeyword(s, line, k, ks) {
        if ks[0] == k {
          KeywordBlocksHere(c, s, line, k, ks);
        } else {
          KeywordBlocksOther(c, s, line, k, ks);
        }
      }
    }
  }

  lemma {:induction false} SlashBlocks(c: Conv, st: State, line: string, ks: seq<Section>)
    requires Mark(line, '/') && forall k :: !Opens(line, k)
    ensures RunBlocks(c, st, line, ks) == Success(st.(open := st.open - Listed(ks)))
    decreases |ks|
  {
    if |ks| == 0 {
      assert st.open - Listed(ks) == st.open;
    } else {
      var s := st.(open := st.open - {ks[0]});
      assert ks[0] !in st.open ==> st.open - {ks[0]} == st.open;
      assert Block(c, st, line, ks[0]) == Success(s);
      SlashBlocks(c, s, line, ks[1..]);
      assert Listed(ks) == {ks[0]} + Listed(ks[1..]);
      assert s.open - Listed(ks[1..]) == st.open - Listed(ks);
    }
  }

  lemma {:induction false} IdleBlocks(c: Conv, st: State, line: string, ks: seq<Section>)
    requires !Mark(line, '/')
    requires IsData(line) ==> forall j :: 0 <= j < |ks| ==> ks[j] !in st.open
    ensures RunBlocks(c, st, line, ks) == Success(st)
    decreases |ks|
  {
    if |ks| > 0 {
      if Opens(line, ks[0]) {
        OpensHasSlash(line, ks[0]);
      }
      IdleBlocks(c, st, line, ks[1..]);
    }
  }

  lemma {:induction false} DataBlocks(c: Conv, st: State, line: string, k: Section, ks: seq<Section>)
    requires IsData(line) && st.open == {k}
    requires Unique(ks) && k in ks
    ensures RunBlocks(c, st, line, ks) == Body(c, st, line, k)
    decreases |ks|
  {
    if Opens(line, ks[0]) {
      OpensHasSlash(line, ks[0]);
    }
    if ks[0] == k {
      var r := Body(c, st, line, k);
      if r.Success? {
        IdleBlocks(c, r.value, line, ks[1..]);
      }
    } else {
      DataBlocks(c, st, line, k, ks[1..]);
    }
  }

  /** A keyword line closes every section and opens its own, raising IndexError when the keyword path has no ID. */
  lemma KeywordLine(c: Conv, st: State, line: string, k: Section)
    requires Opens(line, k)
    ensures Step(c, st, line) == OpenSection(st.(open := {}), line, k)
  {
    BlocksCoverAll();
    KeywordBlocks(c, st, line, k, Blocks);
    assert st.open - Listed(Blocks) == {};
  }

  /** Any other line containing `/` closes every section and changes nothing else. */
  lemma SlashLine(c: Conv, st: State, line: string)
    requires Mark(line, '/') && forall k :: !Opens(line, k)
    ensures Step(c, st, line) == Success(st.(open := {}))
  {
    BlocksCoverAll();
    SlashBlocks(c, st, line, Blocks);
    assert st.open - Listed(Blocks) == {};
  }

  /** A comment line (`#`, no `/`) changes nothing at all. */
  lemma CommentLine(c: Conv, st: State, line: string)
    requires Mark(line, '#') && !Mark(line, '/')
    ensures Step(c, st, line) == Success(st)
  {
    IdleBlocks(c, st, line, Blocks);
  }

  /** A Radioss data line (no `#`, no `/`) with no section open is skipped: no flag selects a handler. */
  lemma StrayDataLine(c: Conv, st: State, line: string)
    requires IsData(line) && st.open == {}
    ensures Step(c, st, line) == Success(st)
  {
    IdleBlocks(c, st, line, Blocks);
  }

  /** A data line goes to the handler of the one open section, and only to it. */
  lemma DataLine(c: Conv, st: State, line: string, k: Section)
    requires IsData(line) && st.open == {k}
    ensures Step(c, st, line) == Body(c, st, line, k)
  {
    BlocksCoverAll();
    DataBlocks(c, st, line, k, Blocks);
  }

  lemma PathHasNoSlash(k: Section)
    requires k != NodeSec
    ensures forall j :: 0 <= j < |Path(k)| ==> '/' !in Path(k)[j]
  {
    forall j | 0 <= j < |Path(k)| ensures '/' !in Path(k)[j] {
      var w := Path(k)[j];
      assert w in {"SH3N", "SHELL", "PART", "MAT", "PLAS_TAB", "PROP"};
      assert forall x :: 0 <= x < |w| ==> w[x] != '/';
    }
  }

  /** The ID variable a keyword sets. */
  function IdOf(st: State, k: Section): Option<string>
    requires k != NodeSec
  {
    match k
    case Sh3nSec | ShellSec | PartSec => st.partid
    case MatSec => st.matid
    case PropSec => st.propid
  }

  /**
   * A keyword line whose stripped text is the keyword path followed by an
   * ID (and optionally more `/` fields) opens the section with that ID.
   */
  lemma KeywordId(c: Conv, st: State, line: string, k: Section, id: string, tail: string)
    requires k != NodeSec && Opens(line, k)
    requires Strip(line) == SlashPath(Path(k)) + id + tail
    requires '/' !in id && (tail == "" || tail[0] == '/')
    ensures var r := Step(c, st, line);
      r.Success? && r.value.open == {k} && IdOf(r.value, k) == Some(id)
  {
    KeywordLine(c, st, line, k);
    PathHasNoSlash(k);
    SlashTokenOfKeyword(line, Path(k), id, tail);
    OpenSectionId(st.(open := {}), line, k, id);
  }

  lemma OpenSectionId(st: State, line: string, k: Section, id: string)
    requires k != NodeSec && SlashToken(line, |Path(k)| + 1) == Some(id)
    ensures var o := OpenSection(st, line, k);
      o.Success? && o.value.open == st.open + {k} && IdOf(o.value, k) == Some(id)
  {
  }

  /** A keyword path without an ID field raises IndexError. */
  lemma KeywordWithoutId(c: Conv, st: State, line: string, k: Section)
    requires k != NodeSec && Opens(line, k)
    requires |Split(Strip(line), '/')| <= |Path(k)| + 1
    ensures Step(c, st, line) == Failure(IndexError)
  {
    KeywordLine(c, st, line, k);
    OpenSectionWithoutId(st.(open := {}), line, k);
  }

  lemma OpenSectionWithoutId(st: State, line: string, k: Section)
    requires k != NodeSec && SlashToken(line, |Path(k)| + 1).None?
    ensures OpenSection(st, line, k) == Failure(IndexError)
  {
  }

  /** A `/NODE` data line adds the node from columns 1-10, 12-30, 32-50 and 52-70. */
  lemma NodeDataLine(c: Conv, st: State, line: string)
    requires IsData(line) && st.open == {NodeSec}
    ensures var r := Step(c, st, line);
      var a := AddNode(c, st.mesh, Slice(line, 0, 10), Slice(line, 11, 30), Slice(line, 31, 50), Slice(line, 51, 70));
      && (r.Success? <==> a.Success?)
      && (r.Success? ==> r.value == st.(mesh := a.value))
  {
    DataLine(c, st, line, NodeSec);
  }

  /**
   * A `/SH3N` (three nodes) or `/SHELL` (four nodes) data line adds the
   * element under the part named on the keyword line; a non-blank field in
   * columns 92-100 is stored as that element's thickness under the element
   * ID as text, and a blank one leaves the thickness table alone.
   */
  lemma ShellDataLine(c: Conv, st: State, line: string, k: Section, pid: string)
    requires IsData(line) && st.open == {k} && (k == Sh3nSec || k == ShellSec) && st.partid == Some(pid)
    ensures var r := Step(c, st, line);
      var a := AddElem(c, st.mesh, Slice(line, 0, 10), pid, ShellNodes(line, k));
      var blank := Strip(Slice(line, 91, 100)) == "";
      && |ShellNodes(line, k)| == (if k == Sh3nSec then 3 else 4)
      && (r.Success? <==> a.Success? && (blank || c.toFloat(Slice(line, 91, 100)).Some?))
      && (r.Success? ==> r.value == st.(mesh := r.value.mesh))
      && (r.Success? ==> r.value.mesh == a.value.(elementalThickness := r.value.mesh.elementalThickness))
      && (r.Success? && blank ==> r.value.mesh.elementalThickness == st.mesh.elementalThickness)
      && (r.Success? && !blank ==>
            r.value.mesh.elementalThickness ==
            st.mesh.elementalThickness[StrKey(Slice(line, 0, 10)) := c.toFloat(Slice(line, 91, 100)).value])
  {
    DataLine(c, st, line, k);
  }

  /** The sections whose blocks hold one record spread over numbered data lines. */
  predicate Counted(k: Section) {
    k == PartSec || k == MatSec || k == PropSec
  }

  /** The data line, counted from 0 after the keyword, that stores the section's record. */
  function RecordLine(k: Section): nat
    requires Counted(k)
  {
    match k
    case PartSec => 1
    case MatSec => 2
    case PropSec => 3
  }

  /** In a counted section every data line advances the counter by one. */
  lemma CountedDataLine(c: Conv, st: State, line: string, k: Section)
    requires IsData(line) && st.open == {k} && Counted(k)
    ensures var r := Step(c, st, line);
      r.Success? ==> r.value.open == {k} && r.value.i == st.i + 1
  {
    DataLine(c, st, line, k);
  }

  /** Off its record line a counted section stores nothing and cannot fail. */
  lemma OffRecordLine(c: Conv, st: State, line: string, k: Section)
    requires IsData(line) && st.open == {k} && Counted(k) && st.i != RecordLine(k)
    ensures var r := Step(c, st, line);
      r.Success? && r.value.mesh == st.mesh
  {
    DataLine(c, st, line, k);
    BodyOffRecord(c, st, line, k);
  }

  /** The handlers behind OffRecordLine, one section at a time. */
  lemma BodyOffRecord(c: Conv, st: State, line: string, k: Section)
    requires Counted(k) && st.i != RecordLine(k)
    ensures var r := Body(c, st, line, k);
      r.Success? && r.value.mesh == st.mesh
  {
    match k
    case PartSec => assert PartLine(c, st, line).Success?;
    case MatSec => assert MatLine(c, st, line).Success?;
    case PropSec => assert PropLine(c, st, line).Success?;
  }

  /** The second `/PART` data line stores the keyword's part with the title line's text and property and material IDs. */
  lemma PartRecordLine(c: Conv, st: State, line: string, pid: string, t: string)
    requires IsData(line) && st.open == {PartSec} && st.i == 1
    requires st.partid == Some(pid) && st.title == Some(t)
    ensures var r := Step(c, st, line);
      var a := AddPart(c, st.mesh, pid, t, Slice(line, 0, 10), Slice(line, 11, 20));
      && (r.Success? <==> a.Success?)
      && (r.Success? ==> r.value.mesh == a.value)
  {
    DataLine(c, st, line, PartSec);
  }

  /** The third `/MAT/PLAS_TAB` data line stores the material with the density read one line earlier. */
  lemma MatRecordLine(c: Conv, st: State, line: string, mid: string, rho: string)
    requires IsData(line) && st.open == {MatSec} && st.i == 2
    requires st.matid == Some(mid) && st.rho == Some(rho)
    ensures var r := Step(c, st, line);
      var a := AddMat(c, st.mesh, mid, rho, Slice(line, 0, 20));
      && (r.Success? <==> a.Success?)
      && (r.Success? ==> r.value.mesh == a.value)
  {
    DataLine(c, st, line, MatSec);
  }

  /** The fourth `/PROP/SHELL` data line stores the thickness from columns 22-40. */
  lemma PropRecordLine(c: Conv, st: State, line: string, pid: string)
    requires IsData(line) && st.open == {PropSec} && st.i == 3 && st.propid == Some(pid)
    ensures var r := Step(c, st, line);
      var a := AddProp(c, st.mesh, pid, Slice(line, 21, 40));
      && (r.Success? <==> a.Success?)
      && (r.Success? ==> r.value.mesh == a.value)
  {
    assert Step(c, st, line) == PropLine(c, st, line) by {
      DataLine(c, st, line, PropSec);
    }
    PropLineRecord(c, st, line, pid);
  }

  lemma PropLineRecord(c: Conv, st: State, line: string, pid: string)
    requires st.i == 3 && st.propid == Some(pid)
    ensures var r := PropLine(c, st, line);
      var a := AddProp(c, st.mesh, pid, Slice(line, 21, 40));
      && (r.Success? <==> a.Success?)
      && (r.Success? ==> r.value.mesh == a.value)
  {
  }

  /** The number of data lines among `lines`. */
  function DataLines(lines: seq<string>): nat
    decreases |lines|
  {
    if |lines| == 0 then 0 else (if IsData(lines[0]) then 1 else 0) + DataLines(lines[1..])
  }

  /** Inside a counted section (no `/` line in between) the counter is the number of data lines read since the keyword. */
  lemma {:induction false} CountedBlock(c: Conv, st: State, lines: seq<string>, k: Section)
    requires st.open == {k} && Counted(k)
    requires forall j :: 0 <= j < |lines| ==> !Mark(lines[j], '/')
    ensures var r := Run(c, st, lines);
      r.Success? ==> r.value.open == {k} && r.value.i == st.i + DataLines(lines)
    decreases |lines|
  {
    if |lines| > 0 {
      var line := lines[0];
      if IsData(line) {
        CountedDataLine(c, st, line, k);
      } else {
        CommentLine(c, st, line);
      }
      var s := Step(c, st, line);
      if s.Success? {
        CountedBlock(c, s.value, lines[1..], k);
      }
    }
  }

  /** Past its record line a counted section stores nothing more: each block stores at most one record. */
  lemma {:induction false} OneRecordPerBlock(c: Conv, st: State, lines: seq<string>, k: Section)
    requires st.open == {k} && Counted(k) && st.i > RecordLine(k)
    requires forall j :: 0 <= j < |lines| ==> !Mark(lines[j], '/')
    ensures var r := Run(c, st, lines);
      r.Success? && r.value.mesh == st.mesh
    decreases |lines|
  {
    if |lines| > 0 {
      var line := lines[0];
      if IsData(line) {
        OffRecordLine(c, st, line, k);
        CountedDataLine(c, st, line, k);
      } else {
        CommentLine(c, st, line);
      }
      OneRecordPerBlock(c, Step(c, st, lines[0]).value, lines[1..], k);
    }
  }

  /**
   * What the reader keeps true between lines: at most one section open,
   * the open section's ID bound, every other variable bound before the line
   * that reads it, thickness keys stored as text, elements of three or four nodes.
   */
  ghost predicate Valid(st: State) {
    && (forall a, b :: a in st.open && b in st.open ==> a == b)
    && (Sh3nSec in st.open || ShellSec in st.open || PartSec in st.open ==> st.partid.Some?)
    && (PartSec in st.open && st.i >= 1 ==> st.title.Some?)
    && (MatSec in st.open ==> st.matid.Some? && (st.i >= 2 ==> st.rho.Some?))
    && (PropSec in st.open ==> st.propid.Some?)
    && TextThicknessKeys(st.mesh)
    && ElemsWellFormed(st.mesh)
  }

  predicate SameFile(a: Mesh, b: Mesh) {
    a.file == b.file && a.format == b.format && a.trbProps == b.trbProps
  }

  /** The exceptions a Radioss deck can raise: a failed number conversion or a keyword path without an ID. */
  predicate ReadError(e: PyError) {
    e == ValueError || e == IndexError
  }

  /** Replacing the mesh by one with text thickness keys and 3- or 4-node elements keeps the state valid. */
  lemma ValidWithMesh(st: State, m: Mesh)
    requires Valid(st) && TextThicknessKeys(m) && ElemsWellFormed(m)
    ensures Valid(st.(mesh := m))
  {
  }

  /** The optional thickness of a shell line adds a text key and touches nothing but the thickness table. */
  lemma ShellThicknessKeepsKeys(c: Conv, m: Mesh, line: string)
    requires TextThicknessKeys(m) && ElemsWellFormed(m)
    ensures var r := ShellThickness(c, m, line);
      && (r.Failure? ==> r.error == ValueError)
      && (r.Success? ==> TextThicknessKeys(r.value) && r.value.elems == m.elems && SameFile(r.value, m))
  {
    var key := StrKey(Slice(line, 0, 10));
    if Strip(Slice(line, 91, 100)) != "" {
      var r := AddElementalThickness(c, m, key, Slice(line, 91, 100));
      assert ShellThickness(c, m, line) == r;
      if r.Success? {
        var m' := m.(elementalThickness := m.elementalThickness[key := c.toFloat(Slice(line, 91, 100)).value]);
        assert r.value == m';
        assert m'.elems == m.elems && SameFile(m', m);
      }
    } else {
      assert ShellThickness(c, m, line) == Success(m);
    }
  }

  lemma ShellLineKeepsValid(c: Conv, st: State, line: string, k: Section)
    requires Valid(st) && st.open == {k} && (k == Sh3nSec || k == ShellSec)
    ensures var r := ShellLine(c, st, line, k);
      && (r.Failure? ==> r.error == ValueError)
      && (r.Success? ==> Valid(r.value) && SameFile(r.value.mesh, st.mesh))
  {
    var a := AddElem(c, st.mesh, Slice(line, 0, 10), st.partid.value, ShellNodes(line, k));
    if a.Success? {
      AddElemKeepsWellFormed(c, st.mesh, Slice(line, 0, 10), st.partid.value, ShellNodes(line, k));
      var m1 := a.value;
      assert m1.nodalThickness == st.mesh.nodalThickness && m1.elementalThickness == st.mesh.elementalThickness;
      assert SameFile(m1, st.mesh);
      ShellThicknessKeepsKeys(c, m1, line);
      var t := ShellThickness(c, m1, line);
      if t.Success? {
        ValidWithMesh(st, t.value);
        assert ShellLine(c, st, line, k) == Success(st.(mesh := t.value));
      }
    }
  }

  lemma BodyKeepsValid(c: Conv, st: State, line: string, k: Section)
    requires Valid(st) && st.open == {k}
    ensures var r := Body(c, st, line, k);
      && (r.Failure? ==> r.error == ValueError)
      && (r.Success? ==> Valid(r.value) && SameFile(r.value.mesh, st.mesh))
  {
    match k
    case NodeSec => NodeLineKeepsValid(c, st, line);
    case Sh3nSec | ShellSec => ShellLineKeepsValid(c, st, line, k);
    case PartSec => PartLineKeepsValid(c, st, line);
    case MatSec => MatLineKeepsValid(c, st, line);
    case PropSec => PropLineKeepsValid(c, st, line);
  }

  lemma NodeLineKeepsValid(c: Conv, st: State, line: string)
    requires Valid(st) && st.open == {NodeSec}
    ensures var r := NodeLine(c, st, line);
      && (r.Failure? ==> r.error == ValueError)
      && (r.Success? ==> Valid(r.value) && SameFile(r.value.mesh, st.mesh))
  {
  }

  lemma PartLineKeepsValid(c: Conv, st: State, line: string)
    requires Valid(st) && st.open == {PartSec}
    ensures var r := PartLine(c, st, line);
      && (r.Failure? ==> r.error == ValueError)
      && (r.Success? ==> Valid(r.value) && SameFile(r.value.mesh, st.mesh))
  {
  }

  lemma MatLineKeepsValid(c: Conv, st: State, line: string)
    requires Valid(st) && st.open == {MatSec}
    ensures var r := MatLine(c, st, line);
      && (r.Failure? ==> r.error == ValueError)
      && (r.Success? ==> Valid(r.value) && SameFile(r.value.mesh, st.mesh))
  {
  }

  lemma PropLineKeepsValid(c: Conv, st: State, line: string)
    requires Valid(st) && st.open == {PropSec}
    ensures var r := PropLine(c, st, line);
      && (r.Failure? ==> r.error == ValueError)
      && (r.Success? ==> Valid(r.value) && SameFile(r.value.mesh, st.mesh))
  {
  }

  lemma KeywordLineKeepsValid(c: Conv, st: State, line: string, k: Section)
    requires Valid(st) && Opens(line, k)
    ensures var r := Step(c, st, line);
      && (r.Failure? ==> r.error == IndexError)
      && (r.Success? ==> Valid(r.value) && r.value.mesh == st.mesh)
  {
    KeywordLine(c, st, line, k);
    var closed := st.(open := {});
    assert Valid(closed);
    OpenSectionKeepsValid(closed, line, k);
  }

  lemma OpenSectionKeepsValid(st: State, line: string, k: Section)
    requires Valid(st) && st.open == {}
    ensures var o := OpenSection(st, line, k);
      && (o.Failure? ==> o.error == IndexError)
      && (o.Success? ==> Valid(o.value) && o.value.mesh == st.mesh)
  {
  }

  lemma SlashLineKeepsValid(c: Conv, st: State, line: string)
    requires Valid(st) && Mark(line, '/') && forall k :: !Opens(line, k)
    ensures var r := Step(c, st, line);
      r.Success? && Valid(r.value) && r.value.mesh == st.mesh
  {
    SlashLine(c, st, line);
  }

  lemma DataLineKeepsValid(c: Conv, st: State, line: string)
    requires Valid(st) && IsData(line)
    ensures var r := Step(c, st, line);
      && (r.Failure? ==> r.error == ValueError)
      && (r.Success? ==> Valid(r.value) && SameFile(r.value.mesh, st.mesh))
  {
    if st.open == {} {
      StrayDataLine(c, st, line);
    } else {
      var k :| k in st.open;
      assert st.open == {k};
      DataLine(c, st, line, k);
      BodyKeepsValid(c, st, line, k);
    }
  }

  lemma StepKeepsValid(c: Conv, st: State, line: string)
    requires Valid(st)
    ensures var r := Step(c, st, line);
      && (r.Failure? ==> ReadError(r.error))
      && (r.Success? ==> Valid(r.value) && SameFile(r.value.mesh, st.mesh))
  {
    if k :| Opens(line, k) {
      KeywordLineKeepsValid(c, st, line, k);
    } else if Mark(line, '/') {
      SlashLineKeepsValid(c, st, line);
    } else if !IsData(line) {
      CommentLine(c, st, line);
    } else {
      DataLineKeepsValid(c, st, line);
    }
  }

  lemma {:induction false} RunKeepsValid(c: Conv, st: State, lines: seq<string>)
    requires Valid(st)
    ensures var r := Run(c, st, lines);
      && (r.Failure? ==> ReadError(r.error))
      && (r.Success? ==> Valid(r.value) && SameFile(r.value.mesh, st.mesh))
    decreases |lines|
  {
    if |lines| > 0 {
      StepKeepsValid(c, st, lines[0]);
      var s := Step(c, st, lines[0]);
      if s.Success? {
        RunKeepsValid(c, s.value, lines[1..]);
      }
    }
  }

  /**
   * `readRadiossMesh(file)`: a deck can only raise ValueError or IndexError
   * (no variable is read unbound), thickness keys are text, and every
   * element has three or four nodes.
   */
  function ReadRadiossMesh(c: Conv, file: string, lines: seq<string>): (r: Result<Mesh, PyError>)
    ensures r.Failure? ==> ReadError(r.error)
    ensures r.Success? ==> r.value.file == file && r.value.format == "Radioss" && r.value.trbProps == {}
    ensures r.Success? ==> TextThicknessKeys(r.value) && ElemsWellFormed(r.value)
  {
    RunKeepsValid(c, Start(file), lines);
    var st :- Run(c, Start(file), lines);
    Success(st.mesh)
  }
}

=== FILE: radioss_writer.dfy ===
/**
 * `writeRadiossMesh` of FEMeshUtils/MeshReaders.py: the baseline deck is
 * copied line by line. A banner follows the `#RADIOSS STARTER` line, node
 * data lines are regenerated from the node table, and shell data lines keep
 * their first 90 columns followed by a rewritten thickness field.
 */
module RadiossWriter {
  import opened Wrappers
  import opened Python
  import opened PyStr
  import opened MeshStore
  import opened Vectors
  import RadiossReader

  /** The writer's flags and its `partid` variable, which starts as the integer 0. */
  datatype WState = WState(node: bool, sh3n: bool, shell: bool, partid: PyKey)

  const Initial := WState(false, false, false, IntKey(0))

  /** The three banner lines; date/time and user name are inputs. */
  function Banner(stamp: string, user: string): seq<string> {
    ["## - Mubea TRB CAE - FE_Mesh_Handlers - writeRadiossMesh\n",
     "## - Date/Time: " + stamp + "\n",
     "## - User: " + user + "\n"]
  }

  /** `int(partid)`: the initial 0 is already an integer, a keyword token is parsed. */
  function PartInt(c: Conv, k: PyKey): (r: Result<int, PyError>)
    ensures r.Failure? ==> r.error == ValueError
    ensures k.IntKey? ==> r == Success(k.n)
    ensures k.StrKey? ==> (r.Success? <==> c.toInt(k.s).Some?) && (r.Success? ==> r.value == c.toInt(k.s).value)
  {
    match k
    case IntKey(n) => Success(n)
    case StrKey(s) => Int(c, s)
  }

  /** The thickness written for element `eid`: stored only for TRB parts, and only if any is stored at all. */
  function Thickness(c: Conv, m: Mesh, st: WState, eid: int): Result<real, PyError> {
    if |m.elementalThickness.Keys| != 0 then
      var p :- PartInt(c, st.partid);
      if p in m.trbProps then GetElementalThickness(m, IntKey(eid)) else Success(0.0)
    else Success(0.0)
  }

  /** `line[0:90] + "%10.8f" % thick + "\n"`. */
  function ShellText(f: Fmt, line: string, thick: real): string {
    Slice(line, 0, 90) + f.fixed(10, 8, thick) + "\n"
  }

  /** The `%10i%20.14f%20.14f%20.14f` record of a node. */
  function NodeText(f: Fmt, nid: int, v: Vec3): string {
    f.integer(10, nid) + f.fixed(20, 14, v.x) + f.fixed(20, 14, v.y) + f.fixed(20, 14, v.z) + "\n"
  }

  /** One iteration of the loop: the if/elif chain over a baseline line, giving the lines written for it. */
  function Step(c: Conv, f: Fmt, m: Mesh, stamp: string, user: string, st: WState, line: string)
    : Result<(WState, seq<string>), PyError>
  {
    var data := RadiossReader.IsData(line);
    if Contains(line, "#RADIOSS STARTER") then Success((st, [line] + Banner(stamp, user)))
    else if (st.sh3n || st.shell) && data then
      var eid :- Int(c, Slice(line, 0, 10));
      var t :- Thickness(c, m, st, eid);
      Success((st, [ShellText(f, line, t)]))
    else if st.node && data then
      var nid :- Int(c, Slice(line, 0, 10));
      var v :- Lookup(m.nodes, nid);
      Success((st, [NodeText(f, nid, v)]))
    else if RadiossReader.Opens(line, RadiossReader.Sh3nSec) then
      var id :- RadiossReader.Token(line, 2);
      Success((WState(false, true, false, StrKey(id)), [line]))
    else if RadiossReader.Opens(line, RadiossReader.ShellSec) then
      var id :- RadiossReader.Token(line, 2);
      Success((WState(false, false, true, StrKey(id)), [line]))
    else if RadiossReader.Opens(line, RadiossReader.NodeSec) then
      Success((st.(sh3n := false, shell := false, node := true), [line]))
    else if Mark(line, '/') then
      Success((st.(sh3n := false, shell := false, node := false), [line]))
    else Success((st, [line]))
  }

  /** The loop over the baseline lines: the final flags and the lines written for each baseline line. */
  function Run(c: Conv, f: Fmt, m: Mesh, stamp: string, user: string, st: WState, lines: seq<string>)
    : Result<(WState, seq<seq<string>>), PyError>
    decreases |lines|
  {
    if |lines| == 0 then Success((st, []))
    else
      var p :- Step(c, f, m, stamp, user, st, lines[0]);
      var rest :- Run(c, f, m, stamp, user, p.0, lines[1..]);
      Success((rest.0, [p.1] + rest.1))
  }

  function Flatten(chunks: seq<seq<string>>): seq<string>
    decreases |chunks|
  {
    if |chunks| == 0 then [] else chunks[0] + Flatten(chunks[1..])
  }

  /** The starter line contains `#`, so it is never a data line. */
  lemma StarterIsNotData(line: string)
    requires Contains(line, "#RADIOSS STARTER")
    ensures !RadiossReader.IsData(line)
  {
    ContainsHasChars(line, "#RADIOSS STARTER", 0);
  }

  /** At most one of the node, SH3N and SHELL flags is set, and an element section knows its part as text. */
  predicate WValid(st: WState) {
    && !(st.node && st.sh3n) && !(st.node && st.shell) && !(st.sh3n && st.shell)
    && (st.sh3n || st.shell ==> st.partid.StrKey?)
  }

  /** The errors the writer can raise: an integer field that does not parse, a missing node or thickness, a keyword without a part. */
  predicate WriteError(e: PyError) {
    e == ValueError || e == KeyError || e == IndexError
  }

  /** The facts `StepShape` states, for one step's result. */
  predicate Shaped(st: WState, line: string, stamp: string, user: string, r: Result<(WState, seq<string>), PyError>) {
    && (r.Failure? ==> WriteError(r.error))
    && (r.Success? ==> WValid(r.value.0) && |r.value.1| >= 1)
    && (r.Success? && Contains(line, "#RADIOSS STARTER") ==> r.value.1 == [line] + Banner(stamp, user))
    && (r.Success? && !Contains(line, "#RADIOSS STARTER") ==> |r.value.1| == 1)
    && (r.Success? && r.value.1[0] != line ==> RadiossReader.IsData(line) && (st.node || st.sh3n || st.shell))
  }

  lemma DataStepShape(c: Conv, f: Fmt, m: Mesh, stamp: string, user: string, st: WState, line: string)
    requires WValid(st) && RadiossReader.IsData(line)
    ensures Shaped(st, line, stamp, user, Step(c, f, m, stamp, user, st, line))
  {
    if Contains(line, "#RADIOSS STARTER") {
      StarterIsNotData(line);
    }
    forall k ensures !RadiossReader.Opens(line, k) {
      if RadiossReader.Opens(line, k) {
        RadiossReader.OpensHasSlash(line, k);
      }
    }
  }

  lemma OtherStepShape(c: Conv, f: Fmt, m: Mesh, stamp: string, user: string, st: WState, line: string)
    requires WValid(st) && !RadiossReader.IsData(line)
    ensures Shaped(st, line, stamp, user, Step(c, f, m, stamp, user, st, line))
  {
    var r := Step(c, f, m, stamp, user, st, line);
    if Contains(line, "#RADIOSS STARTER") {
      assert r == Success((st, [line] + Banner(stamp, user)));
    } else if RadiossReader.Opens(line, RadiossReader.Sh3nSec) || RadiossReader.Opens(line, RadiossReader.ShellSec) {
      var t := RadiossReader.Token(line, 2);
      assert r.Failure? ==> r.error == t.error;
      assert r.Success? ==> r.value.1 == [line] && r.value.0.partid == StrKey(t.value);
    } else {
      assert r.Success? && r.value.1 == [line];
    }
  }

  /**
   * One line's output: the starter line is followed by the banner, every
   * other line gives exactly one line, which is the line itself unless it is
   * a data line of a node or shell section; the flags stay exclusive.
   */
  lemma StepShape(c: Conv, f: Fmt, m: Mesh, stamp: string, user: string, st: WState, line: string)
    requires WValid(st)
    ensures Shaped(st, line, stamp, user, Step(c, f, m, stamp, user, st, line))
  {
    if RadiossReader.IsData(line) {
      DataStepShape(c, f, m, stamp, user, st, line);
    } else {
      OtherStepShape(c, f, m, stamp, user, st, line);
    }
  }

  /**
   * A shell data line keeps columns 1-90 and gets the element's stored
   * thickness when any thickness is stored and the keyword's part is a TRB
   * part; otherwise 0.0.
   */
  lemma ShellDataLine(c: Conv, f: Fmt, m: Mesh, stamp: string, user: string, st: WState, line: string, eid: int, pid: int)
    requires WValid(st) && (st.sh3n || st.shell) && RadiossReader.IsData(line)
    requires c.toInt(Slice(line, 0, 10)) == Some(eid) && c.toInt(st.partid.s) == Some(pid)
    ensures var r := Step(c, f, m, stamp, user, st, line);
      var stored := |m.elementalThickness.Keys| != 0 && pid in m.trbProps;
      && (r.Success? <==> !stored || IntKey(eid) in m.elementalThickness)
      && (r.Failure? ==> r.error == KeyError)
      && (r.Success? ==> r.value.0 == st)
      && (r.Success? && stored ==> r.value.1 == [ShellText(f, line, m.elementalThickness[IntKey(eid)])])
      && (r.Success? && !stored ==> r.value.1 == [ShellText(f, line, 0.0)])
  {
    if Contains(line, "#RADIOSS STARTER") {
      StarterIsNotData(line);
    }
  }

  /**
   * The thickness lookup uses an integer key but the readers store text
   * keys: after a read, a shell line of a TRB part raises KeyError as soon
   * as any elemental thickness is stored.
   */
  lemma ThicknessLookupFailsAfterRead(c: Conv, f: Fmt, m: Mesh, stamp: string, user: string, st: WState, line: string, pid: int)
    requires TextThicknessKeys(m) && |m.elementalThickness.Keys| != 0
    requires WValid(st) && (st.sh3n || st.shell) && RadiossReader.IsData(line)
    requires c.toInt(Slice(line, 0, 10)).Some? && c.toInt(st.partid.s) == Some(pid) && pid in m.trbProps
    ensures Step(c, f, m, stamp, user, st, line) == Failure(KeyError)
  {
    IntLookupMissesTextKeys(m, c.toInt(Slice(line, 0, 10)).value);
    if Contains(line, "#RADIOSS STARTER") {
      StarterIsNotData(line);
    }
  }

  /**
   * The rewritten thickness field occupies columns 91-100, but the reader
   * takes the thickness from columns 92-100: reading a written line back
   * sees the field without its first character.
   */
  lemma ThicknessColumnsDiffer(f: Fmt, line: string, thick: real)
    requires |line| >= 90 && |f.fixed(10, 8, thick)| == 10
    ensures Slice(ShellText(f, line, thick), 90, 100) == f.fixed(10, 8, thick)
    ensures Slice(ShellText(f, line, thick), 91, 100) == f.fixed(10, 8, thick)[1..]
  {
    var w := f.fixed(10, 8, thick);
    var out := ShellText(f, line, thick);
    assert out == line[..90] + w + "\n";
    assert out[90..100] == w;
    assert out[91..100] == w[1..];
  }

  /** A node data line is replaced by the record regenerated from the node table. */
  lemma NodeDataLine(c: Conv, f: Fmt, m: Mesh, stamp: string, user: string, st: WState, line: string, nid: int)
    requires WValid(st) && st.node && RadiossReader.IsData(line)
    requires c.toInt(Slice(line, 0, 10)) == Some(nid)
    ensures var r := Step(c, f, m, stamp, user, st, line);
      && (r.Success? <==> nid in m.nodes)
      && (r.Failure? ==> r.error == KeyError)
      && (r.Success? ==> r.value == (st, [NodeText(f, nid, m.nodes[nid])]))
  {
    if Contains(line, "#RADIOSS STARTER") {
      StarterIsNotData(line);
    }
  }

  /** `/SH3N` and `/SHELL` lines switch to that element section under the part named in the keyword path. */
  lemma ShellKeywordLine(c: Conv, f: Fmt, m: Mesh, stamp: string, user: string, st: WState, line: string, k: RadiossReader.Section)
    requires k == RadiossReader.Sh3nSec || k == RadiossReader.ShellSec
    requires RadiossReader.Opens(line, k) && !Contains(line, "#RADIOSS STARTER")
    ensures var r := Step(c, f, m, stamp, user, st, line);
      var t := SlashToken(line, 2);
      && (r.Success? <==> t.Some?)
      && (r.Failure? ==> r.error == IndexError)
      && (r.Success? ==> r.value == (WState(false, k == RadiossReader.Sh3nSec, k == RadiossReader.ShellSec, StrKey(t.value)), [line]))
  {
    RadiossReader.OpensHasSlash(line, k);
    if RadiossReader.Opens(line, RadiossReader.Sh3nSec) {
      RadiossReader.OpensAtMostOne(line, k, RadiossReader.Sh3nSec);
    }
  }

  /** Any other line with `/` (not a section keyword) leaves every section; the line is copied. */
  lemma SlashLine(c: Conv, f: Fmt, m: Mesh, stamp: string, user: string, st: WState, line: string)
    requires Mark(line, '/') && !Contains(line, "#RADIOSS STARTER")
    requires !RadiossReader.Opens(line, RadiossReader.Sh3nSec) && !RadiossReader.Opens(line, RadiossReader.ShellSec)
    requires !RadiossReader.Opens(line, RadiossReader.NodeSec)
    ensures Step(c, f, m, stamp, user, st, line) == Success((st.(sh3n := false, shell := false, node := false), [line]))
  {
  }

  lemma {:induction false} RunShape(c: Conv, f: Fmt, m: Mesh, stamp: string, user: string, st: WState, lines: seq<string>)
    requires WValid(st)
    ensures var r := Run(c, f, m, stamp, user, st, lines);
      && (r.Failure? ==> WriteError(r.error))
      && (r.Success? ==> WValid(r.value.0) && |r.value.1| == |lines|)
      && (r.Success? ==> forall j :: 0 <= j < |lines| ==> |r.value.1[j]| >= 1)
      && (r.Success? ==> forall j :: 0 <= j < |lines| && Contains(lines[j], "#RADIOSS STARTER") ==>
            r.value.1[j] == [lines[j]] + Banner(stamp, user))
      && (r.Success? ==> forall j :: 0 <= j < |lines| && !Contains(lines[j], "#RADIOSS STARTER") ==> |r.value.1[j]| == 1)
      && (r.Success? ==> forall j :: 0 <= j < |lines| && r.value.1[j][0] != lines[j] ==> RadiossReader.IsData(lines[j]))
    decreases |lines|
  {
    if |lines| > 0 {
      StepShape(c, f, m, stamp, user, st, lines[0]);
      var p := Step(c, f, m, stamp, user, st, lines[0]);
      if p.Success? {
        RunShape(c, f, m, stamp, user, p.value.0, lines[1..]);
        var rest := Run(c, f, m, stamp, user, p.value.0, lines[1..]);
        if rest.Success? {
          var chunks := [p.value.1] + rest.value.1;
          forall j | 0 < j < |lines| ensures chunks[j] == rest.value.1[j - 1] && lines[j] == lines[1..][j - 1] {
          }
        }
      }
    }
  }

  /** `writeRadiossMesh(Mesh, file)` over the baseline deck's lines: the lines written for each baseline line, in order. */
  function WriteRadiossMesh(c: Conv, f: Fmt, m: Mesh, stamp: string, user: string, lines: seq<string>)
    : (r: Result<seq<string>, PyError>)
    ensures r.Failure? ==> WriteError(r.error)
    ensures r.Success? <==> Run(c, f, m, stamp, user, Initial, lines).Success?
    ensures r.Success? ==> r.value == Flatten(Run(c, f, m, stamp, user, Initial, lines).value.1)
  {
    RunShape(c, f, m, stamp, user, Initial, lines);
    var p :- Run(c, f, m, stamp, user, Initial, lines);
    Success(Flatten(p.1))
  }
}

=== FILE: sums.dfy ===
/**
 * Sums over Python dictionaries. A dictionary is iterated in an unspecified
 * order, so a sum over its keys is modelled twice: `SetSum`, which takes the
 * keys in whatever order `Pick` yields, and `SeqSum`, the left fold
 * `0.0 + f(k1) + f(k2) + ...` over one concrete enumeration. `SeqSumIsSetSum`
 * shows the enumeration does not matter.
 */
module Sums {

  lemma NonEmptyHasMember(s: set<int>)
    requires s != {}
    ensures exists k :: k in s
  {
    if forall k :: k !in s {
      assert false;
    }
  }

  /** Some key of a non-empty set: the model of an unspecified dictionary order. */
  ghost function Pick(s: set<int>): (k: int)
    requires s != {}
    ensures k in s
  {
    NonEmptyHasMember(s);
    var k :| k in s; k
  }

  /** The sum of f over a set of keys. */
  ghost function SetSum(s: set<int>, f: int -> real): real
    decreases s
  {
    if s == {} then 0.0 else f(Pick(s)) + SetSum(s - {Pick(s)}, f)
  }

  /** The loop `total = 0.0; for k in ids: total = total + f(k)`. */
  function SeqSum(ids: seq<int>, f: int -> real): real {
    if |ids| == 0 then 0.0 else SeqSum(ids[..|ids| - 1], f) + f(ids[|ids| - 1])
  }

  /** A sequence that lists no key twice, as the keys of a dictionary are listed. */
  predicate Distinct(ids: seq<int>) {
    forall i, j :: 0 <= i < j < |ids| ==> ids[i] != ids[j]
  }

  /** The keys a sequence lists. */
  function Members(ids: seq<int>): set<int>
  {
    set k | k in ids
  }

  /** Listing one more key adds exactly that key. */
  lemma MembersSnoc(ids: seq<int>)
    requires |ids| > 0
    ensures Members(ids) == Members(ids[..|ids| - 1]) + {ids[|ids| - 1]}
  {
    assert ids == ids[..|ids| - 1] + [ids[|ids| - 1]];
  }

  /** Dropping the last key keeps a list free of repeats. */
  lemma DistinctInit(ids: seq<int>)
    requires Distinct(ids) && |ids| > 0
    ensures Distinct(ids[..|ids| - 1])
  {
    assert forall k :: 0 <= k < |ids| - 1 ==> ids[..|ids| - 1][k] == ids[k];
  }

  /** The set sum may take any key first. */
  lemma {:induction false} SetSumSplit(s: set<int>, f: int -> real, k: int)
    requires k in s
    ensures SetSum(s, f) == f(k) + SetSum(s - {k}, f)
    decreases s
  {
    var p := Pick(s);
    if p != k {
      SetSumSplit(s - {p}, f, k);
      SetSumSplit(s - {k}, f, p);
      assert s - {p} - {k} == s - {k} - {p};
    }
  }

  /** Functions that agree on the keys have the same sum. */
  lemma {:induction false} SetSumCongruent(s: set<int>, f: int -> real, g: int -> real)
    requires forall k :: k in s ==> f(k) == g(k)
    ensures SetSum(s, f) == SetSum(s, g)
    decreases s
  {
    if s != {} {
      var p := Pick(s);
      SetSumCongruent(s - {p}, f, g);
    }
  }

  /** Keys where f is zero can be dropped from the sum. */
  lemma {:induction false} SetSumZeroOutside(s: set<int>, t: set<int>, f: int -> real)
    requires t <= s
    requires forall k :: k in s && k !in t ==> f(k) == 0.0
    ensures SetSum(s, f) == SetSum(t, f)
    decreases s
  {
    if s != t {
      if forall k :: k in s ==> k in t {
        assert false;
      }
      var k :| k in s && k !in t;
      SetSumSplit(s, f, k);
      SetSumZeroOutside(s - {k}, t, f);
    }
  }

  /** Summing over two sequences one after the other adds their sums. */
  lemma {:induction false} SeqSumAppend(a: seq<int>, b: seq<int>, f: int -> real)
    ensures SeqSum(a + b, f) == SeqSum(a, f) + SeqSum(b, f)
    decreases |b|
  {
    if |b| == 0 {
      assert a + b == a;
    } else {
      var b' := b[..|b| - 1];
      assert (a + b)[..|a + b| - 1] == a + b';
      SeqSumAppend(a, b', f);
    }
  }

  /** The left fold over any duplicate-free enumeration of a set equals the set sum. */
  lemma {:induction false} SeqSumIsSetSum(ids: seq<int>, f: int -> real)
    requires Distinct(ids)
    ensures SeqSum(ids, f) == SetSum(Members(ids), f)
    decreases |ids|
  {
    if |ids| > 0 {
      var last := ids[|ids| - 1];
      var init := ids[..|ids| - 1];
      SeqSumIsSetSum(init, f);
      var s := Members(ids);
      assert last in s;
      SetSumSplit(s, f, last);
      assert s - {last} == Members(init) by {
        forall k | k in s - {last} ensures k in init {
          var i :| 0 <= i < |ids| && ids[i] == k;
          assert i < |ids| - 1;
          assert init[i] == k;
        }
        forall k | k in init ensures k in s - {last} {
          var i :| 0 <= i < |init| && init[i] == k;
          assert ids[i] == k;
        }
      }
    }
  }
}

=== FILE: vectors.dfy ===
/** Three-component coordinates over exact reals, and the cross product the area formulas use. */
module Vectors {

  datatype Vec3 = Vec3(x: real, y: real, z: real)

  /** `numpy.linalg.norm`, left uninterpreted. */
  type Norm = Vec3 -> real

  /** `a - b` on numpy arrays. */
  function Sub(a: Vec3, b: Vec3): Vec3 {
    Vec3(a.x - b.x, a.y - b.y, a.z - b.z)
  }

  /** `numpy.cross(u, w)`. */
  function Cross(u: Vec3, w: Vec3): Vec3 {
    Vec3(u.y * w.z - u.z * w.y, u.z * w.x - u.x * w.z, u.x * w.y - u.y * w.x)
  }

  /** Swapping the operands of a cross product negates it. */
  lemma CrossAntiSymmetric(u: Vec3, w: Vec3)
    ensures Cross(w, u) == Vec3(-Cross(u, w).x, -Cross(u, w).y, -Cross(u, w).z)
  {
  }

  /**
   * The flat path's triangle product `(c-a) x (c-b)` equals the object path's
   * `(b-a) x (c-a)`: with u = b-a and w = c-a, (w) x (w-u) = -(w x u) = u x w.
   */
  lemma TriangleCrossProductsAgree(a: Vec3, b: Vec3, c: Vec3)
    ensures Cross(Sub(c, a), Sub(c, b)) == Cross(Sub(b, a), Sub(c, a))
  {
  }
}

=== FILE: wrappers.dfy ===
/** Failure-compatible Option and Result types used throughout the model. */
module Wrappers {

  /** A value that may be absent, such as a Python variable that was never bound. */
  datatype Option<+T> = None | Some(value: T) {
    predicate IsFailure() { None? }

    function PropagateFailure<U>(): Option<U>
      requires None?
    {
      None
    }

    function Extract(): T
      requires Some?
    {
      value
    }
  }

  /** Either a value or the exception that the Python code raises instead. */
  datatype Result<+T, +E> = Success(value: T) | Failure(error: E) {
    predicate IsFailure() { Failure? }

    function PropagateFailure<U>(): Result<U, E>
      requires Failure?
    {
      Failure(error)
    }

    function Extract(): T
      requires Success?
    {
      value
    }
  }

  /** Turns an absent value into the given failure. */
  function OrFail<T, E>(o: Option<T>, e: E): (r: Result<T, E>)
    ensures r.Success? <==> o.Some?
    ensures r.Success? ==> r.value == o.value
    ensures r.Failure? ==> r.error == e
  {
    match o
    case Some(v) => Success(v)
    case None => Failure(e)
  }
}
